=== FILE: README.md ===
# Short-video asset generator: a verified model

This project is a Dafny model of the deterministic core of a short-video asset
generator. The generator takes a video description and a narration script and
produces three assets:

- stock images for the description's keywords;
- a narration audio track, synthesised from the script;
- SubRip subtitles, transcribed from that audio.

The model leaves out the parts that wrap external tools: the thread pool,
the `tts`/`ffmpeg` subprocesses, Whisper, the stock-photo and LLM HTTP APIs,
and the filesystem. Their results become parameters of the functions that use
them ("oracles"). What remains is modelled as pure functions over immutable
datatypes, with contracts and lemmas that state what the code promises.

Modules, one per file:

- `Wrappers`: `Option` and `Outcome` (a value was returned, or an exception was raised).
- `Text`: Python's `isspace` set, `strip`, `split()`, `join`, single-character `replace`, and ASCII `lower`.
- `Decimal`: `str(n)`, zero padding (`{n:02d}`) and parsing digits back.
- `Splitting`: `re.split` / `str.split` for a literal separator or a script-header pattern, with the separators they consume.
- `Paths`: a POSIX path as an absolute flag plus components. Covers `/`, `parent`, `name`, `suffix`, `stem`, ordering and `sorted`.
- `Project` (main.py): the project configuration, its six directories, `create_directories` and the loading of the video description.
- `Orchestrator` (main.py): the three generation steps, the parallel run with its timeouts, the sequential fallback and the summary.
- `Subtitles` (audio_trascriber.py): timestamps, the SubRip serialiser, audio-file selection and the batch statistics.
- `Speech` (tts.py): text cleaning, chunking, the voice-model fallback, the input search order and `process_file`.
- `Scripts` (scripts_generator.py): the LLM-response parser, the run checks, the selection parser and the saved file.
- `Images` (image_downloader.py): source enablement, the per-keyword search plan, folder and file names, content-type check, counts and statistics.

## Model

| member | source | states |
|---|---|---|
| Project.DefaultConfig | main.py:28-47 | The defaults: root `projects`, project `default_project`, files `video.json` and `guion.txt`, no API keys, `max_workers` 3, verbose. |
| Project.DefaultLayout | main.py:31-52 | With the defaults, the project directory is `projects/default_project`. |
| Project.Layout | main.py:49-77 | Assets and temp lie directly below the project directory, and audio, images and subtitles directly below assets. Each directory carries its literal name, and temp is not inside assets. |
| Project.LayoutDistinct | main.py:79-89 | The six directories that `create_directories` lists are pairwise distinct, and every one after the first lies below the project directory. |
| Project.ProjectDirPlain | main.py:49-52 | For a one-component project name, the project directory is that name with spaces made `_`, directly below the root. |
| Project.SameProjectDir | main.py:49-52 | For names that are one path component (no `/`), two project names share a directory exactly when they agree after replacing spaces. |
| Project.CreateDirectories | main.py:79-91 | After `create_directories` all six directories exist, every directory that existed before still exists, and every new directory is one of the six or one of their parents. |
| Project.CreateDirectoriesIdempotent | main.py:79-91 | Creating the tree a second time changes nothing. |
| Project.LoadVideoConfig | main.py:121-138 | The project name becomes the description's `title` when there is one. Nothing else in the configuration changes. A missing file leaves the description empty. |
| Project.InitAsWrittenMissesTemp | main.py:97-106 | Finding: the directories are created before `title` renames the project. So the renamed project's temp directory does not exist after construction. |
| Project.InitCorrected | main.py:97-106 | With the description loaded first, all six directories of the final project exist. |
| Orchestrator.ImageDownloaderShape | main.py:140-159 | The images step builds a downloader with the description's keywords (default `video`, `contenido`) and its Google keywords (default: the keywords), three images per keyword and five per Google keyword. Each source is used exactly when its key is configured. Without a Google keyword list, every keyword is also searched on Google. |
| Orchestrator.GenerateImages | main.py:140-167 | The images step succeeds exactly when downloading returned without raising, even when nothing was downloaded. |
| Orchestrator.GenerateAudio | main.py:169-232 | The audio step yields a path exactly when all of these hold: the script exists, the directories could be made, synthesis returned a file, that file exists, and moving or copying it worked. The path is `audio_dir / <name>_audio.mp3`. For a project name without `/`, it lies directly in the audio directory under that name. |
| Orchestrator.AudioFilePlain | main.py:197-205 | A project name without `/` gives a one-component audio file name, so `audio_dir / audio_filename` adds exactly that component. |
| Orchestrator.SubtitleFileOfAudio | main.py:196-197 | For a project name without `/`, the audio file is named `<name>_audio.mp3`, so its subtitle file is `<name>_audio.srt`. |
| Orchestrator.GenerateSubtitles | main.py:234-268 | The subtitles step succeeds exactly when the audio exists, recognition returned, some segment has more than two characters once stripped, and saving worked. |
| Orchestrator.SubtitlesText | audio_trascriber.py:168-173 | `transcribe_audio` returns non-empty text exactly when some segment has more than two characters once stripped. |
| Orchestrator.SubtitlesStepWritesSrt | main.py:256-262 | The subtitles step succeeds exactly when transcribing the audio file to its default name would. That file is the audio stem with `.srt` in the subtitles directory, which is `<name>_audio.srt` for a project name without `/`. |
| Orchestrator.Parallel | main.py:271-325 | Parallel run:<br>• The audio flag holds exactly when a path is reported, and the path is the existing audio.<br>• Subtitles imply audio.<br>• A timeout of the audio or images wait, or of the subtitles wait once it is reached, gives all-false with no path. |
| Orchestrator.Sequential | main.py:327-347 | Sequential run: the audio flag holds exactly when the audio path exists, and subtitles only behind it. The path is reported as the audio step returned it. |
| Orchestrator.Run | main.py:409-421 | In either mode a subtitles success implies an audio success with an existing audio file. |
| Orchestrator.ModesAgree | main.py:271-347 | Without timeouts, both modes report the same three flags, and the same path whenever the audio is reported. |
| Orchestrator.ParallelFailsIff | main.py:271-325 | The parallel run is all-false exactly when a reached wait times out, or when neither the images nor the audio succeeded. |
| Orchestrator.SuccessCount | main.py:380-381 | The count is the number of true flags among images, audio and subtitles. So it is at most 3, 3 exactly when all three hold, and 0 exactly when none does. |
| Orchestrator.VerdictOf | main.py:383-388 | The verdict is "all" exactly when every step succeeded, and "none" exactly when no step did. |
| Orchestrator.TimeoutVerdict | main.py:313-320 | A run with a timed-out wait ends with the "none" verdict. A run without an existing audio file is never "all". |
| Orchestrator.ImageCount | main.py:374-378 | The image count exists exactly when the images directory exists. Its value is the number of walk entries ending in `.jpg` plus those ending in `.png`, so it is zero exactly when there are none. |
| Images.MatchingCount | main.py:376-377 | `rglob` of one extension lists one path per walk entry that ends in it. |
| Subtitles.TimestampFields | audio_trascriber.py:71-76 | Minutes and seconds lie in 0..59, and milliseconds in 0..999 for non-negative times. |
| Subtitles.FieldsAreMillis | audio_trascriber.py:73-76 | The four fields add up to the time truncated to whole milliseconds, and the first three to the whole seconds. |
| Subtitles.TimestampRoundTrip | audio_trascriber.py:77 | Reading back `HH:MM:SS,mmm` gives the time in whole milliseconds. |
| Subtitles.FormatZero | audio_trascriber.py:77 | 0 s formats as `00:00:00,000`. |
| Subtitles.FormatExample | audio_trascriber.py:77 | 3725.123 s formats as `01:02:05,123`. |
| Subtitles.PositionNumbered | audio_trascriber.py:83-90 | As written, each block carries its segment's 1-based input position. The segment there has that stripped text and is kept, and the indices strictly increase. |
| Subtitles.PositionNumberedComplete | audio_trascriber.py:86-90 | Every kept segment gets a block with its own position as index. |
| Subtitles.SameCuesWritten | audio_trascriber.py:83-92 | The as-written and contiguous numberings write the same cues in the same order. |
| Subtitles.AsWrittenSkipsIndex | audio_trascriber.py:83-90 | Finding: as written, a dropped first segment leaves the first block numbered 2; contiguous numbering gives 1. |
| Subtitles.NumberingAgreesWhenAllKept | audio_trascriber.py:83-92 | When every segment is kept, both numberings produce the same text. |
| Subtitles.SrtEmptyIffAsWritten | audio_trascriber.py:83-92 | The SubRip text as written is empty exactly when no segment has more than two characters once stripped. |
| Subtitles.SrtEmptyIff | audio_trascriber.py:83-92 | The same for the corrected numbering: empty exactly when no segment has more than two characters once stripped. |
| Subtitles.CorrectedBlocks | audio_trascriber.py:83-90 | Corrected numbering: the blocks hold exactly the kept cues, in order, and block `k` is numbered `k + 1`. |
| Subtitles.TranscribeAudio | audio_trascriber.py:125-176 | `transcribe_audio` returns exactly when the file exists and recognition worked. What it returns is the SubRip text of the segments as the code numbers them. |
| Subtitles.SrtNameKeepsStem | audio_trascriber.py:191-192 | The default subtitle name keeps the audio file's stem and has suffix `.srt`. |
| Subtitles.TranscribeSingle | audio_trascriber.py:178-201 | A path is returned exactly when transcription returned non-empty text and writing worked. By default the path is `<stem>.srt` in the output directory. |
| Subtitles.GetAudioFiles | audio_trascriber.py:108-123 | A missing directory gives nothing. Otherwise the result holds exactly the files with a listed audio suffix, each as often as the walk lists it. |
| Subtitles.GetAudioFilesSorted | audio_trascriber.py:123 | The audio files come back sorted. |
| Subtitles.Tally | audio_trascriber.py:236-254 | Every file is counted exactly once as processed or failed. The output files are the written paths, in order. |
| Subtitles.TranscribeAll | audio_trascriber.py:210-232 | No files gives `success=False` with zero counts. Otherwise the run succeeds with `processed + failed = total_files`. |
| Speech.DefaultTtsConfig | tts.py:31-54 | Defaults: the primary voice model, 200 characters per chunk, `mp3` output, temporary files not kept, and the root `tts_outputs`. |
| Speech.TtsLayout | tts.py:56-66 | The input, audio and temp directories lie directly below the root, named `input`, `audio` and `temp`, and are pairwise distinct. |
| Speech.SquashSpaces | tts.py:149 | Whitespace runs become single plain spaces; no new characters appear. |
| Speech.SquashNewlinesAbsent | tts.py:149-150 | Once every newline has become a space, the `\n{2,}` rule has nothing to do. |
| Speech.WhitelistAllowed | tts.py:157 | Text made only of allowed characters passes the whitelist unchanged. |
| Speech.SpaceAfterPunct | tts.py:160 | After the spacing rule, no punctuation mark is directly followed by a capital, and the first character is kept. |
| Speech.SpaceAfterPunctErase | tts.py:160 | The spacing rule only inserts spaces. |
| Speech.SpaceAfterPunctNoop | tts.py:160 | Text already spaced after punctuation passes unchanged. |
| Speech.CleanText | tts.py:146-169 | Corrected `_clean_text` (quotes removed before the spacing rule): no `¡`, `¿` or `"`, no leading, trailing or doubled whitespace (so no newline), and no punctuation mark followed by a capital. Every non-space character comes from the input and is allowed. |
| Speech.CleanTextAsWritten | tts.py:146-169 | `_clean_text` as written: normalised spaces, none of `¡ ¿ "`, and every kept character allowed. |
| Speech.AsWrittenJoinsPunctUpper | tts.py:160-163 | Finding: as written, `."B` cleans to `.B`, because removing the quote after the spacing rule rejoins the mark and the capital. |
| Speech.CleanTextSpacesQuoted | tts.py:160-163 | With quotes removed first, `."B` cleans to `. B`. |
| Speech.CleanTextIdempotent | tts.py:146-169 | The corrected cleaning is idempotent: cleaning its output changes nothing. |
| Speech.CleanTextAsWrittenStable | tts.py:146-169 | As written, cleaning its own output changes nothing whenever that output has no punctuation mark directly before a capital. |
| Speech.AsWrittenNotIdempotent | tts.py:160-163 | As written, cleaning is not idempotent: `."B` cleans to `.B`, and `.B` cleans to `. B`. |
| Speech.KeepLong | tts.py:218 | The kept fragments are exactly those whose stripped length exceeds 10, in their original order. |
| Speech.SplitText | tts.py:171-221 | Every fragment has stripped length above 10, and the fragments are a subsequence of the raw fragments. |
| Speech.SplitTextInOrder | tts.py:177-215 | The raw fragments spell the whole text, in order, once whitespace and commas are set aside. |
| Speech.CommaPieces | tts.py:198-209 | Cutting a long sentence at `, ` loses only commas and spaces, and leaves a non-empty last piece. |
| Speech.ShortParagraphsUnchanged | tts.py:179-181 | Paragraphs within the chunk size are emitted unchanged, one fragment each. |
| Speech.CleanTextOneParagraph | tts.py:146-177 | Text cleaned as written holds no newline, so it is one paragraph (or none). |
| Speech.CleanTextOneFragment | tts.py:146-218 | Text cleaned as written, of 11 to `max` characters, is read as exactly one fragment. |
| Speech.GenerateFragment | tts.py:223-262 | At most two attempts are made. The second happens exactly when a first attempt with the primary model completed unsuccessfully, and it uses the backup model. The model never switches back. Success needs return code 0, a file, and more than 1000 bytes. |
| Speech.SynthesizeAll | tts.py:391-403 | Every fragment is counted as synthesised or failed. Synthesised indices increase, and each had an attempt that succeeded. A fragment whose first attempt succeeds is synthesised. Once the backup model is in use it stays, and from then on exactly the fragments whose first attempt succeeds are synthesised. Starting with the primary model, the one retried fragment is the first whose attempt completes without success; it is synthesised exactly when its retry succeeds. The model ends as the backup exactly when it started so or some first attempt fell back. |
| Speech.FragmentNameInjective | tts.py:397 | Distinct fragment indices get distinct `fragment_NNN.wav` names. |
| Speech.FragmentPathsDistinct | tts.py:397 | Fragment files are distinct files directly inside the temp directory. |
| Speech.Candidates | tts.py:117-125 | The search list is the path itself, then for a relative path only its name in the working directory and then in the input directory. |
| Speech.FirstExisting | tts.py:127-132 | The first existing candidate is chosen; none existing gives nothing. |
| Speech.FirstDecoded | tts.py:134-144 | The text is that of the first encoding that decodes, trying the encodings in order; if none does, the call raises. |
| Speech.LoadText | tts.py:115-144 | `load_text` raises when no candidate exists. Otherwise it returns text read from the first existing candidate, stripped and cleaned as written. |
| Speech.DefaultOutputNameParts | tts.py:386-388 | The default output name has the input's stem plus `_audio` as stem, and the configured format as suffix. |
| Speech.ProcessFile | tts.py:369-467 | The output is `output_dir/<name>`. It exists exactly when some fragment was synthesised and every later step worked: the move or the concatenation, the final conversion, the clean-up unless temporary files are kept, and a final file over 1000 bytes. A single fragment is moved and several are concatenated. A load failure gives no output and synthesises nothing. The synthesised fragments are exactly those of the loaded text whose first attempt succeeded, plus the first fragment that fell back if its retry succeeded; each had a successful `tts` attempt, so when every attempt fails there is no output. |
| Speech.ProcessLoaded | tts.py:380-467 | After loading: an output exactly when some fragment was synthesised and every later step worked; one fragment is moved and several are concatenated. The synthesised fragments are those of the split text that the `tts` attempts and the single fallback retry made, so when every attempt fails there is no output. |
| Speech.ProcessFileSucceeds | tts.py:369-467 | Conversely, text that loads to at least one fragment, a first fragment that synthesises and file steps that all work give the output path. |
| Scripts.ReadRender | scripts_generator.py:151 | A rendered `## GUIÓN k:` script reads back as the same number and body. |
| Scripts.PyTake | scripts_generator.py:183 | Python slicing `xs[:n]` for any integer `n`, negative included. |
| Scripts.SeparatorStage | scripts_generator.py:146-151 | The separator strategy numbers its scripts 1, 2, 3… with non-blank stripped bodies. With no separator it yields nothing. |
| Scripts.PositionalBodies | scripts_generator.py:166-168 | Each header-split script's body is the stripped part at its split position. |
| Scripts.PositionalGap | scripts_generator.py:166-168 | A blank part leaves a gap: `[blank, x]` yields only script 2. |
| Scripts.FirstSplitting | scripts_generator.py:163-169 | The header pattern used is the first one that splits the text. |
| Scripts.HeaderStageBodies | scripts_generator.py:154-169 | Header-stage scripts come from the parts after the first header, numbered by position. |
| Scripts.FirstFitting | scripts_generator.py:173-176 | The last-resort separator is the first one giving at least the expected number of parts. |
| Scripts.LastResort | scripts_generator.py:172-181 | Without a fitting separator the previous result stays. Otherwise no script is numbered beyond the expected count. |
| Scripts.ParseScripts | scripts_generator.py:142-183 | The parser returns at most the expected number of scripts, numbered in increasing order. When the separator stage already has enough, its first ones are returned. |
| Scripts.SeparatorRoundTrip | scripts_generator.py:146-151 | Round trip: bodies joined with `===NUEVO_GUION===` parse back as scripts 1..n with those bodies. |
| Scripts.DocumentSplit | scripts_generator.py:164 | Splitting a rendered document on the header pattern gives an empty first part, then each script's body with the following newline. |
| Scripts.HeadingRoundTrip | scripts_generator.py:154-169 | Round trip: a document of `## GUIÓN k:` scripts numbered 1..N parses back to its first n scripts. |
| Scripts.Focus | scripts_generator.py:67-75 | Numbers 1 to 5 get their table entry; any other number gets `usa un enfoque único #n`. |
| Scripts.FocusDistinct | scripts_generator.py:67-75 | Two different numbers from the same range (table or fallback) get different focus texts. |
| Scripts.StartRun | scripts_generator.py:263-281 | A run starts exactly when an API is enabled, the description loads, and `num_guiones` is in 1..5. Otherwise the first failing check names the reason. |
| Scripts.ParseSelection | scripts_generator.py:313-334 | `todos`/`all` (any case) selects everything. A numeric selection is non-empty and only holds in-range indices. |
| Scripts.SelectionRoundTrip | scripts_generator.py:319-331 | Round trip: in-range indices written as comma-separated 1-based numbers parse back to the same indices, in order, duplicates kept. |
| Scripts.PicksSelected | scripts_generator.py:321-326 | Tokens that each select an index yield exactly those indices in order. |
| Scripts.SavedText | scripts_generator.py:243-250 | Nothing is written for an empty list. Otherwise the text is two newlines, a rule of 80 `=`, then the scripts joined by blank lines. |
| Scripts.SavedTextHoldsAll | scripts_generator.py:249-250 | The saved text contains every selected script. |
| Images.Construct | image_downloader.py:35-45 | A source is enabled exactly when asked for and its key is present. Missing keyword lists become empty. |
| Images.SearchPlan | image_downloader.py:245-255 | The plan follows the order unsplash, pexels, pixabay, google, and holds only enabled sources. Google is there only for Google keywords and uses the Google per-keyword count. |
| Images.PlanCovers | image_downloader.py:245-255 | Every source that applies to a keyword is in its plan. |
| Images.FolderName | image_downloader.py:235 | The folder name has the keyword's length: every space and `/` becomes `_`, and every other character is kept. |
| Images.FileNamePlain | image_downloader.py:265-267 | With the corrected file name (the folder name's replacements), each file name is a single path component ending in `.jpg`. |
| Images.ImageInFolder | image_downloader.py:265-267 | With the corrected file name, every image is saved directly inside its keyword folder. |
| Images.AsWrittenInFolderWithoutSlash | image_downloader.py:265-267 | For a keyword without `/`, the code's file name is the corrected one, so as written its images are saved directly inside the keyword folder. |
| Images.FileTailInjective | image_downloader.py:265 | Different sources or positions never give the same `_<source>_<NN>` tail. |
| Images.ImagePathsDistinct | image_downloader.py:264-267 | With the corrected file name, no two downloads of a keyword write to the same file. |
| Images.AsWrittenLeavesFolder | image_downloader.py:265-267 | Finding: as written, a keyword `a/b` puts its files under a sub-folder `a` that nobody creates. |
| Images.AcceptsIgnoresCase | image_downloader.py:208-209 | The content-type check ignores letter case. |
| Images.AcceptsTypePrefix | image_downloader.py:208-209 | Any header beginning with an accepted image type is accepted. |
| Images.DownloadSingle | image_downloader.py:197-228 | A download succeeds exactly when the request worked, the content type is an accepted image type, and a non-empty file was saved. |
| Images.CountTrue | image_downloader.py:274-278 | The success count is at most the number of URLs, and zero exactly when no download succeeded. |
| Images.Put | image_downloader.py:238-243 | Setting one source's count leaves the other three unchanged. |
| Images.RunPlanCounts | image_downloader.py:257-281 | A searched source ends with its successful downloads. |
| Images.KeywordCountsSpec | image_downloader.py:238-281 | Each source's count is its successful downloads when searched, 0 otherwise, and never more than the URLs found. |
| Images.Distinct | image_downloader.py:295 | The keyword union holds exactly the keywords of both lists, without duplicates. |
| Images.DownloadImages | image_downloader.py:290-328 | No keywords gives `success=False` with zero counts. Otherwise the run succeeds and every keyword is processed, errors included. The total is the sum of the per-keyword counts, and each keyword records its counts or its error. |
| Images.NoSourcesNoImages | image_downloader.py:245-255 | With no source enabled nothing is downloaded. |
| Images.DownloadedImages | image_downloader.py:330-338 | The listing holds exactly the files with an image extension, each as often as the per-extension matches list it. |
| Images.DownloadedImagesSorted | image_downloader.py:338 | The listing is sorted. |
| Paths.JoinChild | tts.py:57-66 | `root_dir / "input"` and the like: joining a name with no separator adds exactly that one component, so the result lies directly below the base and is named after the joined name. |
| Paths.SortSorted | audio_trascriber.py:123 | `sorted` of paths yields an ordered list (used for audio files and for downloaded images). |

## Left out

- Threads and waits: `ThreadPoolExecutor`, futures and wall-clock timeouts are not modelled. Each wait is a flag saying whether it timed out, and each step's result is an input.
- Subprocesses, Whisper and HTTP: `tts`, `ffmpeg`, speech recognition and every web API call are represented by their results only (return codes, sizes, recognised segments, URL lists, responses).
- The LLM calls and their prompt templates (scripts_generator.py:14-64, 76-141, 185-230). The parser and the run checks are modelled; the prompts are not. Neither is the interactive retry loop around the selection, nor `mostrar_guiones`.
- Filesystem effects: a directory tree is a set of paths. File existence, sizes and write success are inputs. `rglob` is a given list of paths.
- `_validate_sources` and `cleanup_empty_folders` (image_downloader.py:76-93, 340-369): they only log or delete empty folders.
- `print_summary`'s console output and the audio size in MB (a float). The success count, the verdict and the image count are modelled.
- extract_info_yt_channel.py is not part of this model.
- Subtitles.TimestampFields: seconds are exact reals. Python float artefacts, such as `.29` printing as `289` milliseconds, are not modelled.
- Speech.Allowed: `\w` is a parameter (`isWord`), because Unicode's word table is not modelled.
- Text.Lower: it is ASCII only. That is exact for the comparisons it serves (`todos`/`all`, the content type, audio suffixes).
- Scripts.HeaderStage: the header regexes use `re.IGNORECASE`. The model folds ASCII letters and the accented capitals of `GUIÓN` only.
- Scripts.StartRun: `int()` of the JSON value is taken as given. A description whose `num_guiones` is not a number (where `int` raises) is not modelled.
- Scripts.FocusDistinct: it is proved for numbers within one range, table or fallback. Comparing a table entry with a long fallback text is not done, because of a limit of the string literals involved.
- Project.LoadVideoConfig: the description's values are assumed to have the expected types. A JSON `null` is not modelled: it reads the same as a missing key, whereas the code would rename the project to `None` (`title`) or search no keywords (`keywords`, through `keywords or []`).
- Orchestrator.ImageDownloaderShape: for the same reason a `null` keyword list is treated as missing (defaults `video`, `contenido`); the code would pass `None` and the downloader would search no keywords.
- Images.Distinct: `list(set(...))` has no defined order in Python. The model uses first-occurrence order, and no property depends on the order.
- Images.DownloadImages: a keyword that raises is modelled as raising before it counts anything. Downloads it finished before raising are not in the total, as in the code.
- Orchestrator.GenerateAudio: the speech pipeline's result is an input. `Speech.ProcessFile` models how it is computed.
- Orchestrator.GenerateAudio: the audio file is only promised to lie directly in the audio directory when the project name has no `/`. pathlib would split such a name into further directories, and the model's `Join` does the same.
- Orchestrator.SubtitleFileOfAudio: stated only for project names without `/`, for the same reason.
- Orchestrator.SubtitlesStepWritesSrt: the `<name>_audio.srt` form is stated only for project names without `/`. For other names only the stem-plus-`.srt` form is stated.
- Project.SameProjectDir: stated only for names that are one path component. A name with `/` maps to several directories.
- Scripts.ParseSelection: a digit is an ASCII `0`-`9`. `str.isdigit` also accepts other Unicode digits (such as superscripts or Arabic-Indic digits), and those are not modelled.
- Scripts.HeaderStage: `\d` in the header regexes is taken as an ASCII digit. Python's `re` also matches other Unicode decimal digits there, and those are not modelled.
- Speech.CleanTextIdempotent: idempotence is proved for the corrected cleaning only. The code's cleaning is not idempotent (`Speech.AsWrittenNotIdempotent`); it is stable only on output without a mark before a capital (`Speech.CleanTextAsWrittenStable`).
- Images.FileNamePlain: proved for the corrected file name. For the code's name it holds when the keyword has no `/` (`Images.AsWrittenInFolderWithoutSlash`).
- Images.ImagePathsDistinct: proved for the corrected file name. For the code's name it carries over only to keywords without `/` (`Images.AsWrittenInFolderWithoutSlash`); for a keyword with `/` the code's paths are not shown distinct.
- The voice-model state across files: `SimpleTTS.current_model` persists between calls. The model carries it through one file's fragments only.

## Findings

| source | as written | input that shows it | evidently intended | confidence | as-written member | corrected member |
|---|---|---|---|---|---|---|
| audio_trascriber.py:83-90 | Blocks are numbered by input position, so a dropped short segment leaves a gap in the numbering. | Segments `["a", "hello"]`: the first block is numbered 2. | SubRip blocks numbered 1, 2, 3… | medium, not executed | Subtitles.AsWrittenSkipsIndex | Subtitles.CorrectedBlocks |
| main.py:97-106 | The directories are created before `title` renames the project. | A description with a title differing from the configured name: the renamed project's temp directory is never created. | Load the description, then create the directories of the final name. | low, not executed | Project.InitAsWrittenMissesTemp | Project.InitCorrected |
| tts.py:160-163 | `"` is removed after the punctuation-spacing rule, so it can bring a mark and a capital back together. | Text `."B` cleans to `.B`. | Punctuation followed by a capital is always spaced. | medium, not executed | Speech.AsWrittenJoinsPunctUpper | Speech.CleanText |
| image_downloader.py:265-267 | File names replace spaces but not `/`, unlike the folder name. | Keyword `AC/DC`: files go to the missing sub-folder `AC`, and every download of it fails. | The folder name's replacements also in the file name. | medium, not executed | Images.AsWrittenLeavesFolder | Images.ImageInFolder |

The pipeline follows the code wherever a finding applies. `Subtitles.TranscribeAudio` returns `Subtitles.SegmentsToSrtAsWritten`, the code's numbering. The corrected `Subtitles.SegmentsToSrt` (blocks from `Subtitles.CorrectedBlocks`) stands beside it. Both produce empty text for the same inputs (`Subtitles.SrtEmptyIffAsWritten`, `Subtitles.SrtEmptyIff`) and write the same cues (`Subtitles.SameCuesWritten`). Likewise `Speech.LoadText` cleans with `Speech.CleanTextAsWritten`; the corrected `Speech.CleanText` and its idempotence stand beside it. The download pipeline itself (`Images.DownloadSingle`, `Images.KeywordCounts`, `Images.DownloadImages`) uses no path: image paths occur only in the lemmas. Those about the corrected file name (`Images.ImageInFolder`, `Images.ImagePathsDistinct`) carry over to the code's name for keywords without `/` (`Images.AsWrittenInFolderWithoutSlash`).

=== FILE: decimal.dfy ===
/** Decimal rendering of naturals as Python's `str(n)` and `f"{n:0Wd}"` print
    them, and the inverse, Python's `int(s)` on a string of ASCII digits. */
module Decimal {
  import opened Text

  predicate IsDigit(c: char) {
    '0' <= c <= '9'
  }

  predicate AllDigits(s: string) {
    forall i :: 0 <= i < |s| ==> IsDigit(s[i])
  }

  function DigitChar(d: nat): (c: char)
    requires d < 10
    ensures IsDigit(c)
  {
    ('0' as int + d) as char
  }

  function DigitValue(c: char): (d: nat)
    requires IsDigit(c)
    ensures d < 10
  {
    c as int - '0' as int
  }

  /** `str(n)`: the shortest decimal numeral, without leading zeros. */
  function ShowNat(n: nat): (r: string)
    ensures |r| >= 1
    ensures AllDigits(r)
    ensures |r| > 1 ==> r[0] != '0'
    decreases n
  {
    if n < 10 then [DigitChar(n)] else ShowNat(n / 10) + [DigitChar(n % 10)]
  }

  /** `str(i)` for an integer that may be negative. */
  function ShowInt(i: int): (r: string)
    ensures i >= 0 ==> r == ShowNat(i)
    ensures i < 0 ==> r == "-" + ShowNat(-i)
  {
    if i < 0 then "-" + ShowNat(-i) else ShowNat(i)
  }

  /** `int(s)` on a (possibly empty here) string of ASCII digits. */
  function ParseDigits(s: string): nat
    requires AllDigits(s)
  {
    if |s| == 0 then 0 else 10 * ParseDigits(s[..|s| - 1]) + DigitValue(s[|s| - 1])
  }

  /** `int(str(n)) == n`. */
  lemma {:induction false} ParseShow(n: nat)
    ensures ParseDigits(ShowNat(n)) == n
    decreases n
  {
    if n >= 10 {
      var s := ShowNat(n);
      assert s[..|s| - 1] == ShowNat(n / 10);
      ParseShow(n / 10);
    }
  }

  /** `f"{n:0{w}d}"`: `str(n)` left-padded with zeros to at least `w` characters;
      the numeral is never truncated. */
  function ZeroPad(n: nat, w: nat): (r: string)
    ensures |r| == if |ShowNat(n)| >= w then |ShowNat(n)| else w
    ensures AllDigits(r)
    ensures ParseDigits(r) == n
  {
    var s := ShowNat(n);
    var z := if |s| >= w then 0 else w - |s|;
    ParseShow(n);
    LeadingZeros(z, s);
    Repeat('0', z) + s
  }

  lemma {:induction false} LeadingZeros(k: nat, s: string)
    requires AllDigits(s)
    ensures AllDigits(Repeat('0', k) + s)
    ensures ParseDigits(Repeat('0', k) + s) == ParseDigits(s)
    decreases |s|
  {
    var z := Repeat('0', k);
    if |s| == 0 {
      assert z + s == z;
      ZerosParseToZero(k);
    } else {
      var t := z + s;
      assert t[..|t| - 1] == z + s[..|s| - 1];
      LeadingZeros(k, s[..|s| - 1]);
    }
  }

  lemma {:induction false} ZerosParseToZero(k: nat)
    ensures ParseDigits(Repeat('0', k)) == 0
    decreases k
  {
    if k > 0 {
      assert Repeat('0', k)[..k - 1] == Repeat('0', k - 1);
      ZerosParseToZero(k - 1);
    }
  }

  /** `str(n)` already has width at least `w` when `n` has that many digits. */
  lemma {:induction false} ShowNatLength(n: nat, w: nat)
    requires n < Pow10(w)
    ensures |ShowNat(n)| <= w || (w == 0 && n == 0)
    decreases n
  {
    if n >= 10 {
      assert w >= 1;
      ShowNatLength(n / 10, w - 1);
    }
  }

  function Pow10(k: nat): (p: nat)
    ensures p >= 1
  {
    if k == 0 then 1 else 10 * Pow10(k - 1)
  }

  /** `str` is injective on integers: the sign and the digits give the value back. */
  lemma ShowIntInjective(a: int, b: int)
    requires ShowInt(a) == ShowInt(b)
    ensures a == b
  {
    if a >= 0 && b >= 0 {
      ParseShow(a);
      ParseShow(b);
    } else if a < 0 && b < 0 {
      assert ShowInt(a)[1..] == ShowNat(-a);
      assert ShowInt(b)[1..] == ShowNat(-b);
      ParseShow(-a);
      ParseShow(-b);
    }
  }
}

=== FILE: images.dfy ===
/** The bookkeeping of the image downloader (`image_downloader.py`): which
    sources are enabled, the order in which a keyword's sources are searched,
    folder and file names, the content-type check, the per-keyword counts,
    the statistics of a whole run and the listing of downloaded files. The
    searches and downloads themselves are oracle results. */
module Images {
  import opened Wrappers
  import opened Text
  import opened Decimal
  import opened Paths

  // ---- Sources

  datatype Source = Unsplash | Pexels | Pixabay | Google

  /** The key of a source in the per-keyword results and in file names. */
  function SourceName(s: Source): string {
    match s
    case Unsplash => "unsplash"
    case Pexels => "pexels"
    case Pixabay => "pixabay"
    case Google => "google"
  }

  /** Position of a source in the fixed search order. */
  function Rank(s: Source): nat {
    match s
    case Unsplash => 0
    case Pexels => 1
    case Pixabay => 2
    case Google => 3
  }

  /** The constructor arguments of `ImageDownloader` that the bookkeeping
      reads. A missing keyword list is `None`. */
  datatype Settings = Settings(
    projectName: string,
    keywords: Option<seq<string>>,
    googleKeywords: Option<seq<string>>,
    imagesPerKeyword: int,
    imagesPerKeywordGoogle: int,
    useUnsplash: bool,
    usePexels: bool,
    usePixabay: bool,
    useGoogle: bool,
    unsplashKey: Option<string>,
    pexelsKey: Option<string>,
    pixabayKey: Option<string>,
    serpapiKey: Option<string>)

  /** A constructed downloader: its base folder, keyword lists, per-source
      image counts and the sources it may search. */
  datatype Downloader = Downloader(
    baseDir: Path,
    keywords: seq<string>,
    googleKeywords: seq<string>,
    imagesPerKeyword: int,
    imagesPerKeywordGoogle: int,
    enabled: set<Source>)

  /** The `use_*` argument of a source. */
  function Requested(s: Settings, src: Source): bool {
    match src
    case Unsplash => s.useUnsplash
    case Pexels => s.usePexels
    case Pixabay => s.usePixabay
    case Google => s.useGoogle
  }

  /** The API key of a source (SerpAPI's for Google). */
  function KeyOf(s: Settings, src: Source): Option<string> {
    match src
    case Unsplash => s.unsplashKey
    case Pexels => s.pexelsKey
    case Pixabay => s.pixabayKey
    case Google => s.serpapiKey
  }

  /** `xs or []`. */
  function OrEmpty(xs: Option<seq<string>>): seq<string> {
    match xs
    case None => []
    case Some(v) => v
  }

  /** `ImageDownloader.__init__`: a source is enabled when it is asked for and
      its key is present. */
  function Construct(s: Settings): (d: Downloader)
    ensures forall src :: src in d.enabled <==> Requested(s, src) && KeyOf(s, src).Some?
    ensures d.keywords == OrEmpty(s.keywords) && d.googleKeywords == OrEmpty(s.googleKeywords)
    ensures d.baseDir == ParsePath(s.projectName)
  {
    var u := if s.useUnsplash && s.unsplashKey != None then {Unsplash} else {};
    var pe := if s.usePexels && s.pexelsKey != None then {Pexels} else {};
    var pi := if s.usePixabay && s.pixabayKey != None then {Pixabay} else {};
    var g := if s.useGoogle && s.serpapiKey != None then {Google} else {};
    Downloader(ParsePath(s.projectName), OrEmpty(s.keywords), OrEmpty(s.googleKeywords),
               s.imagesPerKeyword, s.imagesPerKeywordGoogle, u + pe + pi + g)
  }

  // ---- The search plan of one keyword

  /** A source searched for a keyword, with the number of images asked of it. */
  datatype Search = Search(source: Source, perPage: int)

  /** A source is searched for `keyword` when it is enabled; Google only for
      the keywords listed for it. */
  predicate Searched(d: Downloader, keyword: string, src: Source) {
    src in d.enabled && (src == Google ==> keyword in d.googleKeywords)
  }

  /** Google is asked for its own number of images, the others for the
      common one. */
  function PerPage(d: Downloader, src: Source): int {
    if src == Google then d.imagesPerKeywordGoogle else d.imagesPerKeyword
  }

  function Step(d: Downloader, keyword: string, src: Source): seq<Search> {
    if Searched(d, keyword, src) then [Search(src, PerPage(d, src))] else []
  }

  /** `sources_config` of `_download_images_for_keyword`. */
  function SearchPlan(d: Downloader, keyword: string): (r: seq<Search>)
    ensures forall k :: 0 <= k < |r| ==> Searched(d, keyword, r[k].source) && r[k].perPage == PerPage(d, r[k].source)
    ensures forall j, k :: 0 <= j < k < |r| ==> Rank(r[j].source) < Rank(r[k].source)
  {
    Step(d, keyword, Unsplash) + Step(d, keyword, Pexels) + Step(d, keyword, Pixabay) + Step(d, keyword, Google)
  }

  /** Every source that should be searched is in the plan. */
  lemma PlanCovers(d: Downloader, keyword: string, src: Source)
    requires Searched(d, keyword, src)
    ensures exists k :: 0 <= k < |SearchPlan(d, keyword)| && SearchPlan(d, keyword)[k].source == src
  {
    var a := Step(d, keyword, Unsplash);
    var b := Step(d, keyword, Pexels);
    var c := Step(d, keyword, Pixabay);
    var r := SearchPlan(d, keyword);
    if src == Unsplash { assert r[0].source == src; }
    else if src == Pexels { assert r[|a|].source == src; }
    else if src == Pixabay { assert r[|a| + |b|].source == src; }
    else { assert r[|a| + |b| + |c|].source == src; }
  }

  /** Each source occurs at most once in a plan. */
  lemma PlanOnce(d: Downloader, keyword: string, j: nat, k: nat)
    requires j < k < |SearchPlan(d, keyword)|
    ensures SearchPlan(d, keyword)[j].source != SearchPlan(d, keyword)[k].source
  {
  }

  // ---- Folder and file names

  /** `keyword.replace(" ", "_").replace("/", "_")`. */
  function FolderName(keyword: string): (r: string)
    ensures |r| == |keyword| && ' ' !in r && '/' !in r
    ensures forall i :: 0 <= i < |keyword| && keyword[i] != ' ' && keyword[i] != '/' ==> r[i] == keyword[i]
    ensures forall i :: 0 <= i < |keyword| && (keyword[i] == ' ' || keyword[i] == '/') ==> r[i] == '_'
  {
    ReplaceChar(ReplaceChar(keyword, ' ', '_'), '/', '_')
  }

  /** `base_dir / folder`. */
  function KeywordFolder(d: Downloader, keyword: string): Path {
    Join(d.baseDir, FolderName(keyword))
  }

  /** What follows the keyword in a file name, before `.jpg`: `_<source>_<NN>`. */
  function FileTail(src: Source, i: nat): (r: string)
    ensures |r| >= 2 + |SourceName(src)|
  {
    "_" + SourceName(src) + "_" + ZeroPad(i, 2)
  }

  /** The file name the code builds: only spaces of the keyword are replaced,
      so a '/' in the keyword stays in the name. */
  function FileNameAsWritten(keyword: string, src: Source, i: nat): string {
    ReplaceChar(keyword, ' ', '_') + FileTail(src, i) + ".jpg"
  }

  /** The file name with the folder name's replacements, so that it is always
      one path component. */
  function FileName(keyword: string, src: Source, i: nat): string {
    FolderName(keyword) + FileTail(src, i) + ".jpg"
  }

  /** Where the `i`-th URL of a source is saved. */
  function ImagePath(d: Downloader, keyword: string, src: Source, i: nat): Path {
    Join(KeywordFolder(d, keyword), FileName(keyword, src, i))
  }

  lemma TailNoSlash(src: Source, i: nat)
    ensures '/' !in FileTail(src, i)
  {
    var z := ZeroPad(i, 2);
    assert AllDigits(z);
    assert '/' !in SourceName(src);
    NotInConcat('/', "_" + SourceName(src), "_");
    NotInConcat('/', "_", SourceName(src));
    NotInConcat('/', "_" + SourceName(src) + "_", z);
  }

  lemma NotInConcat(c: char, a: string, b: string)
    requires c !in a && c !in b
    ensures c !in a + b
  {
    forall i | 0 <= i < |a + b| ensures (a + b)[i] != c {
      if i < |a| { assert (a + b)[i] == a[i]; } else { assert (a + b)[i] == b[i - |a|]; }
    }
  }

  /** A name without '/' followed by `.jpg` is one component with suffix `.jpg`. */
  lemma JpgName(pre: string)
    requires '/' !in pre && pre != ""
    ensures IsPlainName(pre + ".jpg") && Suffix(pre + ".jpg") == ".jpg"
  {
    var f := pre + ".jpg";
    var n := |f|;
    NotInConcat('/', pre, ".jpg");
    assert f[..n - 3] == pre + ".";
    assert LastDot(f[..n - 3]) == n - 4;
    assert f[..n - 2][..n - 3] == f[..n - 3];
    assert LastDot(f[..n - 2]) == n - 4;
    assert f[..n - 1][..n - 2] == f[..n - 2];
    assert LastDot(f[..n - 1]) == n - 4;
    assert f[..n][..n - 1] == f[..n - 1];
    assert LastDot(f) == n - 4;
    assert f[n - 4..] == ".jpg";
  }

  /** A file name is one path component ending in `.jpg`. */
  lemma FileNamePlain(keyword: string, src: Source, i: nat)
    ensures IsPlainName(FileName(keyword, src, i))
    ensures Suffix(FileName(keyword, src, i)) == ".jpg"
  {
    TailNoSlash(src, i);
    NotInConcat('/', FolderName(keyword), FileTail(src, i));
    JpgName(FolderName(keyword) + FileTail(src, i));
  }

  /** Every image of a keyword is saved directly inside its folder. */
  lemma ImageInFolder(d: Downloader, keyword: string, src: Source, i: nat)
    ensures Parent(ImagePath(d, keyword, src, i)) == KeywordFolder(d, keyword)
  {
    FileNamePlain(keyword, src, i);
    JoinPlain(KeywordFolder(d, keyword), FileName(keyword, src, i));
  }

  /** For a keyword without '/', the code's file name is the corrected one,
      so as written each image of such a keyword is saved directly inside its
      folder. */
  lemma AsWrittenInFolderWithoutSlash(d: Downloader, keyword: string, src: Source, i: nat)
    requires '/' !in keyword
    ensures FileNameAsWritten(keyword, src, i) == FileName(keyword, src, i)
    ensures Parent(Join(KeywordFolder(d, keyword), FileNameAsWritten(keyword, src, i))) == KeywordFolder(d, keyword)
  {
    var spaced := ReplaceChar(keyword, ' ', '_');
    assert '/' !in spaced by {
      forall x | 0 <= x < |spaced| ensures spaced[x] != '/' {
        assert keyword[x] != '/';
      }
    }
    ReplaceAbsent(spaced, '/', '_');
    ImageInFolder(d, keyword, src, i);
  }

  /** `a + x == a + y` means `x == y`. */
  lemma DropPrefix(a: string, x: string, y: string)
    requires a + x == a + y
    ensures x == y
  {
    assert x == (a + x)[|a|..];
    assert y == (a + y)[|a|..];
  }

  /** `x + e == y + e` means `x == y`. */
  lemma DropSuffix(x: string, y: string, e: string)
    requires x + e == y + e
    ensures x == y
  {
    assert x == (x + e)[..|x|];
    assert y == (y + e)[..|y|];
  }

  /** The first two letters tell the sources apart. */
  lemma SourceNamesDiffer(s1: Source, s2: Source)
    requires s1 != s2
    ensures SourceName(s1)[..2] != SourceName(s2)[..2]
  {
    Initials(s1);
    Initials(s2);
  }

  lemma Initials(s: Source)
    ensures SourceName(s)[..2] == match s
      case Unsplash => "un" case Pexels => "pe" case Pixabay => "pi" case Google => "go"
  {
    match s
    case Unsplash => assert "unsplash"[..2] == "un";
    case Pexels => assert "pexels"[..2] == "pe";
    case Pixabay => assert "pixabay"[..2] == "pi";
    case Google => assert "google"[..2] == "go";
  }

  /** Equal concatenations agree on their first two characters. */
  lemma SamePrefix(a: string, x: string, b: string, y: string)
    requires a + x == b + y && |a| >= 2 && |b| >= 2
    ensures a[..2] == b[..2]
  {
    assert a[..2] == (a + x)[..2];
    assert b[..2] == (b + y)[..2];
  }

  lemma TailPieces(n: string, z: string)
    ensures "_" + n + "_" + z == "_" + (n + ("_" + z))
  {
  }

  /** Different sources or positions never share a file name tail. */
  lemma FileTailInjective(s1: Source, i: nat, s2: Source, j: nat)
    requires FileTail(s1, i) == FileTail(s2, j)
    ensures s1 == s2 && i == j
  {
    var n1 := SourceName(s1);
    var n2 := SourceName(s2);
    var z1 := ZeroPad(i, 2);
    var z2 := ZeroPad(j, 2);
    TailPieces(n1, z1);
    TailPieces(n2, z2);
    DropPrefix("_", n1 + ("_" + z1), n2 + ("_" + z2));
    SamePrefix(n1, "_" + z1, n2, "_" + z2);
    if s1 != s2 {
      SourceNamesDiffer(s1, s2);
      assert false;
    }
    DropPrefix(n1, "_" + z1, "_" + z2);
    DropPrefix("_", z1, z2);
  }

  /** Different sources or positions never share a file name. */
  lemma FileNameInjective(keyword: string, s1: Source, i: nat, s2: Source, j: nat)
    requires FileName(keyword, s1, i) == FileName(keyword, s2, j)
    ensures s1 == s2 && i == j
  {
    var f := FolderName(keyword);
    DropSuffix(f + FileTail(s1, i), f + FileTail(s2, j), ".jpg");
    DropPrefix(f, FileTail(s1, i), FileTail(s2, j));
    FileTailInjective(s1, i, s2, j);
  }

  /** No two downloads of a keyword write to the same file. */
  lemma ImagePathsDistinct(d: Downloader, keyword: string, s1: Source, i: nat, s2: Source, j: nat)
    requires s1 != s2 || i != j
    ensures ImagePath(d, keyword, s1, i) != ImagePath(d, keyword, s2, j)
  {
    var folder := KeywordFolder(d, keyword);
    FileNamePlain(keyword, s1, i);
    FileNamePlain(keyword, s2, j);
    JoinPlain(folder, FileName(keyword, s1, i));
    JoinPlain(folder, FileName(keyword, s2, j));
    if ImagePath(d, keyword, s1, i) == ImagePath(d, keyword, s2, j) {
      var a := ImagePath(d, keyword, s1, i).parts;
      assert a[|a| - 1] == FileName(keyword, s1, i);
      assert ImagePath(d, keyword, s2, j).parts[|a| - 1] == FileName(keyword, s2, j);
      FileNameInjective(keyword, s1, i, s2, j);
    }
  }

  /** As written, a keyword `a/b` (for instance "AC/DC") is saved under a
      sub-folder `a` of its keyword folder, a folder nobody creates: every
      download of that keyword fails to open its file. */
  lemma AsWrittenLeavesFolder(d: Downloader, a: string, b: string, src: Source, i: nat)
    requires IsPlainName(a) && IsPlainName(b) && ' ' !in a && ' ' !in b
    ensures var folder := KeywordFolder(d, a + "/" + b);
      var path := Join(folder, FileNameAsWritten(a + "/" + b, src, i));
      Parent(path) == Path(folder.absolute, folder.parts + [a]) && Parent(path) != folder
  {
    var kw := a + "/" + b;
    var folder := KeywordFolder(d, kw);
    var t := FileTail(src, i);
    var tail := b + t + ".jpg";
    NotInConcat(' ', a, "/");
    NotInConcat(' ', a + "/", b);
    ReplaceAbsent(kw, ' ', '_');
    SlashPieces(a, b, t);
    TailNoSlash(src, i);
    NotInConcat('/', b, t);
    JpgName(b + t);
    JoinTwo(folder, a, tail);
    var path := Join(folder, FileNameAsWritten(kw, src, i));
    assert path.parts == folder.parts + [a, tail];
    assert Parent(path).parts == folder.parts + [a];
  }

  /** Replacing a character that does not occur changes nothing. */
  lemma ReplaceAbsent(s: string, a: char, b: char)
    requires a !in s
    ensures ReplaceChar(s, a, b) == s
  {
    var r := ReplaceChar(s, a, b);
    assert forall i :: 0 <= i < |s| ==> r[i] == s[i];
  }

  lemma SlashPieces(a: string, b: string, t: string)
    ensures a + "/" + b + t + ".jpg" == a + "/" + (b + t + ".jpg")
  {
  }

  // ---- The content-type check

  const ImageTypes: seq<string> := ["image/jpeg", "image/png", "image/jpg"]

  /** The lower-cased `content-type` header, "" when absent. */
  function ContentType(header: Option<string>): string {
    match header
    case None => ""
    case Some(h) => Lower(h)
  }

  /** A response is an image when its content type mentions one of the three
      image types. */
  predicate Accepts(header: Option<string>) {
    Contains(ContentType(header), "image/jpeg")
    || Contains(ContentType(header), "image/png")
    || Contains(ContentType(header), "image/jpg")
  }

  /** No header, no image. */
  lemma AcceptsNeedsHeader()
    ensures !Accepts(None)
  {
  }

  lemma {:induction false} LowerIdempotent(s: string)
    ensures Lower(Lower(s)) == Lower(s)
  {
    forall i | 0 <= i < |s| ensures Lower(Lower(s))[i] == Lower(s)[i] {
      assert LowerChar(LowerChar(s[i])) == LowerChar(s[i]);
    }
  }

  /** The check ignores case: a header and its lower-cased form are judged
      alike. */
  lemma AcceptsIgnoresCase(h: string)
    ensures Accepts(Some(h)) == Accepts(Some(Lower(h)))
  {
    LowerIdempotent(h);
  }

  /** A header that starts with one of the image types (parameters such as
      `; charset=...` may follow) is accepted. */
  lemma AcceptsTypePrefix(t: string, rest: string)
    requires t in ImageTypes
    ensures Accepts(Some(t + rest))
  {
    var h := t + rest;
    var ct := Lower(h);
    forall i | 0 <= i < |t| ensures ct[i] == t[i] {
      assert h[i] == t[i];
    }
    assert ct[0..|t|] == t;
    assert OccursAt(ct, t, 0);
  }

  // ---- One download

  /** What one HTTP download came to: the request or its status check raised,
      or a response with its content-type header. */
  datatype Response = RequestFailed | Responded(contentType: Option<string>)

  /** `_download_single_image`: `saved` is the size of the written file, `None`
      when writing raised or left no file. */
  function DownloadSingle(resp: Response, saved: Option<nat>): (ok: bool)
    ensures ok ==> resp.Responded? && Accepts(resp.contentType)
    ensures ok <==> resp.Responded? && Accepts(resp.contentType) && saved.Some? && saved.value > 0
  {
    match resp
    case RequestFailed => false
    case Responded(ct) =>
      if !Accepts(ct) then false
      else saved.Some? && saved.value > 0
  }

  // ---- Per-keyword counts

  /** The number of successful downloads. */
  function CountTrue(bs: seq<bool>): (n: nat)
    ensures n <= |bs|
    ensures n == 0 <==> forall k :: 0 <= k < |bs| ==> !bs[k]
  {
    if |bs| == 0 then 0 else (if bs[0] then 1 else 0) + CountTrue(bs[1..])
  }

  /** The search oracle: for a keyword, a source and the number of images
      asked, one entry per URL found, true when that URL's download succeeded. */
  type Found = (string, Source, int) -> seq<bool>

  /** The `results` dictionary: one count per source. */
  datatype Counts = Counts(unsplash: nat, pexels: nat, pixabay: nat, google: nat)

  /** `results[source_name]`. */
  function Get(c: Counts, src: Source): nat {
    match src
    case Unsplash => c.unsplash
    case Pexels => c.pexels
    case Pixabay => c.pixabay
    case Google => c.google
  }

  /** `results[source_name] = n`. */
  function Put(c: Counts, src: Source, n: nat): (r: Counts)
    ensures Get(r, src) == n
    ensures forall other :: other != src ==> Get(r, other) == Get(c, other)
  {
    match src
    case Unsplash => c.(unsplash := n)
    case Pexels => c.(pexels := n)
    case Pixabay => c.(pixabay := n)
    case Google => c.(google := n)
  }

  /** The per-keyword result before any source is searched. */
  const NoCounts: Counts := Counts(0, 0, 0, 0)

  /** The loop over the plan: a source's count is set only when its search
      found URLs. */
  function RunPlan(keyword: string, plan: seq<Search>, found: Found, acc: Counts): (r: Counts)
    ensures forall src :: (forall k :: 0 <= k < |plan| ==> plan[k].source != src) ==> Get(r, src) == Get(acc, src)
    decreases |plan|
  {
    if |plan| == 0 then acc
    else
      var s := plan[0];
      var urls := found(keyword, s.source, s.perPage);
      var acc' := if |urls| > 0 then Put(acc, s.source, CountTrue(urls)) else acc;
      RunPlan(keyword, plan[1..], found, acc')
  }

  /** The count a searched source ends with: its successful downloads, which
      is 0 when nothing was found. */
  lemma {:induction false} RunPlanCounts(keyword: string, plan: seq<Search>, found: Found,
                                         acc: Counts, k: nat)
    requires k < |plan|
    requires forall j :: 0 <= j < |plan| && j != k ==> plan[j].source != plan[k].source
    requires Get(acc, plan[k].source) == 0
    ensures Get(RunPlan(keyword, plan, found, acc), plan[k].source)
      == CountTrue(found(keyword, plan[k].source, plan[k].perPage))
    decreases |plan|
  {
    var s := plan[0];
    var urls := found(keyword, s.source, s.perPage);
    var acc' := if |urls| > 0 then Put(acc, s.source, CountTrue(urls)) else acc;
    if k == 0 {
      var rest := plan[1..];
      assert forall j :: 0 <= j < |rest| ==> rest[j].source != s.source by {
        forall j | 0 <= j < |rest| ensures rest[j].source != s.source {
          assert rest[j] == plan[j + 1];
        }
      }
    } else {
      assert s.source != plan[k].source;
      RunPlanCounts(keyword, plan[1..], found, acc', k - 1);
    }
  }

  /** `_download_images_for_keyword` (when nothing raises): the four counts. */
  function KeywordCounts(d: Downloader, keyword: string, found: Found): Counts {
    RunPlan(keyword, SearchPlan(d, keyword), found, NoCounts)
  }

  /** Each source's count is its successful downloads when it is searched and
      0 otherwise; in particular it never exceeds the URLs found and changes
      only when URLs were found. */
  lemma KeywordCountsSpec(d: Downloader, keyword: string, found: Found, src: Source)
    ensures var n := Get(KeywordCounts(d, keyword, found), src);
      n == if Searched(d, keyword, src) then CountTrue(found(keyword, src, PerPage(d, src))) else 0
    ensures Get(KeywordCounts(d, keyword, found), src) <= |found(keyword, src, PerPage(d, src))|
  {
    var plan := SearchPlan(d, keyword);
    if Searched(d, keyword, src) {
      PlanCovers(d, keyword, src);
      var k :| 0 <= k < |plan| && plan[k].source == src;
      forall j | 0 <= j < |plan| && j != k ensures plan[j].source != plan[k].source {
        if j < k { PlanOnce(d, keyword, j, k); } else { PlanOnce(d, keyword, k, j); }
      }
      RunPlanCounts(keyword, plan, found, NoCounts, k);
    }
  }

  /** `sum(results.values())`. */
  function Total(c: Counts): (n: nat)
    ensures forall src :: Get(c, src) <= n
  {
    c.unsplash + c.pexels + c.pixabay + c.google
  }

  // ---- A whole run

  /** `list(set(keywords + google_keywords))`, in first-occurrence order: the
      order of a Python set is not part of this model, and nothing below
      depends on it. */
  function Distinct(xs: seq<string>): (r: seq<string>)
    ensures forall x :: x in r <==> x in xs
    ensures forall i, j :: 0 <= i < j < |r| ==> r[i] != r[j]
    ensures |r| <= |xs|
    decreases |xs|
  {
    if |xs| == 0 then []
    else
      var rest := Distinct(xs[..|xs| - 1]);
      var x := xs[|xs| - 1];
      assert forall y :: y in xs <==> y in xs[..|xs| - 1] || y == x by {
        assert xs == xs[..|xs| - 1] + [x];
      }
      if x in rest then rest else rest + [x]
  }

  /** What became of one keyword: its counts, or the error it raised. */
  datatype KeywordResult = Counted(counts: Counts) | Errored

  datatype Stats = Stats(success: bool, totalImages: nat, keywordsProcessed: nat,
                         detailed: map<string, KeywordResult>)

  /** Images a keyword adds to the total: none when its processing raised. */
  function KeywordImages(d: Downloader, keyword: string, found: Found, raises: string -> bool): nat {
    ResultImages(KeywordOutcome(d, keyword, found, raises))
  }

  /** What `detailed[keyword]` records: the counts, or the error. */
  function KeywordOutcome(d: Downloader, keyword: string, found: Found, raises: string -> bool): KeywordResult {
    if raises(keyword) then Errored else Counted(KeywordCounts(d, keyword, found))
  }

  /** The images a keyword adds to the total: none when it raised. */
  function ResultImages(r: KeywordResult): nat {
    if r.Errored? then 0 else Total(r.counts)
  }

  /** Reference total over a list of keywords. */
  function SumImages(d: Downloader, kws: seq<string>, found: Found, raises: string -> bool): nat
    decreases |kws|
  {
    if |kws| == 0 then 0
    else SumImages(d, kws[..|kws| - 1], found, raises) + KeywordImages(d, kws[|kws| - 1], found, raises)
  }

  /** `download_images`: `raises` tells which keywords raise while being
      processed (a folder that cannot be created, say). Every keyword is
      recorded and counted as processed, errors included. */
  method DownloadImages(d: Downloader, found: Found, raises: string -> bool) returns (stats: Stats)
    ensures var all := Distinct(d.keywords + d.googleKeywords);
      all == [] ==> stats == Stats(false, 0, 0, map[])
    ensures var all := Distinct(d.keywords + d.googleKeywords);
      all != [] ==> stats.success && stats.keywordsProcessed == |all|
    ensures stats.totalImages == SumImages(d, Distinct(d.keywords + d.googleKeywords), found, raises)
    ensures forall k :: k in stats.detailed <==> k in d.keywords || k in d.googleKeywords
    ensures forall k :: k in stats.detailed ==>
      stats.detailed[k] == if raises(k) then Errored else Counted(KeywordCounts(d, k, found))
  {
    var all := Distinct(d.keywords + d.googleKeywords);
    if all == [] {
      assert forall k :: !(k in d.keywords || k in d.googleKeywords) by {
        forall k ensures !(k in d.keywords || k in d.googleKeywords) {
          assert k in d.keywords + d.googleKeywords <==> k in d.keywords || k in d.googleKeywords;
        }
      }
      return Stats(false, 0, 0, map[]);
    }
    var total, detailed := ProcessKeywords(d, all, found, raises);
    forall k ensures k in detailed <==> k in d.keywords || k in d.googleKeywords {
      assert k in d.keywords + d.googleKeywords <==> k in d.keywords || k in d.googleKeywords;
    }
    return Stats(true, total, |all|, detailed);
  }

  /** The loop of `download_images`: each keyword in turn, its outcome
      recorded and its images added to the total. */
  method ProcessKeywords(d: Downloader, kws: seq<string>, found: Found, raises: string -> bool)
    returns (total: nat, detailed: map<string, KeywordResult>)
    ensures total == SumImages(d, kws, found, raises)
    ensures forall k :: k in detailed <==> k in kws
    ensures forall k :: k in detailed ==>
      detailed[k] == if raises(k) then Errored else Counted(KeywordCounts(d, k, found))
  {
    detailed := map[];
    total := 0;
    var i := 0;
    while i < |kws|
      invariant 0 <= i <= |kws|
      invariant total == SumImages(d, kws[..i], found, raises)
      invariant forall k :: k in detailed <==> k in kws[..i]
      invariant forall k :: k in detailed ==> detailed[k] == KeywordOutcome(d, k, found, raises)
    {
      var kw := kws[i];
      var outcome := KeywordOutcome(d, kw, found, raises);
      detailed := detailed[kw := outcome];
      total := total + ResultImages(outcome);
      assert kws[..i + 1] == kws[..i] + [kw];
      i := i + 1;
    }
    assert kws[..i] == kws;
  }

  /** With no source enabled nothing is downloaded. */
  lemma {:induction false} NoSourcesNoImages(d: Downloader, kws: seq<string>, found: Found, raises: string -> bool)
    requires d.enabled == {}
    ensures SumImages(d, kws, found, raises) == 0
    decreases |kws|
  {
    if |kws| > 0 {
      NoSourcesNoImages(d, kws[..|kws| - 1], found, raises);
      var kw := kws[|kws| - 1];
      var m := KeywordCounts(d, kw, found);
      KeywordCountsSpec(d, kw, found, Unsplash);
      KeywordCountsSpec(d, kw, found, Pexels);
      KeywordCountsSpec(d, kw, found, Pixabay);
      KeywordCountsSpec(d, kw, found, Google);
    }
  }

  // ---- Listing the downloaded files

  const ImageExtensions: seq<string> := [".jpg", ".jpeg", ".png", ".gif", ".bmp"]

  predicate EndsWith(x: string, e: string) {
    |e| <= |x| && x[|x| - |e|..] == e
  }

  /** `base_dir.rglob(f"*{ext}")` over the walk of the base folder. */
  function Matching(walk: seq<Path>, ext: string): (r: seq<Path>)
    ensures forall p :: p in r <==> p in walk && EndsWith(Name(p), ext)
  {
    if |walk| == 0 then []
    else
      var rest := Matching(walk[1..], ext);
      assert forall p :: p in walk <==> p == walk[0] || p in walk[1..];
      if EndsWith(Name(walk[0]), ext) then [walk[0]] + rest else rest
  }

  /** The positions of the walk whose name ends in `ext`. */
  function Hits(walk: seq<Path>, ext: string): set<nat> {
    HitsFrom(walk, ext, 0)
  }

  function HitsFrom(walk: seq<Path>, ext: string, lo: nat): set<nat> {
    set i: nat | lo <= i < |walk| && EndsWith(Name(walk[i]), ext)
  }

  /** There is one match per matching position of the walk. */
  lemma MatchingCount(walk: seq<Path>, ext: string)
    ensures |Matching(walk, ext)| == |Hits(walk, ext)|
  {
    MatchingCountFrom(walk, ext, 0);
    assert walk[0..] == walk;
  }

  lemma {:induction false} MatchingCountFrom(walk: seq<Path>, ext: string, lo: nat)
    requires lo <= |walk|
    ensures |Matching(walk[lo..], ext)| == |HitsFrom(walk, ext, lo)|
    decreases |walk| - lo
  {
    if lo == |walk| {
      assert HitsFrom(walk, ext, lo) == {};
    } else {
      MatchingCountFrom(walk, ext, lo + 1);
      var w := walk[lo..];
      assert w[0] == walk[lo] && w[1..] == walk[lo + 1..];
      var later := HitsFrom(walk, ext, lo + 1);
      assert lo !in later;
      if EndsWith(Name(walk[lo]), ext) {
        assert HitsFrom(walk, ext, lo) == later + {lo};
      } else {
        assert HitsFrom(walk, ext, lo) == later;
      }
    }
  }

  /** The matches of each extension, one extension after the other. */
  function Gathered(walk: seq<Path>, exts: seq<string>): (r: seq<Path>)
    ensures forall p :: p in r <==> p in walk && exists k :: 0 <= k < |exts| && EndsWith(Name(p), exts[k])
  {
    if |exts| == 0 then []
    else
      var rest := Gathered(walk, exts[1..]);
      assert forall p :: p in rest <==> p in walk && exists k :: 1 <= k < |exts| && EndsWith(Name(p), exts[k]) by {
        forall p ensures p in rest <==> p in walk && exists k :: 1 <= k < |exts| && EndsWith(Name(p), exts[k]) {
          if p in rest {
            var k :| 0 <= k < |exts[1..]| && EndsWith(Name(p), exts[1..][k]);
            assert exts[k + 1] == exts[1..][k];
          }
          if p in walk && exists k :: 1 <= k < |exts| && EndsWith(Name(p), exts[k]) {
            var k :| 1 <= k < |exts| && EndsWith(Name(p), exts[k]);
            assert exts[1..][k - 1] == exts[k];
          }
        }
      }
      Matching(walk, exts[0]) + rest
  }

  /** `get_downloaded_images`: the files of the walk with an image extension,
      sorted. */
  function DownloadedImages(walk: seq<Path>): (r: seq<Path>)
    ensures multiset(r) == multiset(Gathered(walk, ImageExtensions))
    ensures forall p :: p in r <==> p in walk && exists k :: 0 <= k < |ImageExtensions| && EndsWith(Name(p), ImageExtensions[k])
  {
    var r := Sort(Gathered(walk, ImageExtensions));
    assert forall p :: p in r <==> p in multiset(r);
    assert forall p :: p in Gathered(walk, ImageExtensions) <==> p in multiset(Gathered(walk, ImageExtensions));
    r
  }

  lemma DownloadedImagesSorted(walk: seq<Path>)
    ensures Sorted(DownloadedImages(walk))
  {
    SortSorted(Gathered(walk, ImageExtensions));
  }
}

=== FILE: orchestrator.dfy ===
/** The asset generator's orchestration: the three steps (images, audio,
    subtitles), the parallel run with its timeouts, the sequential fallback
    and the summary. Each step's effects on the outside world arrive as
    parameters: whether a file exists, what a collaborator returned, whether
    a call raised or a wait timed out. */
module Orchestrator {
  import opened Wrappers
  import opened Text
  import opened Decimal
  import opened Paths
  import opened Project
  import Images
  import Subtitles

  // ---- The images step

  /** The keywords used when the description names none. */
  const DefaultKeywords: seq<string> := ["video", "contenido"]

  /** The downloader arguments `_generate_images` passes: the description's
      keywords (or the defaults), its Google keywords (or the same keywords),
      three images per keyword and five per Google keyword, every source
      asked for, and the configured keys. */
  function ImageSettings(c: ProjectConfig, data: VideoData): Images.Settings {
    var kws := if data.keywords.Some? then data.keywords.value else DefaultKeywords;
    var google := if data.googleKeywords.Some? then data.googleKeywords.value else kws;
    Images.Settings(Str(ImagesDir(c)), Some(kws), Some(google), 3, 5, true, true, true, true,
                    c.unsplashKey, c.pexelsKey, c.pixabayKey, c.serpapiKey)
  }

  /** The downloader the images step builds: a source is used exactly when its
      key is configured, and without a Google keyword list every keyword is
      also searched on Google. */
  lemma ImageDownloaderShape(c: ProjectConfig, data: VideoData)
    ensures var d := Images.Construct(ImageSettings(c, data));
      && (data.keywords.None? ==> d.keywords == DefaultKeywords)
      && (data.keywords.Some? ==> d.keywords == data.keywords.value)
      && (data.googleKeywords.Some? ==> d.googleKeywords == data.googleKeywords.value)
      && (data.googleKeywords.None? ==> d.googleKeywords == d.keywords)
      && d.imagesPerKeyword == 3 && d.imagesPerKeywordGoogle == 5
      && (Images.Unsplash in d.enabled <==> c.unsplashKey.Some?)
      && (Images.Pexels in d.enabled <==> c.pexelsKey.Some?)
      && (Images.Pixabay in d.enabled <==> c.pixabayKey.Some?)
      && (Images.Google in d.enabled <==> c.serpapiKey.Some?)
    ensures var d := Images.Construct(ImageSettings(c, data));
      data.googleKeywords.None? ==>
        forall kw :: kw in d.keywords ==> (Images.Searched(d, kw, Images.Google) <==> c.serpapiKey.Some?)
  {
    var s := ImageSettings(c, data);
    assert Images.Requested(s, Images.Unsplash) && Images.KeyOf(s, Images.Unsplash) == c.unsplashKey;
    assert Images.Requested(s, Images.Pexels) && Images.KeyOf(s, Images.Pexels) == c.pexelsKey;
    assert Images.Requested(s, Images.Pixabay) && Images.KeyOf(s, Images.Pixabay) == c.pixabayKey;
    assert Images.Requested(s, Images.Google) && Images.KeyOf(s, Images.Google) == c.serpapiKey;
  }

  /** `_generate_images`: true when `download_images` returned, whatever it
      downloaded (even nothing), false when building the downloader or
      downloading raised. */
  function GenerateImages(run: Outcome<Images.Stats>): (ok: bool)
    ensures ok <==> run.Returned?
    ensures run.Returned? && run.value.totalImages == 0 ==> ok
  {
    match run
    case Returned(_) => true
    case Raised => false
  }

  // ---- The audio step

  /** The audio file name: the project name with spaces made `_`, then
      `_audio.mp3`. */
  function AudioName(c: ProjectConfig): string {
    Underscored(c.projectName) + "_audio.mp3"
  }

  /** Where the audio ends up: `audio_dir / audio_filename`. */
  function AudioFile(c: ProjectConfig): Path {
    Join(AudioDir(c), AudioName(c))
  }

  /** A project name without `/` gives a one-component audio file name, so
      the audio file sits directly in the audio directory. A name with `/`
      would put it in directories further down. */
  lemma AudioFilePlain(c: ProjectConfig)
    ensures '/' !in c.projectName ==> IsPlainName(AudioName(c))
    ensures '/' !in c.projectName ==> AudioFile(c) == Child(AudioDir(c), AudioName(c))
  {
    if '/' !in c.projectName {
      var u := Underscored(c.projectName);
      assert '/' !in u;
      var a := AudioName(c);
      AudioSuffixPlain();
      Images.NotInConcat('/', u, "_audio.mp3");
      assert |a| > 1;
      JoinPlain(AudioDir(c), a);
    }
  }

  lemma AudioSuffixPlain()
    ensures '/' !in "_audio.mp3"
  {
    var x := "_audio.mp3";
    assert forall i :: 0 <= i < |x| ==> x[i] != '/';
  }

  /** How the synthesised file is brought to the audio directory: a move,
      and when that raises a copy (which may raise in turn). */
  datatype Transfer = Transfer(moveOk: bool, copyOk: bool)

  /** `_generate_audio`. `scriptExists` is whether the script file exists,
      `dirsOk` whether creating the TTS scratch and audio directories
      succeeded, `produced` what the speech pipeline returned and
      `producedExists` whether that file exists afterwards. */
  function GenerateAudio(c: ProjectConfig, scriptExists: bool, dirsOk: bool, produced: Option<Path>,
                         producedExists: bool, t: Transfer): (r: Option<Path>)
    ensures r.Some? <==> scriptExists && dirsOk && produced.Some? && producedExists && (t.moveOk || t.copyOk)
    ensures r.Some? ==> r.value == AudioFile(c)
    ensures r.Some? && '/' !in c.projectName ==> Parent(r.value) == AudioDir(c) && Name(r.value) == AudioName(c)
  {
    if !scriptExists || !dirsOk then None
    else if produced.None? then None
    else if !producedExists then None
    else if t.moveOk || t.copyOk then
      AudioFilePlain(c);
      ChildUnder(AudioDir(c), AudioName(c));
      Some(AudioFile(c))
    else None
  }

  /** The audio file is `<name>_audio.mp3`, so its subtitles, named after
      its stem, are `<name>_audio.srt` in the subtitles directory. */
  lemma SubtitleFileOfAudio(c: ProjectConfig)
    requires '/' !in c.projectName
    ensures Name(AudioFile(c)) == AudioName(c)
    ensures Suffix(AudioName(c)) == ".mp3"
    ensures Subtitles.SrtName(AudioFile(c)) == Underscored(c.projectName) + "_audio.srt"
  {
    var u := Underscored(c.projectName);
    AudioNameParts(u);
    AudioFilePlain(c);
    ChildUnder(AudioDir(c), AudioName(c));
    assert (u + "_audio") + ".srt" == u + "_audio.srt";
  }

  /** `<u>_audio.mp3` has suffix `.mp3` and stem `<u>_audio`. */
  lemma AudioNameParts(u: string)
    ensures Suffix(u + "_audio.mp3") == ".mp3"
    ensures Stem(u + "_audio.mp3") == u + "_audio"
  {
    assert u + "_audio.mp3" == (u + "_audio") + "." + "mp3";
    DotExtension(u + "_audio", "mp3");
  }

  // ---- The subtitles step

  /** A non-empty SubRip text starts with a block number, so it is not blank. */
  lemma SrtNotBlank(segs: seq<Subtitles.Segment>)
    ensures Subtitles.SegmentsToSrtAsWritten(segs) != "" ==> !IsBlank(Subtitles.SegmentsToSrtAsWritten(segs))
  {
    var bs := Subtitles.PositionNumbered(Subtitles.Prepare(segs), 0);
    if |bs| > 0 {
      RenderNotBlank(bs);
    }
  }

  lemma RenderNotBlank(bs: seq<Subtitles.Numbered>)
    requires |bs| > 0
    ensures !IsBlank(Subtitles.Render(bs))
  {
    var r := Subtitles.Render(bs);
    assert !IsSpace(r[0]);
  }

  /** Some recognised segment has more than two characters once stripped. */
  predicate SaysSomething(segs: seq<Subtitles.Segment>) {
    exists j :: 0 <= j < |segs| && |Strip(segs[j].text)| > 2
  }

  /** `_generate_subtitles`: false when the audio file is missing, when the
      transcription raises or yields no text, or when saving raises; true
      otherwise. `recognised` is what speech recognition returned (`None`
      when it raised) and `saved` whether the subtitles directory and file
      could be written. */
  function GenerateSubtitles(audioExists: bool, recognised: Option<seq<Subtitles.Segment>>, saved: bool): (ok: bool)
    ensures ok <==> audioExists && recognised.Some? && SaysSomething(recognised.value) && saved
  {
    if !audioExists then false
    else
      match Subtitles.TranscribeAudio(true, recognised)
      case Raised => false
      case Returned(srt) =>
        SubtitlesText(recognised.value);
        if srt == "" then false else saved
  }

  /** `transcribe_audio` yields text exactly when some segment says something. */
  lemma SubtitlesText(segs: seq<Subtitles.Segment>)
    ensures Subtitles.TranscribeAudio(true, Some(segs)).value != "" <==> SaysSomething(segs)
  {
    Subtitles.SrtEmptyIffAsWritten(segs);
    SrtNotBlank(segs);
  }

  /** The subtitles step succeeds exactly when writing the audio file's
      default subtitle file would. For a project name without `/` that file
      is `<name>_audio.srt` in the subtitles directory. */
  lemma SubtitlesStepWritesSrt(c: ProjectConfig, recognised: Option<seq<Subtitles.Segment>>, saved: bool)
    ensures var single := Subtitles.TranscribeSingle(SubtitlesDir(c), AudioFile(c), None,
                                                     Subtitles.TranscribeAudio(true, recognised), saved);
      && (GenerateSubtitles(true, recognised, saved) <==> single.Some?)
      && (single.Some? ==> single.value == Join(SubtitlesDir(c), Subtitles.SrtName(AudioFile(c))))
      && (single.Some? && '/' !in c.projectName ==>
            single.value == Join(SubtitlesDir(c), Underscored(c.projectName) + "_audio.srt"))
  {
    if '/' !in c.projectName {
      SubtitleFileOfAudio(c);
    }
    if recognised.Some? {
      SubtitlesText(recognised.value);
    }
  }

  // ---- Running the steps

  /** What each step returned when it was run: the images flag, the audio
      path, whether that file exists when checked, and the subtitles flag of
      the subtitles step (consulted only when the audio exists). */
  datatype Steps = Steps(images: bool, audio: Option<Path>, audioExists: bool, subtitles: bool)

  /** Which waits of the parallel run time out: 600 seconds for the audio,
      300 for the images and 300 for the subtitles. */
  datatype Timeouts = Timeouts(audio: bool, images: bool, subtitles: bool)

  /** The results dictionary. */
  datatype Results = Results(images: bool, audio: bool, subtitles: bool, audioPath: Option<Path>)

  const Failed: Results := Results(false, false, false, None)

  /** The audio is there to transcribe. */
  predicate AudioReady(s: Steps) {
    s.audio.Some? && s.audioExists
  }

  /** `generate_assets_parallel`: the audio is awaited first; with audio, the
      images and then the subtitles are awaited; without, only the images.
      Any timeout discards every result. */
  function Parallel(s: Steps, t: Timeouts): (r: Results)
    ensures r.audio <==> r.audioPath.Some?
    ensures r.audio ==> AudioReady(s) && r.audioPath == s.audio
    ensures r.subtitles ==> r.audio && s.subtitles
    ensures t.audio || t.images ==> r == Failed
    ensures t.subtitles && AudioReady(s) ==> r == Failed
  {
    if t.audio then Failed
    else if AudioReady(s) then
      if t.images || t.subtitles then Failed
      else Results(s.images, true, s.subtitles, s.audio)
    else if t.images then Failed
    else Results(s.images, false, false, None)
  }

  /** `generate_assets_sequential`: images, then audio, then subtitles when
      the audio exists. The audio path is reported even when its file does
      not exist. */
  function Sequential(s: Steps): (r: Results)
    ensures r.audio <==> AudioReady(s)
    ensures r.subtitles <==> AudioReady(s) && s.subtitles
    ensures r.images == s.images && r.audioPath == s.audio
  {
    Results(s.images, AudioReady(s), AudioReady(s) && s.subtitles, s.audio)
  }

  /** `main`: the parallel run, or the sequential one when the parallel run
      raised. */
  function Run(parallelRaised: bool, s: Steps, t: Timeouts): (r: Results)
    ensures r.subtitles ==> r.audio && r.audioPath == s.audio && AudioReady(s)
  {
    if parallelRaised then Sequential(s) else Parallel(s, t)
  }

  /** No wait that is reached times out. */
  predicate InTime(s: Steps, t: Timeouts) {
    !t.audio && !t.images && (AudioReady(s) ==> !t.subtitles)
  }

  /** When nothing times out the two modes report the same three flags, and
      the same audio path whenever the audio is reported; they differ only
      in the path of an audio file that does not exist. */
  lemma ModesAgree(s: Steps, t: Timeouts)
    requires InTime(s, t)
    ensures var p := Parallel(s, t); var q := Sequential(s);
      p.images == q.images && p.audio == q.audio && p.subtitles == q.subtitles
    ensures Parallel(s, t).audio ==> Parallel(s, t).audioPath == Sequential(s).audioPath
  {
  }

  /** A parallel run fails entirely exactly when a wait it reaches times out
      or nothing succeeded anyway. */
  lemma ParallelFailsIff(s: Steps, t: Timeouts)
    ensures Parallel(s, t) == Failed <==> !InTime(s, t) || (!s.images && !AudioReady(s))
  {
  }

  // ---- The summary

  /** `sum([images, audio, subtitles])`. */
  function SuccessCount(r: Results): (n: nat)
    ensures n == multiset([r.images, r.audio, r.subtitles])[true]
    ensures n <= 3
    ensures n == 3 <==> r.images && r.audio && r.subtitles
    ensures n == 0 <==> !r.images && !r.audio && !r.subtitles
  {
    (if r.images then 1 else 0) + (if r.audio then 1 else 0) + (if r.subtitles then 1 else 0)
  }

  datatype Verdict = Complete | PartialRun | NothingGenerated

  /** The closing line of the summary. */
  function VerdictOf(r: Results): (v: Verdict)
    ensures v == Complete <==> r.images && r.audio && r.subtitles
    ensures v == NothingGenerated <==> !r.images && !r.audio && !r.subtitles
  {
    var n := SuccessCount(r);
    if n == 3 then Complete else if n > 0 then PartialRun else NothingGenerated
  }

  /** A run in which a reached wait timed out reports that nothing was
      generated; a run whose audio was not produced is never complete. */
  lemma TimeoutVerdict(s: Steps, t: Timeouts)
    ensures !InTime(s, t) ==> VerdictOf(Run(false, s, t)) == NothingGenerated
    ensures !AudioReady(s) ==> forall raised :: VerdictOf(Run(raised, s, t)) != Complete
  {
  }

  /** The summary's image count: the `.jpg` and then the `.png` files below
      the images directory, or nothing when that directory is missing. */
  function ImageCount(dirExists: bool, walk: seq<Path>): (n: Option<nat>)
    ensures n.Some? <==> dirExists
    ensures n.Some? && n.value == 0 ==>
      forall p :: p in walk ==> !Images.EndsWith(Name(p), ".jpg") && !Images.EndsWith(Name(p), ".png")
    ensures n.Some? && n.value > 0 ==>
      exists p :: p in walk && (Images.EndsWith(Name(p), ".jpg") || Images.EndsWith(Name(p), ".png"))
    ensures n.Some? ==> n.value == |Images.Hits(walk, ".jpg")| + |Images.Hits(walk, ".png")|
  {
    if !dirExists then None
    else
      var jpg := Images.Matching(walk, ".jpg");
      var png := Images.Matching(walk, ".png");
      assert |jpg| > 0 ==> jpg[0] in jpg;
      assert |png| > 0 ==> png[0] in png;
      Images.MatchingCount(walk, ".jpg");
      Images.MatchingCount(walk, ".png");
      Some(|jpg| + |png|)
  }
}

=== FILE: paths.dfy ===
/** `pathlib.PurePosixPath` as the source uses it: joining with `/`, the
    `name`, `suffix` and `stem` properties, `str()` and the ordering `sorted`
    relies on. Existence on disk is never a property of a path here; callers
    pass it in. */
module Paths {
  import opened Text
  import opened Splitting

  /** A parsed path: absolute or relative, and its components (none empty,
      none equal to "."). */
  datatype Path = Path(absolute: bool, parts: seq<string>)

  predicate IsSegment(x: string) {
    x != "" && x != "."
  }

  /** Components of a path string: pieces between '/' other than "" and ".". */
  function KeepSegments(xs: seq<string>): (r: seq<string>)
    ensures forall j :: 0 <= j < |r| ==> IsSegment(r[j])
    ensures |r| <= |xs|
  {
    if |xs| == 0 then []
    else if IsSegment(xs[0]) then [xs[0]] + KeepSegments(xs[1..])
    else KeepSegments(xs[1..])
  }

  function Segments(s: string): seq<string> {
    KeepSegments(Split(Literal("/"), s))
  }

  predicate WellFormed(p: Path) {
    forall j :: 0 <= j < |p.parts| ==> IsSegment(p.parts[j])
  }

  /** `p / s`: an absolute operand replaces `p`, otherwise its components are
      appended. */
  function Join(p: Path, s: string): (r: Path)
    ensures WellFormed(p) ==> WellFormed(r)
  {
    if |s| > 0 && s[0] == '/' then Path(true, Segments(s))
    else Path(p.absolute, p.parts + Segments(s))
  }

  /** `Path(s)`. */
  function ParsePath(s: string): (r: Path)
    ensures WellFormed(r)
  {
    Join(Path(false, []), s)
  }

  /** A plain file or directory name: one component. */
  predicate IsPlainName(x: string) {
    IsSegment(x) && '/' !in x
  }

  /** A string without '/' is one piece. */
  lemma SplitNoSlash(x: string)
    requires '/' !in x
    ensures Split(Literal("/"), x) == [x]
  {
    forall j | 0 <= j < |x| ensures MatchLen(Literal("/"), x, j) == 0 {
      assert x[j] != '/';
      assert x[j..j + 1][0] == x[j];
    }
    SplitNoMatch(Literal("/"), x);
  }

  /** Joining a plain name appends exactly that one component. */
  lemma JoinPlain(p: Path, x: string)
    requires IsPlainName(x)
    ensures Join(p, x) == Path(p.absolute, p.parts + [x])
  {
    SplitNoSlash(x);
    assert KeepSegments([x]) == [x];
  }

  /** `p / x` for a literal one-component name (`JoinPlain` shows it is `Join`). */
  function Child(p: Path, x: string): Path {
    Path(p.absolute, p.parts + [x])
  }

  /** `a` lies strictly below `b`. */
  predicate IsUnder(a: Path, b: Path) {
    a.absolute == b.absolute && |b.parts| < |a.parts| && a.parts[..|b.parts|] == b.parts
  }

  /** Joining a plain name yields a child: one more component, named so. */
  lemma JoinChild(p: Path, x: string)
    requires IsPlainName(x)
    ensures Join(p, x) == Child(p, x)
    ensures IsUnder(Child(p, x), p)
    ensures |Child(p, x).parts| == |p.parts| + 1
    ensures Name(Child(p, x)) == x
  {
    JoinPlain(p, x);
    ChildUnder(p, x);
  }

  /** A child lies directly below its parent and bears its name. */
  lemma ChildUnder(p: Path, x: string)
    ensures IsUnder(Child(p, x), p)
    ensures |Child(p, x).parts| == |p.parts| + 1
    ensures Name(Child(p, x)) == x
  {
    assert (p.parts + [x])[..|p.parts|] == p.parts;
  }

  lemma UnderTrans(a: Path, b: Path, c: Path)
    requires IsUnder(a, b) && IsUnder(b, c)
    ensures IsUnder(a, c)
  {
    assert a.parts[..|c.parts|] == a.parts[..|b.parts|][..|c.parts|];
  }

  /** Joining `a/b` for plain names appends two components. */
  lemma JoinTwo(p: Path, a: string, b: string)
    requires IsPlainName(a) && IsPlainName(b)
    ensures Join(p, a + "/" + b) == Path(p.absolute, p.parts + [a, b])
  {
    var s := a + "/" + b;
    assert s[0] == a[0];
    SplitCons("/", a, b);
    SplitNoSlash(b);
    assert [a] + [b] == [a, b];
    assert KeepSegments([a, b])[1..] == KeepSegments([b]);
  }

  /** `p.parent`: the path without its last component. */
  function Parent(p: Path): (r: Path)
    ensures |p.parts| > 0 ==> |r.parts| + 1 == |p.parts|
  {
    if |p.parts| == 0 then p else Path(p.absolute, p.parts[..|p.parts| - 1])
  }

  /** `p.name`: the last component, "" for a path without components. */
  function Name(p: Path): string {
    if |p.parts| == 0 then "" else p.parts[|p.parts| - 1]
  }

  /** Index of the last '.' in `x`, or -1. */
  function LastDot(x: string): (i: int)
    ensures -1 <= i < |x|
    ensures i >= 0 ==> x[i] == '.'
    ensures forall j :: i < j < |x| ==> x[j] != '.'
  {
    if |x| == 0 then -1
    else if x[|x| - 1] == '.' then |x| - 1
    else LastDot(x[..|x| - 1])
  }

  /** `p.suffix` of a name: from the last dot, unless that dot starts the name
      or ends it. */
  function Suffix(x: string): (r: string)
    ensures r == "" || (r[0] == '.' && 2 <= |r| < |x| && r == x[|x| - |r|..])
  {
    var i := LastDot(x);
    if 0 < i < |x| - 1 then x[i..] else ""
  }

  /** `p.stem` of a name: the name without its suffix. */
  function Stem(x: string): (r: string)
    ensures r + Suffix(x) == x
  {
    x[..|x| - |Suffix(x)|]
  }

  /** A dot followed only by dot-free characters is the last dot. */
  lemma {:induction false} LastDotAt(x: string, i: nat)
    requires i < |x| && x[i] == '.'
    requires forall j :: i < j < |x| ==> x[j] != '.'
    ensures LastDot(x) == i
    decreases |x|
  {
    if i < |x| - 1 {
      assert x[..|x| - 1][i] == '.';
      LastDotAt(x[..|x| - 1], i);
    }
  }

  /** `base.ext` has suffix `.ext` and stem `base` when `ext` holds no dot. */
  lemma DotExtension(base: string, ext: string)
    requires base != "" && ext != "" && '.' !in ext
    ensures Suffix(base + "." + ext) == "." + ext
    ensures Stem(base + "." + ext) == base
  {
    var x := base + "." + ext;
    var i := |base|;
    assert x[i] == '.';
    forall j | i < j < |x| ensures x[j] != '.' {
      assert x[j] == ext[j - i - 1];
    }
    LastDotAt(x, i);
    assert x[i..] == "." + ext;
  }

  /** `str(p)`. */
  function Str(p: Path): string {
    if p.absolute then "/" + JoinWith(p.parts, "/")
    else if |p.parts| == 0 then "."
    else JoinWith(p.parts, "/")
  }

  // ---- Ordering: `p < q` compares `str(p).split('/')` as lists of strings.

  /** Lexicographic order on strings by code point (Python `<=` on `str`). */
  predicate StrLe(a: string, b: string) {
    if |a| == 0 then true
    else if |b| == 0 then false
    else if a[0] != b[0] then a[0] < b[0]
    else StrLe(a[1..], b[1..])
  }

  /** Lexicographic order on lists of strings (Python `<=` on `list[str]`). */
  predicate ListLe(a: seq<string>, b: seq<string>) {
    if |a| == 0 then true
    else if |b| == 0 then false
    else if a[0] != b[0] then StrLe(a[0], b[0])
    else ListLe(a[1..], b[1..])
  }

  function Key(p: Path): seq<string> {
    Split(Literal("/"), Str(p))
  }

  predicate PathLe(p: Path, q: Path) {
    ListLe(Key(p), Key(q))
  }

  lemma {:induction false} StrLeTotal(a: string, b: string)
    ensures StrLe(a, b) || StrLe(b, a)
    decreases |a|
  {
    if |a| > 0 && |b| > 0 && a[0] == b[0] { StrLeTotal(a[1..], b[1..]); }
  }

  lemma {:induction false} StrLeTrans(a: string, b: string, c: string)
    requires StrLe(a, b) && StrLe(b, c)
    ensures StrLe(a, c)
    decreases |a|
  {
    if |a| > 0 && |b| > 0 && |c| > 0 && a[0] == b[0] && b[0] == c[0] {
      StrLeTrans(a[1..], b[1..], c[1..]);
    }
  }

  lemma {:induction false} StrLeAntisym(a: string, b: string)
    requires StrLe(a, b) && StrLe(b, a)
    ensures a == b
    decreases |a|
  {
    if |a| > 0 && |b| > 0 {
      StrLeAntisym(a[1..], b[1..]);
      assert a == [a[0]] + a[1..];
      assert b == [b[0]] + b[1..];
    }
  }

  lemma {:induction false} ListLeTotal(a: seq<string>, b: seq<string>)
    ensures ListLe(a, b) || ListLe(b, a)
    decreases |a|
  {
    if |a| > 0 && |b| > 0 {
      if a[0] == b[0] { ListLeTotal(a[1..], b[1..]); } else { StrLeTotal(a[0], b[0]); }
    }
  }

  lemma {:induction false} ListLeTrans(a: seq<string>, b: seq<string>, c: seq<string>)
    requires ListLe(a, b) && ListLe(b, c)
    ensures ListLe(a, c)
    decreases |a|
  {
    if |a| > 0 && |b| > 0 && |c| > 0 {
      if a[0] == b[0] && b[0] == c[0] {
        ListLeTrans(a[1..], b[1..], c[1..]);
      } else if a[0] == b[0] {
      } else if b[0] == c[0] {
      } else {
        StrLeTrans(a[0], b[0], c[0]);
        if a[0] == c[0] { StrLeAntisym(a[0], b[0]); }
      }
    }
  }

  lemma PathLeTotal(p: Path, q: Path)
    ensures PathLe(p, q) || PathLe(q, p)
  {
    ListLeTotal(Key(p), Key(q));
  }

  lemma PathLeTrans(p: Path, q: Path, r: Path)
    requires PathLe(p, q) && PathLe(q, r)
    ensures PathLe(p, r)
  {
    ListLeTrans(Key(p), Key(q), Key(r));
  }

  predicate Sorted(xs: seq<Path>) {
    forall i, j :: 0 <= i < j < |xs| ==> PathLe(xs[i], xs[j])
  }

  /** Insert before the first element not below `x`. */
  function Insert(x: Path, xs: seq<Path>): (r: seq<Path>)
    ensures multiset(r) == multiset(xs) + multiset{x}
    decreases |xs|
  {
    if |xs| == 0 then [x]
    else if PathLe(x, xs[0]) then [x] + xs
    else
      var rest := Insert(x, xs[1..]);
      ConsMultiset(xs[0], xs[1..], rest, x);
      assert [xs[0]] + xs[1..] == xs;
      [xs[0]] + rest
  }

  /** Adding `x` behind a common head. */
  lemma ConsMultiset<T>(a: T, b: seq<T>, c: seq<T>, x: T)
    requires multiset(c) == multiset(b) + multiset{x}
    ensures multiset([a] + c) == multiset([a] + b) + multiset{x}
  {
  }

  lemma {:induction false} InsertSorted(x: Path, xs: seq<Path>)
    requires Sorted(xs)
    ensures Sorted(Insert(x, xs))
    decreases |xs|
  {
    if |xs| == 0 {
    } else if PathLe(x, xs[0]) {
      InsertFront(x, xs);
    } else {
      InsertSorted(x, xs[1..]);
      InsertAfter(x, xs, Insert(x, xs[1..]));
    }
  }

  lemma InsertFront(x: Path, xs: seq<Path>)
    requires Sorted(xs) && |xs| > 0 && PathLe(x, xs[0])
    ensures Sorted([x] + xs)
  {
    var r := [x] + xs;
    forall i, j | 0 <= i < j < |r| ensures PathLe(r[i], r[j]) {
      if i == 0 && j > 1 { PathLeTrans(x, xs[0], xs[j - 1]); }
    }
  }

  lemma InsertAfter(x: Path, xs: seq<Path>, rest: seq<Path>)
    requires Sorted(xs) && |xs| > 0 && !PathLe(x, xs[0])
    requires Sorted(rest)
    requires multiset(rest) == multiset(xs[1..]) + multiset{x}
    ensures Sorted([xs[0]] + rest)
  {
    PathLeTotal(x, xs[0]);
    forall j | 0 <= j < |rest| ensures PathLe(xs[0], rest[j]) {
      assert rest[j] in multiset(rest);
      if rest[j] != x {
        HeadBelow(xs, rest[j]);
      }
    }
    SortedCons(xs[0], rest);
  }

  /** The head of a sorted list is below everything behind it. */
  lemma HeadBelow(xs: seq<Path>, y: Path)
    requires Sorted(xs) && |xs| > 0 && y in multiset(xs[1..])
    ensures PathLe(xs[0], y)
  {
    var k :| 0 <= k < |xs[1..]| && xs[1..][k] == y;
    assert xs[k + 1] == y;
  }

  /** A head below every element of a sorted list keeps it sorted. */
  lemma SortedCons(a: Path, rest: seq<Path>)
    requires Sorted(rest)
    requires forall j :: 0 <= j < |rest| ==> PathLe(a, rest[j])
    ensures Sorted([a] + rest)
  {
    var r := [a] + rest;
    assert forall j :: 0 < j < |r| ==> r[j] == rest[j - 1];
    forall i, j | 0 <= i < j < |r| ensures PathLe(r[i], r[j]) {
      if i > 0 { assert PathLe(rest[i - 1], rest[j - 1]); }
    }
  }

  /** `sorted(xs)`: a permutation of `xs` (ordered, by `SortSorted`). */
  function Sort(xs: seq<Path>): (r: seq<Path>)
    ensures multiset(r) == multiset(xs)
    decreases |xs|
  {
    if |xs| == 0 then []
    else
      assert xs == [xs[0]] + xs[1..];
      Insert(xs[0], Sort(xs[1..]))
  }

  lemma {:induction false} SortSorted(xs: seq<Path>)
    ensures Sorted(Sort(xs))
    decreases |xs|
  {
    if |xs| > 0 {
      SortSorted(xs[1..]);
      InsertSorted(xs[0], Sort(xs[1..]));
    }
  }
}

=== FILE: project.dfy ===
/** The project layout of the asset generator: where a project's assets,
    audio, images, subtitles and scratch files live, how the tree is created,
    and how the project is renamed from the video description. The
    filesystem is the set of directories that exist. */
module Project {
  import opened Wrappers
  import opened Text
  import opened Paths

  /** The configuration record; only the fields the layout and the
      orchestration read are kept. API keys are optional strings. */
  datatype ProjectConfig = ProjectConfig(
    rootDir: Path,
    projectName: string,
    configFile: string,
    scriptFile: string,
    unsplashKey: Option<string>,
    pexelsKey: Option<string>,
    pixabayKey: Option<string>,
    serpapiKey: Option<string>,
    maxWorkers: int,
    verbose: bool)

  /** The defaults of the configuration record. */
  function DefaultConfig(): (c: ProjectConfig)
    ensures c.rootDir == Path(false, ["projects"])
    ensures c.projectName == "default_project" && c.maxWorkers == 3
    ensures c.configFile == "video.json" && c.scriptFile == "guion.txt"
    ensures c.unsplashKey.None? && c.pexelsKey.None? && c.pixabayKey.None? && c.serpapiKey.None?
    ensures c.verbose
  {
    ProjectConfig(Path(false, ["projects"]), "default_project", "video.json", "guion.txt",
                  None, None, None, None, 3, true)
  }

  /** The directory name of a project: its name with every space made `_`. */
  function Underscored(name: string): (r: string)
    ensures |r| == |name| && ' ' !in r
    ensures forall i :: 0 <= i < |name| ==> r[i] == (if name[i] == ' ' then '_' else name[i])
  {
    ReplaceChar(name, ' ', '_')
  }

  function ProjectDir(c: ProjectConfig): Path {
    Join(c.rootDir, Underscored(c.projectName))
  }

  function AssetsDir(c: ProjectConfig): Path { Child(ProjectDir(c), "assets") }
  function AudioDir(c: ProjectConfig): Path { Child(AssetsDir(c), "audio") }
  function ImagesDir(c: ProjectConfig): Path { Child(AssetsDir(c), "images") }
  function SubtitlesDir(c: ProjectConfig): Path { Child(AssetsDir(c), "subtitles") }
  function TempDir(c: ProjectConfig): Path { Child(ProjectDir(c), "temp") }

  /** The six directories of a project, in creation order. */
  function Directories(c: ProjectConfig): seq<Path> {
    [ProjectDir(c), AssetsDir(c), AudioDir(c), ImagesDir(c), SubtitlesDir(c), TempDir(c)]
  }

  /** The layout: assets and temp directly below the project directory, the
      three media directories directly below assets, temp outside assets,
      and no two of the six alike. */
  lemma Layout(c: ProjectConfig)
    ensures IsUnder(AssetsDir(c), ProjectDir(c)) && Name(AssetsDir(c)) == "assets"
    ensures IsUnder(TempDir(c), ProjectDir(c)) && Name(TempDir(c)) == "temp"
    ensures IsUnder(AudioDir(c), AssetsDir(c)) && Name(AudioDir(c)) == "audio"
    ensures IsUnder(ImagesDir(c), AssetsDir(c)) && Name(ImagesDir(c)) == "images"
    ensures IsUnder(SubtitlesDir(c), AssetsDir(c)) && Name(SubtitlesDir(c)) == "subtitles"
    ensures !IsUnder(TempDir(c), AssetsDir(c))
  {
    var p := ProjectDir(c);
    var a := AssetsDir(c);
    ChildUnder(p, "assets");
    ChildUnder(p, "temp");
    ChildUnder(a, "audio");
    ChildUnder(a, "images");
    ChildUnder(a, "subtitles");
  }

  /** Every directory but the first lies below the project directory, and
      the six are pairwise distinct. */
  lemma LayoutDistinct(c: ProjectConfig)
    ensures forall j :: 1 <= j < 6 ==> IsUnder(Directories(c)[j], ProjectDir(c))
    ensures forall i, j :: 0 <= i < j < 6 ==> Directories(c)[i] != Directories(c)[j]
  {
    var p := ProjectDir(c);
    var a := AssetsDir(c);
    ChildUnder(p, "assets");
    ChildUnder(p, "temp");
    ChildUnder(a, "audio");
    ChildUnder(a, "images");
    ChildUnder(a, "subtitles");
    UnderTrans(AudioDir(c), a, p);
    UnderTrans(ImagesDir(c), a, p);
    UnderTrans(SubtitlesDir(c), a, p);
    var ds := Directories(c);
    forall i, j | 0 <= i < j < 6 ensures ds[i] != ds[j] {
      if |ds[i].parts| == |ds[j].parts| { assert Name(ds[i]) != Name(ds[j]); }
    }
  }

  /** With the defaults, the project lives in `projects/default_project`. */
  lemma DefaultLayout()
    ensures ProjectDir(DefaultConfig()) == Path(false, ["projects", "default_project"])
  {
    var c := DefaultConfig();
    DefaultNamePlain();
    PlainProjectDir(c);
    TwoParts("projects", "default_project");
  }

  lemma TwoParts(a: string, b: string)
    ensures [a] + [b] == [a, b]
  {
  }

  /** A name without spaces or `/` is used as is, one component below the root. */
  lemma PlainProjectDir(c: ProjectConfig)
    requires IsPlainName(c.projectName) && ' ' !in c.projectName
    ensures ProjectDir(c) == Path(c.rootDir.absolute, c.rootDir.parts + [c.projectName])
  {
    assert Underscored(c.projectName) == c.projectName;
    JoinPlain(c.rootDir, c.projectName);
  }

  lemma DefaultNamePlain()
    ensures IsPlainName("default_project") && ' ' !in "default_project"
  {
    var x := "default_project";
    assert forall i :: 0 <= i < |x| ==> x[i] != ' ' && x[i] != '/';
  }

  /** For a name that is one path component, the project directory is that
      name, underscored, directly below the root. */
  lemma ProjectDirPlain(c: ProjectConfig)
    requires IsPlainName(c.projectName)
    ensures IsUnder(ProjectDir(c), c.rootDir)
    ensures |ProjectDir(c).parts| == |c.rootDir.parts| + 1
    ensures Name(ProjectDir(c)) == Underscored(c.projectName)
  {
    UnderscoredPlain(c.projectName);
    JoinPlain(c.rootDir, Underscored(c.projectName));
  }

  lemma UnderscoredPlain(name: string)
    requires IsPlainName(name)
    ensures IsPlainName(Underscored(name))
  {
  }

  /** Two projects under one root share their directory exactly when their
      names agree after spaces become `_` ("my video" and "my_video"
      collide). */
  lemma SameProjectDir(c: ProjectConfig, a: string, b: string)
    requires IsPlainName(a) && IsPlainName(b)
    ensures ProjectDir(c.(projectName := a)) == ProjectDir(c.(projectName := b))
        <==> Underscored(a) == Underscored(b)
  {
    ProjectDirPlain(c.(projectName := a));
    ProjectDirPlain(c.(projectName := b));
  }

  // ---- Directory creation: `mkdir(parents=True, exist_ok=True)`.

  /** A path with no components (`.` or `/`) always exists. */
  predicate Exists(fs: set<Path>, p: Path) {
    |p.parts| == 0 || p in fs
  }

  /** `p` and every ancestor of `p` that has at least one component. */
  function Ancestors(p: Path): set<Path> {
    set k | 1 <= k <= |p.parts| :: Path(p.absolute, p.parts[..k])
  }

  /** Creates each directory in turn with its missing parents; existing ones
      are left alone. */
  function MkdirAll(fs: set<Path>, ds: seq<Path>): (r: set<Path>)
    ensures fs <= r
    ensures forall j :: 0 <= j < |ds| ==> Exists(r, ds[j])
    ensures forall q :: q in r && q !in fs ==> exists j :: 0 <= j < |ds| && q in Ancestors(ds[j])
    decreases |ds|
  {
    if |ds| == 0 then fs
    else
      var d := ds[0];
      assert |d.parts| > 0 ==> d == Path(d.absolute, d.parts[..|d.parts|]);
      var r := MkdirAll(fs + Ancestors(d), ds[1..]);
      assert forall j :: 1 <= j < |ds| ==> ds[j] == ds[1..][j - 1];
      r
  }

  /** `create_directories`. */
  function CreateDirectories(c: ProjectConfig, fs: set<Path>): (r: set<Path>)
    ensures fs <= r
    ensures forall j :: 0 <= j < 6 ==> Exists(r, Directories(c)[j])
    ensures forall q :: q in r && q !in fs ==> exists j :: 0 <= j < 6 && q in Ancestors(Directories(c)[j])
  {
    MkdirAll(fs, Directories(c))
  }

  lemma {:induction false} MkdirAllNoop(fs: set<Path>, ds: seq<Path>)
    requires forall j :: 0 <= j < |ds| ==> Ancestors(ds[j]) <= fs
    ensures MkdirAll(fs, ds) == fs
    decreases |ds|
  {
    if |ds| > 0 {
      assert fs + Ancestors(ds[0]) == fs;
      assert forall j :: 0 <= j < |ds| - 1 ==> ds[1..][j] == ds[j + 1];
      MkdirAllNoop(fs, ds[1..]);
    }
  }

  lemma {:induction false} MkdirAllCovers(fs: set<Path>, ds: seq<Path>)
    ensures forall j :: 0 <= j < |ds| ==> Ancestors(ds[j]) <= MkdirAll(fs, ds)
    decreases |ds|
  {
    if |ds| > 0 {
      MkdirAllCovers(fs + Ancestors(ds[0]), ds[1..]);
      assert forall j :: 1 <= j < |ds| ==> ds[j] == ds[1..][j - 1];
    }
  }

  /** Creating the tree twice is the same as creating it once. */
  lemma CreateDirectoriesIdempotent(c: ProjectConfig, fs: set<Path>)
    ensures CreateDirectories(c, CreateDirectories(c, fs)) == CreateDirectories(c, fs)
  {
    var r := CreateDirectories(c, fs);
    MkdirAllCovers(fs, Directories(c));
    MkdirAllNoop(r, Directories(c));
  }

  // ---- Construction: the tree is created, then the video description is loaded.

  /** The parts of the video description the generator reads; `title`
      renames the project. */
  datatype VideoData = VideoData(
    title: Option<string>,
    keywords: Option<seq<string>>,
    googleKeywords: Option<seq<string>>)

  /** `_load_video_config`: `loaded` is the parsed description, or `None`
      when the file is missing or unreadable (the data then stays empty). */
  function LoadVideoConfig(c: ProjectConfig, loaded: Option<VideoData>): (r: (ProjectConfig, VideoData))
    ensures r.0.projectName == (if loaded.Some? && loaded.value.title.Some? then loaded.value.title.value else c.projectName)
    ensures r.0 == c.(projectName := r.0.projectName)
    ensures r.1 == (if loaded.Some? then loaded.value else VideoData(None, None, None))
  {
    if loaded.None? then (c, VideoData(None, None, None))
    else if loaded.value.title.Some? then (c.(projectName := loaded.value.title.value), loaded.value)
    else (c, loaded.value)
  }

  datatype Generator = Generator(config: ProjectConfig, videoData: VideoData, dirs: set<Path>)

  /** The constructor as written: the tree is created under the name held
      before the description is loaded. */
  function InitAsWritten(c: ProjectConfig, loaded: Option<VideoData>, fs: set<Path>): (g: Generator)
    ensures g.dirs == CreateDirectories(c, fs)
    ensures g.config == LoadVideoConfig(c, loaded).0
  {
    var created := CreateDirectories(c, fs);
    var (c2, data) := LoadVideoConfig(c, loaded);
    Generator(c2, data, created)
  }

  /** When the description renames the project to a name whose directory
      differs, the renamed project's temp directory is missing after
      construction unless it already existed (no later step creates it). */
  lemma InitAsWrittenMissesTemp(c: ProjectConfig, title: string, fs: set<Path>)
    requires |c.rootDir.parts| == 1 && IsPlainName(c.projectName) && IsPlainName(title)
    requires Underscored(title) != Underscored(c.projectName)
    requires TempDir(c.(projectName := title)) !in fs
    ensures var g := InitAsWritten(c, Some(VideoData(Some(title), None, None)), fs);
            !Exists(g.dirs, TempDir(g.config))
  {
    var g := InitAsWritten(c, Some(VideoData(Some(title), None, None)), fs);
    var c2 := c.(projectName := title);
    assert g.config == c2;
    SecondComponent(c);
    SecondComponent(c2);
    ProjectDirPlain(c2);
    var t := TempDir(c2);
    assert t == Directories(c2)[5];
    assert |t.parts| == 3;
    forall j | 0 <= j < 6 ensures t !in Ancestors(Directories(c)[j]) {
      if t in Ancestors(Directories(c)[j]) {
        AncestorsKeepSecond(Directories(c)[j], t, Underscored(c.projectName));
      }
    }
  }

  /** Below a one-component root, every directory of a plainly named project
      has the underscored name as its second component. */
  lemma SecondComponent(c: ProjectConfig)
    requires |c.rootDir.parts| == 1 && IsPlainName(c.projectName)
    ensures forall j :: 0 <= j < 6 ==>
      |Directories(c)[j].parts| >= 2 && Directories(c)[j].parts[1] == Underscored(c.projectName)
  {
    ProjectDirPlain(c);
    LayoutDistinct(c);
    var p := ProjectDir(c);
    forall j | 0 <= j < 6
      ensures |Directories(c)[j].parts| >= 2 && Directories(c)[j].parts[1] == Underscored(c.projectName)
    {
      var d := Directories(c)[j];
      if j > 0 { assert d.parts[1] == d.parts[..|p.parts|][1]; }
    }
  }

  lemma AncestorsKeepSecond(d: Path, q: Path, x: string)
    requires |d.parts| >= 2 && d.parts[1] == x
    requires q in Ancestors(d)
    ensures |q.parts| == 1 || q.parts[1] == x
  {
    var k :| 1 <= k <= |d.parts| && q == Path(d.absolute, d.parts[..k]);
  }

  /** The constructor with the description loaded first, so the tree is the
      one of the final project name. */
  function InitCorrected(c: ProjectConfig, loaded: Option<VideoData>, fs: set<Path>): (g: Generator)
    ensures g.config == LoadVideoConfig(c, loaded).0
    ensures fs <= g.dirs
    ensures forall j :: 0 <= j < 6 ==> Exists(g.dirs, Directories(g.config)[j])
  {
    var (c2, data) := LoadVideoConfig(c, loaded);
    Generator(c2, data, CreateDirectories(c2, fs))
  }
}

=== FILE: scripts.dfy ===
/** The script side of the pipeline (`scripts_generator.py`): cutting one LLM
    response into numbered scripts, the per-script focus table, the run's
    start-up checks, the interactive selection and the save guard. The LLM
    calls, the prompt templates and the console loop are not modelled; the
    response text and the typed reply are inputs. */
module Scripts {
  import opened Wrappers
  import opened Text
  import opened Decimal
  import opened Splitting

  // ---- Scripts and their text form

  /** One parsed script: the number of its heading and its stripped body. */
  datatype Script = Script(number: nat, body: string)

  const HeadingPrefix := "## GUIÓN "

  /** The heading line of a rendered script, without its newline. */
  function HeadingOf(sc: Script): (h: string)
    ensures |h| > |HeadingPrefix|
  {
    HeadingPrefix + ShowNat(sc.number) + ":"
  }

  /** `f"## GUIÓN {k}:\n{body}"`: how the parser hands a script on. */
  function Render(s: Script): string {
    HeadingOf(s) + "\n" + s.body
  }

  /** Reads the text form back: the heading prefix, a decimal number, ":\n"
      and the body. */
  function ReadRendered(t: string): (r: Option<Script>)
    ensures r.Some? ==> |HeadingPrefix| < |t| && t[..|HeadingPrefix|] == HeadingPrefix
  {
    var p := |HeadingPrefix|;
    if |t| < p || t[..p] != HeadingPrefix then None
    else
      var d := DigitRun(t, p);
      if d == 0 || p + d + 2 > |t| || t[p + d..p + d + 2] != ":\n" then None
      else
        DigitRunDigits(t, p);
        var digits := t[p..p + d];
        assert AllDigits(digits) by {
          forall x | 0 <= x < |digits| ensures IsDigit(digits[x]) { assert digits[x] == t[p + x]; }
        }
        Some(Script(ParseDigits(t[p..p + d]), t[p + d + 2..]))
  }

  /** The text form loses nothing: number and body read back unchanged. */
  lemma ReadRender(s: Script)
    ensures ReadRendered(Render(s)) == Some(s)
  {
    var t := Render(s);
    var p := |HeadingPrefix|;
    var n := ShowNat(s.number);
    assert t[..p] == HeadingPrefix;
    assert t[p..p + |n|] == n;
    assert t[p + |n|] == ':';
    DigitRunExact(t, p, |n|);
    assert t[p + |n|..p + |n| + 2] == ":\n";
    assert t[p + |n| + 2..] == s.body;
    ParseShow(s.number);
  }

  /** Numbers strictly increase along the list. */
  predicate Increasing(gs: seq<Script>) {
    forall j, k :: 0 <= j < k < |gs| ==> gs[j].number < gs[k].number
  }

  /** Every script is numbered from 1 and has a non-blank, stripped body. */
  predicate Proper(gs: seq<Script>) {
    forall k :: 0 <= k < |gs| ==> gs[k].number >= 1 && Trimmed(gs[k].body)
  }

  /** `bodies` numbered `from`, `from + 1`, ... */
  function Numbered(bodies: seq<string>, from: nat): (r: seq<Script>)
    ensures |r| == |bodies|
    ensures forall k :: 0 <= k < |r| ==> r[k] == Script(from + k, bodies[k])
  {
    seq(|bodies|, k requires 0 <= k < |bodies| => Script(from + k, bodies[k]))
  }

  /** Python's `xs[:n]` for any integer `n`; a negative `n` counts from the end. */
  function PyTake<T>(xs: seq<T>, n: int): (r: seq<T>)
    ensures |r| <= |xs| && r == xs[..|r|]
    ensures n >= 0 ==> |r| == if n <= |xs| then n else |xs|
    ensures n < 0 ==> |r| == if -n <= |xs| then |xs| + n else 0
  {
    if n >= 0 then (if n <= |xs| then xs[..n] else xs)
    else if -n <= |xs| then xs[..|xs| + n] else []
  }

  // ---- Stage 1: the explicit separator

  const ScriptSeparator: Separator := "===NUEVO_GUION==="

  /** Present separator: the non-blank parts, stripped, numbered 1, 2, ...
      by their position among the kept parts. */
  function SeparatorStage(content: string): (r: seq<Script>)
    ensures Proper(r) && Increasing(r)
    ensures forall k :: 0 <= k < |r| ==> r[k].number == k + 1
    ensures !Contains(content, ScriptSeparator) ==> r == []
  {
    if Contains(content, ScriptSeparator)
    then Numbered(StrippedPieces(Split(Literal(ScriptSeparator), content)), 1)
    else []
  }

  // ---- Stage 2: heading patterns

  /** `[Script(from + j, p.strip()) for j, p in enumerate(parts) if p.strip()]`:
      numbered by position among all parts, blank ones included. */
  function Positional(parts: seq<string>, from: nat): (r: seq<Script>)
    ensures |r| <= |parts|
    ensures forall k :: 0 <= k < |r| ==> from <= r[k].number < from + |parts|
    decreases |parts|
  {
    if |parts| == 0 then []
    else
      var rest := Positional(parts[1..], from + 1);
      var b := Strip(parts[0]);
      if b != "" then [Script(from, b)] + rest else rest
  }

  /** Positional numbering keeps only stripped, non-blank bodies, in
      increasing order. */
  lemma {:induction false} PositionalProper(parts: seq<string>, from: nat)
    ensures Increasing(Positional(parts, from))
    ensures forall k :: 0 <= k < |Positional(parts, from)| ==> Trimmed(Positional(parts, from)[k].body)
    decreases |parts|
  {
    if |parts| > 0 {
      PositionalProper(parts[1..], from + 1);
      PositionalUnfold(parts, from);
      ProperCons(Positional(parts, from), Positional(parts[1..], from + 1), Strip(parts[0]), from);
    }
  }

  /** Putting a trimmed script numbered below the rest in front keeps
      the list increasing and trimmed. */
  lemma ProperCons(r: seq<Script>, rest: seq<Script>, h: string, from: nat)
    requires Increasing(rest) && forall k :: 0 <= k < |rest| ==> Trimmed(rest[k].body)
    requires forall k :: 0 <= k < |rest| ==> from < rest[k].number
    requires h != "" ==> Trimmed(h)
    requires r == (if h != "" then [Script(from, h)] else []) + rest
    ensures Increasing(r) && forall k :: 0 <= k < |r| ==> Trimmed(r[k].body)
  {
    if h == "" {
      assert r == rest;
    }
  }

  /** Script `sc` is the stripped part at its position, counting from `from`. */
  predicate BodyAt(parts: seq<string>, from: nat, sc: Script) {
    from <= sc.number < from + |parts| && sc.body == Strip(parts[sc.number - from])
  }

  /** Each script is the stripped part at its position. */
  lemma {:induction false} PositionalBodies(parts: seq<string>, from: nat, k: nat)
    requires k < |Positional(parts, from)|
    ensures BodyAt(parts, from, Positional(parts, from)[k])
    decreases |parts|
  {
    if k == 0 && !IsBlank(parts[0]) {
      BodiesHead(parts, from);
    } else {
      var k' := PositionalLater(parts, from, k);
      PositionalBodies(parts[1..], from + 1, k');
      BodiesStep(parts, from, Positional(parts[1..], from + 1)[k']);
    }
  }

  /** The first script comes from the first part when that is not blank. */
  lemma BodiesHead(parts: seq<string>, from: nat)
    requires |parts| > 0 && !IsBlank(parts[0])
    ensures |Positional(parts, from)| > 0 && BodyAt(parts, from, Positional(parts, from)[0])
  {
    PositionalUnfold(parts, from);
  }

  /** Any other script is one of the scripts of the remaining parts. */
  lemma PositionalLater(parts: seq<string>, from: nat, k: nat) returns (k': nat)
    requires k < |Positional(parts, from)|
    requires k > 0 || IsBlank(parts[0])
    ensures |parts| > 0 && k' < |Positional(parts[1..], from + 1)|
    ensures Positional(parts, from)[k] == Positional(parts[1..], from + 1)[k']
  {
    PositionalUnfold(parts, from);
    if IsBlank(parts[0]) {
      k' := k;
    } else {
      k' := k - 1;
      BehindHead(Positional(parts, from), Script(from, Strip(parts[0])), Positional(parts[1..], from + 1), k);
    }
  }

  /** A script at its position among the remaining parts is at the same
      position among all of them. */
  lemma BodiesStep(parts: seq<string>, from: nat, sc: Script)
    requires |parts| > 0
    requires BodyAt(parts[1..], from + 1, sc)
    ensures BodyAt(parts, from, sc)
  {
    assert parts[1..][sc.number - (from + 1)] == parts[sc.number - from];
  }

  /** `Positional` takes the first part, when not blank, before the rest. */
  lemma PositionalUnfold(parts: seq<string>, from: nat)
    requires |parts| > 0
    ensures Positional(parts, from) ==
      (if Strip(parts[0]) != "" then [Script(from, Strip(parts[0]))] else []) + Positional(parts[1..], from + 1)
  {
    if Strip(parts[0]) == "" {
      assert [] + Positional(parts[1..], from + 1) == Positional(parts[1..], from + 1);
    }
  }

  /** Without blank parts, positional numbering is the contiguous numbering
      of the kept parts. */
  lemma {:induction false} PositionalNoBlanks(parts: seq<string>, from: nat)
    requires forall j :: 0 <= j < |parts| ==> !IsBlank(parts[j])
    ensures Positional(parts, from) == Numbered(StrippedPieces(parts), from)
    decreases |parts|
  {
    if |parts| > 0 {
      PositionalNoBlanks(parts[1..], from + 1);
      var r := Positional(parts, from);
      var q := Numbered(StrippedPieces(parts), from);
      assert |r| == |q|;
      forall k | 0 <= k < |r| ensures r[k] == q[k] {
        if k > 0 { assert r[k] == Positional(parts[1..], from + 1)[k - 1]; }
      }
    }
  }

  /** A blank part leaves a gap: the script after it keeps its position. */
  lemma PositionalGap(blank: string, x: string)
    requires IsBlank(blank) && !IsBlank(x)
    ensures Positional([blank, x], 1) == [Script(2, Strip(x))]
  {
    assert [blank, x][1..] == [x];
    assert [x][1..] == [];
  }

  /** The patterns `## GUIÓN \d+:`, `# GUIÓN \d+:`, `\*\*GUIÓN \d+:` and
      `GUIÓN \d+:`, tried in this order. */
  const HeaderPrefixes: seq<string> := [HeadingPrefix, "# GUIÓN ", "**GUIÓN ", "GUIÓN "]

  /** The first pattern that splits `content` into more than one part. */
  function FirstSplitting(content: string, prefixes: seq<string>): (r: Option<nat>)
    ensures r.Some? ==> r.value < |prefixes| && |Split(Header(prefixes[r.value]), content)| > 1
    ensures r.Some? ==> forall j :: 0 <= j < r.value ==> |Split(Header(prefixes[j]), content)| <= 1
    ensures r.None? ==> forall j :: 0 <= j < |prefixes| ==> |Split(Header(prefixes[j]), content)| <= 1
    decreases |prefixes|
  {
    if |prefixes| == 0 then None
    else if |Split(Header(prefixes[0]), content)| > 1 then Some(0)
    else match FirstSplitting(content, prefixes[1..])
      case None => None
      case Some(k) => Some(k + 1)
  }

  /** The parts after the first heading of the first pattern that splits,
      numbered by position; nothing when no pattern splits. */
  function HeaderStage(content: string): (r: seq<Script>)
    ensures Proper(r) && Increasing(r)
    ensures FirstSplitting(content, HeaderPrefixes).None? ==> r == []
    ensures FirstSplitting(content, HeaderPrefixes).Some? ==>
      forall k :: 0 <= k < |r| ==> r[k].number < |Split(Header(HeaderPrefixes[FirstSplitting(content, HeaderPrefixes).value]), content)|
  {
    match FirstSplitting(content, HeaderPrefixes)
    case None => []
    case Some(k) =>
      var parts := Split(Header(HeaderPrefixes[k]), content);
      PositionalProper(parts[1..], 1);
      Positional(parts[1..], 1)
  }

  /** Each script of the heading stage is the stripped part after its heading;
      the text before the first heading is never a script. */
  lemma HeaderStageBodies(content: string, k: nat)
    requires k < |HeaderStage(content)|
    ensures FirstSplitting(content, HeaderPrefixes).Some?
    ensures var parts := Split(Header(HeaderPrefixes[FirstSplitting(content, HeaderPrefixes).value]), content);
      var sc := HeaderStage(content)[k];
      1 <= sc.number < |parts| && sc.body == Strip(parts[sc.number])
  {
    var i := FirstSplitting(content, HeaderPrefixes).value;
    var parts := Split(Header(HeaderPrefixes[i]), content);
    PositionalBodies(parts[1..], 1, k);
    var sc := HeaderStage(content)[k];
    assert parts[1..][sc.number - 1] == parts[sc.number];
  }

  // ---- Stage 3: common separators

  const FallbackSeparators: seq<Separator> := ["---", "====", "###", "***"]

  /** The first separator that cuts `content` into at least `n` parts. */
  function FirstFitting(content: string, seps: seq<Separator>, n: int): (r: Option<nat>)
    ensures r.Some? ==> r.value < |seps| && |Split(Literal(seps[r.value]), content)| >= n
    ensures r.Some? ==> forall j :: 0 <= j < r.value ==> |Split(Literal(seps[j]), content)| < n
    ensures r.None? ==> forall j :: 0 <= j < |seps| ==> |Split(Literal(seps[j]), content)| < n
    decreases |seps|
  {
    if |seps| == 0 then None
    else if |Split(Literal(seps[0]), content)| >= n then Some(0)
    else match FirstFitting(content, seps[1..], n)
      case None => None
      case Some(k) => Some(k + 1)
  }

  /** A fitting separator replaces `current` by its first `n` parts, numbered
      by position; otherwise `current` stands. */
  function LastResort(content: string, n: int, current: seq<Script>): (r: seq<Script>)
    requires Proper(current) && Increasing(current)
    ensures Proper(r) && Increasing(r)
    ensures FirstFitting(content, FallbackSeparators, n).None? ==> r == current
    ensures FirstFitting(content, FallbackSeparators, n).Some? && n >= 0 ==>
      forall k :: 0 <= k < |r| ==> r[k].number <= n
  {
    match FirstFitting(content, FallbackSeparators, n)
    case None => current
    case Some(k) =>
      var parts := PyTake(Split(Literal(FallbackSeparators[k]), content), n);
      PositionalProper(parts, 1);
      Positional(parts, 1)
  }

  // ---- The parser

  /** `parsear_guiones_una_consulta(content, n)`: each stage runs only while
      fewer than `n` scripts were found; the result is cut to `n`. */
  function ParseScripts(content: string, n: int): (r: seq<Script>)
    ensures n >= 0 ==> |r| <= n
    ensures Proper(r) && Increasing(r)
    ensures |SeparatorStage(content)| >= n ==> r == PyTake(SeparatorStage(content), n)
  {
    var g1 := SeparatorStage(content);
    var g2 := if |g1| < n then HeaderStage(content) else g1;
    var g3 := if |g2| < n then LastResort(content, n, g2) else g2;
    PyTake(g3, n)
  }

  /** A response that follows the separator format: at least two non-blank,
      stripped bodies without '=' joined by the separator parse back into
      exactly those bodies, numbered from 1 and cut to `n`. */
  lemma SeparatorRoundTrip(bodies: seq<string>, n: nat)
    requires |bodies| >= 2 && n <= |bodies|
    requires forall k :: 0 <= k < |bodies| ==> Trimmed(bodies[k]) && '=' !in bodies[k]
    ensures ParseScripts(JoinWith(bodies, ScriptSeparator), n) == Numbered(bodies[..n], 1)
  {
    SeparatorStageJoin(bodies);
    NumberedTake(bodies, n);
  }

  /** The separator stage of a join of such bodies is the bodies, numbered. */
  lemma SeparatorStageJoin(bodies: seq<string>)
    requires |bodies| >= 2
    requires forall k :: 0 <= k < |bodies| ==> Trimmed(bodies[k]) && '=' !in bodies[k]
    ensures SeparatorStage(JoinWith(bodies, ScriptSeparator)) == Numbered(bodies, 1)
  {
    JoinHoldsSep(bodies, ScriptSeparator);
    SplitJoinFresh(ScriptSeparator, bodies);
    StrippedTrimmed(bodies);
  }

  lemma NumberedTake(bodies: seq<string>, n: nat)
    requires n <= |bodies|
    ensures PyTake(Numbered(bodies, 1), n) == Numbered(bodies[..n], 1)
  {
  }

  lemma {:induction false} StrippedTrimmed(xs: seq<string>)
    requires forall k :: 0 <= k < |xs| ==> Trimmed(xs[k])
    ensures StrippedPieces(xs) == xs
    decreases |xs|
  {
    if |xs| > 0 {
      StrippedTrimmed(xs[1..]);
      StripTrimmed(xs[0]);
      assert xs == [xs[0]] + xs[1..];
    }
  }

  /** The format the prompt asks for: scripts under `## GUIÓN k:` headings,
      separated by blank lines. */
  function Document(ss: seq<Script>): string
    decreases |ss|
  {
    if |ss| == 0 then ""
    else if |ss| == 1 then Render(ss[0])
    else Render(ss[0]) + "\n\n" + Document(ss[1..])
  }

  /** What follows each heading in a document, up to the next heading. */
  function Gaps(ss: seq<Script>): (r: seq<string>)
    ensures |r| == |ss|
    decreases |ss|
  {
    if |ss| == 0 then []
    else if |ss| == 1 then ["\n" + ss[0].body]
    else ["\n" + ss[0].body + "\n\n"] + Gaps(ss[1..])
  }

  predicate NoHash(ss: seq<Script>) {
    forall k :: 0 <= k < |ss| ==> '#' !in ss[k].body
  }

  /** The heading pattern matches a rendered heading in full. */
  lemma HeadingMatches(sc: Script, tail: string)
    ensures MatchLen(Header(HeadingPrefix), HeadingOf(sc) + tail, 0) == |HeadingOf(sc)|
  {
    var n := ShowNat(sc.number);
    var h := HeadingOf(sc);
    var s := h + tail;
    var p := |HeadingPrefix|;
    assert s[0..p] == HeadingPrefix;
    assert s[p + |n|] == ':';
    forall x | p <= x < p + |n| ensures IsDigit(s[x]) {
      assert s[x] == n[x - p];
    }
    DigitRunExact(s, p, |n|);
  }

  /** Case folding sends only '#' to '#'. */
  lemma FoldHash(c: char)
    requires FoldChar(c) == '#'
    ensures c == '#'
  {
  }

  lemma NoHeadingAt(s: string, x: nat)
    requires x < |s| && s[x] != '#'
    ensures MatchLen(Header(HeadingPrefix), s, x) == 0
  {
    var p := HeadingPrefix;
    if x + |p| <= |s| && FoldEq(s[x..x + |p|], p) {
      assert FoldChar(s[x..x + |p|][0]) == FoldChar(p[0]);
      FoldHash(s[x]);
    }
  }

  /** The document after its first script. */
  function DocumentRest(ss: seq<Script>): string
    requires |ss| >= 1
  {
    if |ss| == 1 then "" else Document(ss[1..])
  }

  /** A document is its first heading, its first gap and the rest. */
  lemma DocumentShape(ss: seq<Script>)
    requires |ss| >= 1
    ensures Document(ss) == HeadingOf(ss[0]) + Gaps(ss)[0] + DocumentRest(ss)
  {
    if |ss| == 1 { DocumentShapeLast(ss); } else { DocumentShapeMore(ss); }
  }

  lemma DocumentShapeLast(ss: seq<Script>)
    requires |ss| == 1
    ensures Document(ss) == HeadingOf(ss[0]) + Gaps(ss)[0] + DocumentRest(ss)
  {
    var h := HeadingOf(ss[0]);
    var b := ss[0].body;
    assert Document(ss) == h + "\n" + b;
    assert Gaps(ss)[0] == "\n" + b;
    assert DocumentRest(ss) == "";
    GroupMiddle(h, "\n", b, "", "");
  }

  lemma DocumentShapeMore(ss: seq<Script>)
    requires |ss| >= 2
    ensures Document(ss) == HeadingOf(ss[0]) + Gaps(ss)[0] + DocumentRest(ss)
  {
    var h := HeadingOf(ss[0]);
    var b := ss[0].body;
    var r := DocumentRest(ss);
    assert Document(ss) == h + "\n" + b + "\n\n" + r;
    assert Gaps(ss)[0] == "\n" + b + "\n\n";
    GroupMiddle(h, "\n", b, "\n\n", r);
  }

  /** Grouping the middle three parts of a five-part concatenation. */
  lemma GroupMiddle(a: string, b: string, c: string, d: string, e: string)
    ensures a + b + c + d + e == a + (b + c + d) + e
  {
  }

  /** A document opens with a full heading match. */
  lemma DocumentOpens(ss: seq<Script>)
    requires |ss| >= 1
    ensures MatchLen(Header(HeadingPrefix), Document(ss), 0) == |HeadingOf(ss[0])|
  {
    var h := HeadingOf(ss[0]);
    var g := Gaps(ss)[0];
    var r := DocumentRest(ss);
    DocumentShape(ss);
    HeadingMatches(ss[0], g + r);
    Assoc(h, g, r);
  }

  lemma Assoc(a: string, b: string, c: string)
    ensures a + b + c == a + (b + c)
  {
  }

  /** No heading starts inside the first gap. */
  lemma GapNoHeading(ss: seq<Script>)
    requires |ss| >= 1 && NoHash(ss)
    ensures var h := HeadingOf(ss[0]);
      var s := h + Gaps(ss)[0] + DocumentRest(ss);
      forall x :: |h| <= x < |h| + |Gaps(ss)[0]| ==> MatchLen(Header(HeadingPrefix), s, x) == 0
  {
    var h := HeadingOf(ss[0]);
    var t := Gaps(ss)[0];
    var s := h + t + DocumentRest(ss);
    forall x | |h| <= x < |h| + |t| ensures MatchLen(Header(HeadingPrefix), s, x) == 0 {
      assert s[x] == t[x - |h|];
      assert t[x - |h|] == '\n' || t[x - |h|] in ss[0].body;
      NoHeadingAt(s, x);
    }
  }

  /** Splitting a document at its headings gives "" and then what follows
      each heading. */
  lemma {:induction false} DocumentSplit(ss: seq<Script>)
    requires |ss| >= 1 && NoHash(ss)
    ensures Split(Header(HeadingPrefix), Document(ss)) == [""] + Gaps(ss)
    decreases |ss|
  {
    if |ss| == 1 {
      DocumentSplitStep(ss);
      assert Split(Header(HeadingPrefix), "") == [""];
    } else {
      assert NoHash(ss[1..]);
      DocumentSplit(ss[1..]);
      DocumentSplitStep(ss);
      Regroup6(Split(Header(HeadingPrefix), Document(ss)), Split(Header(HeadingPrefix), Document(ss[1..])),
        Gaps(ss), Gaps(ss)[0], Gaps(ss[1..]));
    }
  }

  /** One step of the document split: the first gap, then the pieces of the
      rest after its leading "". */
  lemma DocumentSplitStep(ss: seq<Script>)
    requires |ss| >= 1 && NoHash(ss)
    ensures Split(Header(HeadingPrefix), Document(ss))
      == ["", Gaps(ss)[0]] + Split(Header(HeadingPrefix), DocumentRest(ss))[1..]
  {
    var m := Header(HeadingPrefix);
    var h := HeadingOf(ss[0]);
    var t := Gaps(ss)[0];
    var rest := DocumentRest(ss);
    DocumentShape(ss);
    DocumentOpens(ss);
    GapNoHeading(ss);
    if |ss| > 1 {
      DocumentOpens(ss[1..]);
    }
    SplitOpening(m, h, t, rest);
  }

  lemma Regroup6(a: seq<string>, r: seq<string>, g: seq<string>, t: string, g1: seq<string>)
    requires r == [""] + g1 && a == ["", t] + r[1..] && g == [t] + g1
    ensures a == [""] + g
  {
    assert r[1..] == g1;
  }

  /** A response in the requested heading format, with scripts numbered 1, 2,
      ... and bodies that are stripped and hold neither '#' nor '=', parses
      back into those scripts, cut to `n`. */
  lemma HeadingRoundTrip(ss: seq<Script>, n: nat)
    requires 1 <= n <= |ss|
    requires forall k :: 0 <= k < |ss| ==> ss[k].number == k + 1
    requires forall k :: 0 <= k < |ss| ==> Trimmed(ss[k].body) && '=' !in ss[k].body && '#' !in ss[k].body
    ensures ParseScripts(Document(ss), n) == ss[..n]
  {
    DocumentNoSeparator(ss);
    HeaderStageDocument(ss);
  }

  /** Without '=' in the bodies a document holds no explicit separator. */
  lemma DocumentNoSeparator(ss: seq<Script>)
    requires forall k :: 0 <= k < |ss| ==> '=' !in ss[k].body
    ensures SeparatorStage(Document(ss)) == []
  {
    DocumentNoEquals(ss);
    NoSeparatorWithout(Document(ss));
    SeparatorAbsent(Document(ss));
  }

  lemma DocumentNoEquals(ss: seq<Script>)
    requires forall k :: 0 <= k < |ss| ==> '=' !in ss[k].body
    ensures '=' !in Document(ss)
  {
    EqualsNotInHeading();
    DocumentChars(ss, '=');
  }

  lemma NoSeparatorWithout(s: string)
    requires '=' !in s
    ensures !Contains(s, ScriptSeparator)
  {
    assert ScriptSeparator[0] == '=';
    NotContained(s, ScriptSeparator);
  }

  lemma SeparatorAbsent(content: string)
    requires !Contains(content, ScriptSeparator)
    ensures SeparatorStage(content) == []
  {
  }

  lemma EqualsNotInHeading()
    ensures '=' !in HeadingPrefix && '=' !in ":\n" && !IsDigit('=')
  {
  }

  /** The heading stage reads a document back into its scripts. */
  lemma HeaderStageDocument(ss: seq<Script>)
    requires |ss| >= 1
    requires forall k :: 0 <= k < |ss| ==> ss[k].number == k + 1
    requires forall k :: 0 <= k < |ss| ==> Trimmed(ss[k].body)
    requires NoHash(ss)
    ensures HeaderStage(Document(ss)) == ss
  {
    DocumentSplit(ss);
    PositionalGaps(ss);
    HeaderStageOf(Document(ss), Gaps(ss), ss);
  }

  lemma HeaderStageOf(content: string, g: seq<string>, ss: seq<Script>)
    requires |g| >= 1 && Split(Header(HeadingPrefix), content) == [""] + g
    requires Positional(g, 1) == ss
    ensures HeaderStage(content) == ss
  {
    assert Split(Header(HeadingPrefix), content)[1..] == g;
    HeaderStageFirst(content);
  }

  /** When the first pattern splits, its parts after the first are numbered
      by position. */
  lemma HeaderStageFirst(content: string)
    requires |Split(Header(HeadingPrefix), content)| > 1
    ensures HeaderStage(content) == Positional(Split(Header(HeadingPrefix), content)[1..], 1)
  {
    assert FirstSplitting(content, HeaderPrefixes) == Some(0);
    assert HeaderPrefixes[0] == HeadingPrefix;
  }

  /** The gaps of a document, numbered by position, are its scripts. */
  lemma PositionalGaps(ss: seq<Script>)
    requires forall k :: 0 <= k < |ss| ==> ss[k].number == k + 1
    requires forall k :: 0 <= k < |ss| ==> Trimmed(ss[k].body)
    ensures Positional(Gaps(ss), 1) == ss
  {
    GapsBodies(ss);
    PositionalNoBlanks(Gaps(ss), 1);
    NumberedBodies(ss);
  }

  lemma NumberedBodies(ss: seq<Script>)
    requires forall k :: 0 <= k < |ss| ==> ss[k].number == k + 1
    ensures Numbered(Bodies(ss), 1) == ss
  {
  }

  /** Each gap strips back to its body. */
  lemma {:induction false} GapStrip(ss: seq<Script>, k: nat)
    requires k < |ss| && Trimmed(ss[k].body)
    ensures Strip(Gaps(ss)[k]) == ss[k].body
    decreases k
  {
    var b := ss[k].body;
    if k > 0 {
      GapStrip(ss[1..], k - 1);
      assert Gaps(ss)[k] == Gaps(ss[1..])[k - 1];
    } else if |ss| == 1 {
      StripPadded("\n", b, "");
      assert "\n" + b + "" == Gaps(ss)[0];
    } else {
      StripPadded("\n", b, "\n\n");
    }
  }

  /** Parts that all strip to non-empty strings are kept, stripped, in order. */
  lemma {:induction false} StrippedAll(ps: seq<string>, bs: seq<string>)
    requires |ps| == |bs|
    requires forall k :: 0 <= k < |ps| ==> Strip(ps[k]) == bs[k] && bs[k] != ""
    ensures StrippedPieces(ps) == bs
    decreases |ps|
  {
    if |ps| > 0 {
      StrippedAll(ps[1..], bs[1..]);
      assert bs == [bs[0]] + bs[1..];
    }
  }

  lemma GapsBodies(ss: seq<Script>)
    requires forall k :: 0 <= k < |ss| ==> Trimmed(ss[k].body)
    ensures forall j :: 0 <= j < |Gaps(ss)| ==> !IsBlank(Gaps(ss)[j])
    ensures StrippedPieces(Gaps(ss)) == Bodies(ss)
  {
    forall k | 0 <= k < |ss| ensures Strip(Gaps(ss)[k]) == Bodies(ss)[k] {
      GapStrip(ss, k);
    }
    StrippedAll(Gaps(ss), Bodies(ss));
  }

  function Bodies(ss: seq<Script>): (r: seq<string>)
    ensures |r| == |ss|
    ensures forall k :: 0 <= k < |r| ==> r[k] == ss[k].body
  {
    seq(|ss|, k requires 0 <= k < |ss| => ss[k].body)
  }

  /** A character absent from the bodies and from the heading text is absent
      from the document. */
  lemma {:induction false} DocumentChars(ss: seq<Script>, c: char)
    requires c !in HeadingPrefix && c !in ":\n" && !IsDigit(c)
    requires forall k :: 0 <= k < |ss| ==> c !in ss[k].body
    ensures c !in Document(ss)
    decreases |ss|
  {
    if |ss| > 0 {
      assert c !in ShowNat(ss[0].number);
      if |ss| > 1 { DocumentChars(ss[1..], c); }
    }
  }

  lemma NotContained(s: string, w: string)
    requires |w| > 0 && w[0] !in s
    ensures !Contains(s, w)
  {
    forall i | 0 <= i <= |s| && i + |w| <= |s| ensures !OccursAt(s, w, i) {
      assert s[i..i + |w|][0] == s[i];
    }
  }

  // ---- The focus table of `generar_prompt_individual`

  const FocusTable: seq<string> := [
    "enfócate en el aspecto más misterioso y sorprendente",
    "aborda el tema desde una perspectiva científica/técnica",
    "explora el lado histórico o de consecuencias",
    "analiza desde el impacto humano/social",
    "revela secretos o datos desconocidos"
  ]

  /** `enfoques.get(n, f"usa un enfoque único #{n}")`. */
  function Focus(n: int): (r: string)
    ensures 1 <= n <= 5 ==> r == FocusTable[n - 1]
    ensures !(1 <= n <= 5) ==> r == "usa un enfoque único #" + ShowInt(n)
  {
    if 1 <= n <= 5 then FocusTable[n - 1] else "usa un enfoque único #" + ShowInt(n)
  }

  /** Two table numbers, or two numbers outside the table, always get
      different focuses. */
  lemma FocusDistinct(a: int, b: int)
    requires a != b
    requires (1 <= a <= 5) == (1 <= b <= 5)
    ensures Focus(a) != Focus(b)
  {
    var generic := "usa un enfoque único #";
    if !(1 <= a <= 5) && Focus(a) == Focus(b) {
      assert Focus(a)[|generic|..] == ShowInt(a);
      assert Focus(b)[|generic|..] == ShowInt(b);
      ShowIntInjective(a, b);
    }
  }

  // ---- Start-up checks of `run`

  /** `video.json` as `run` finds it: absent, not JSON, or loaded with an
      optional `num_guiones`. */
  datatype ConfigFile = Missing | NotJson | Loaded(numScripts: Option<int>)

  datatype RunStart = NoApi | NoConfig | BadJson | BadCount(count: int) | Start(count: int)

  /** `int(data.get("num_guiones", 1))`. */
  function RequestedCount(c: ConfigFile): int
    requires c.Loaded?
  {
    match c.numScripts
    case None => 1
    case Some(k) => k
  }

  /** The checks of `run` in their order: an enabled API, a readable JSON
      file, and a script count in 1..5. */
  function StartRun(useGemini: bool, useGpt: bool, config: ConfigFile): (r: RunStart)
    ensures r.Start? <==> (useGemini || useGpt) && config.Loaded? && 1 <= RequestedCount(config) <= 5
    ensures r.Start? ==> r.count == RequestedCount(config)
    ensures !(useGemini || useGpt) ==> r == NoApi
    ensures (useGemini || useGpt) && config.Missing? ==> r == NoConfig
    ensures (useGemini || useGpt) && config.NotJson? ==> r == BadJson
  {
    if !(useGemini || useGpt) then NoApi
    else match config
      case Missing => NoConfig
      case NotJson => BadJson
      case Loaded(_) =>
        var k := RequestedCount(config);
        if 1 <= k <= 5 then Start(k) else BadCount(k)
  }

  /** A configuration without `num_guiones` asks for one script. */
  lemma DefaultCount(useGemini: bool, useGpt: bool)
    requires useGemini || useGpt
    ensures StartRun(useGemini, useGpt, Loaded(None)) == Start(1)
  {
  }

  // ---- Interactive selection

  /** Everything, the listed 0-based indices, or ask again. */
  datatype Selection = All | Picked(indices: seq<nat>) | Retry

  /** Digit tokens in 1..count, as 0-based indices, in order. */
  function Picks(tokens: seq<string>, count: int): (r: seq<nat>)
    ensures |r| <= |tokens|
    ensures forall k :: 0 <= k < |r| ==> r[k] < count
  {
    if |tokens| == 0 then []
    else
      var t := Strip(tokens[0]);
      var rest := Picks(tokens[1..], count);
      if t != "" && AllDigits(t) && 1 <= ParseDigits(t) <= count then [ParseDigits(t) - 1] + rest
      else rest
  }

  /** One round of the selection loop over the stripped reply. */
  function ParseSelection(reply: string, count: int): (r: Selection)
    ensures r == All <==> Lower(Strip(reply)) == "todos" || Lower(Strip(reply)) == "all"
    ensures r.Picked? ==> r.indices != [] && forall k :: 0 <= k < |r.indices| ==> r.indices[k] < count
  {
    var s := Strip(reply);
    if Lower(s) == "todos" || Lower(s) == "all" then All
    else
      var ix := Picks(Split(Literal(","), s), count);
      if ix == [] then Retry else Picked(ix)
  }

  /** The 1-based numbers of `indices`, as a user types them. */
  function Numerals(indices: seq<nat>): (r: seq<string>)
    ensures |r| == |indices|
    ensures forall k :: 0 <= k < |r| ==> r[k] == ShowNat(indices[k] + 1)
  {
    seq(|indices|, k requires 0 <= k < |indices| => ShowNat(indices[k] + 1))
  }

  /** Typing the numbers of any non-empty list of valid indices, separated by
      commas, selects exactly that list: order and repetitions are kept. */
  lemma SelectionRoundTrip(indices: seq<nat>, count: int)
    requires indices != []
    requires forall k :: 0 <= k < |indices| ==> indices[k] < count
    ensures ParseSelection(JoinWith(Numerals(indices), ","), count) == Picked(indices)
  {
    var ns := Numerals(indices);
    var s := JoinWith(ns, ",");
    NumeralsReply(indices);
    NumeralsFresh(indices);
    SplitJoinFresh(",", ns);
    PicksNumerals(indices, count);
  }

  /** A comma-separated list of numerals is already stripped and is neither
      "todos" nor "all". */
  lemma NumeralsReply(indices: seq<nat>)
    requires indices != []
    ensures var s := JoinWith(Numerals(indices), ",");
      Strip(s) == s && Lower(s) != "todos" && Lower(s) != "all"
  {
    var ns := Numerals(indices);
    var s := JoinWith(ns, ",");
    var cs := {'0', '1', '2', '3', '4', '5', '6', '7', '8', '9', ','};
    forall k, i | 0 <= k < |ns| && 0 <= i < |ns[k]| ensures ns[k][i] in cs {
      assert IsDigit(ns[k][i]);
    }
    JoinChars(ns, ",", cs);
    JoinContains(ns, ",", 0);
    assert |s| > 0;
    assert s[0] in cs && s[|s| - 1] in cs;
    StripTrimmed(s);
    assert Lower(s)[0] == s[0];
  }

  /** Numerals hold no comma. */
  lemma NumeralsFresh(indices: seq<nat>)
    ensures forall k :: 0 <= k < |Numerals(indices)| ==> ',' !in Numerals(indices)[k]
  {
    var ns := Numerals(indices);
    forall k | 0 <= k < |ns| ensures ',' !in ns[k] {
      assert AllDigits(ns[k]);
    }
  }

  lemma PicksNumerals(indices: seq<nat>, count: int)
    requires forall k :: 0 <= k < |indices| ==> indices[k] < count
    ensures Picks(Numerals(indices), count) == indices
  {
    var ns := Numerals(indices);
    forall k | 0 <= k < |ns| ensures Selects(ns[k], count, indices[k]) {
      NumeralPicked(indices[k], count);
    }
    PicksSelected(ns, count, indices);
  }

  /** Token `t` is kept by `Picks` and stands for index `i`. */
  predicate Selects(t: string, count: int, i: nat) {
    Strip(t) == t && t != "" && AllDigits(t) && 1 <= ParseDigits(t) <= count && ParseDigits(t) - 1 == i
  }

  /** Tokens that each select an index pick exactly those indices. */
  lemma {:induction false} PicksSelected(tokens: seq<string>, count: int, ix: seq<nat>)
    requires |tokens| == |ix|
    requires forall k :: 0 <= k < |tokens| ==> Selects(tokens[k], count, ix[k])
    ensures Picks(tokens, count) == ix
    decreases |tokens|
  {
    if |tokens| > 0 {
      PicksSelected(tokens[1..], count, ix[1..]);
      PicksCons(tokens[0], tokens[1..], count, ix[0]);
      assert tokens == [tokens[0]] + tokens[1..];
      assert ix == [ix[0]] + ix[1..];
    }
  }

  /** The numeral of a valid index selects it. */
  lemma NumeralPicked(i: nat, count: int)
    requires i < count
    ensures Selects(ShowNat(i + 1), count, i)
  {
    var t := ShowNat(i + 1);
    assert IsDigit(t[0]) && IsDigit(t[|t| - 1]);
    StripTrimmed(t);
    ParseShow(i + 1);
  }

  /** A token that selects `i` puts `i` in front of the picks that follow. */
  lemma PicksCons(t: string, rest: seq<string>, count: int, i: nat)
    requires Selects(t, count, i)
    ensures Picks([t] + rest, count) == [i] + Picks(rest, count)
  {
    var ts := [t] + rest;
    assert ts[0] == t && ts[1..] == rest;
    PicksKeep(ts, count, i);
  }

  /** `Picks` keeps a selecting first token and moves on to the rest. */
  lemma PicksKeep(ts: seq<string>, count: int, i: nat)
    requires |ts| > 0 && Selects(ts[0], count, i)
    ensures Picks(ts, count) == [i] + Picks(ts[1..], count)
  {
  }

  // ---- Saving

  /** What `guardar_guiones` writes: nothing for an empty list; otherwise a
      blank line, a rule of 80 '=' and the scripts joined by blank lines. */
  function SavedText(scripts: seq<string>): (r: Option<string>)
    ensures r.None? <==> scripts == []
    ensures r.Some? ==> |r.value| >= 82 && r.value[2..82] == Repeat('=', 80)
    ensures r.Some? ==> r.value[..2] == "\n\n" && r.value[82..] == JoinWith(scripts, "\n\n")
  {
    if scripts == [] then None
    else Some("\n\n" + Repeat('=', 80) + JoinWith(scripts, "\n\n"))
  }

  /** Every selected script is written out. */
  lemma SavedTextHoldsAll(scripts: seq<string>, k: nat)
    requires k < |scripts|
    ensures SavedText(scripts).Some? && Contains(SavedText(scripts).value, scripts[k])
  {
    var text := SavedText(scripts).value;
    var off := 82;
    JoinContains(scripts, "\n\n", k);
    assert text[off..] == JoinWith(scripts, "\n\n");
    ContainedIn(text, off, scripts[k]);
  }
}

=== FILE: speech.dfy ===
/** The text-to-speech pipeline of `tts.py`: where the input text is looked
    for, how it is cleaned and cut into fragments a speech model can read, the
    fallback from the primary voice model to the backup one, and the control
    flow of `process_file` that turns fragments into one audio file. The
    `tts` and `ffmpeg` subprocesses, file sizes and the filesystem are oracle
    parameters. */
module Speech {
  import opened Wrappers
  import opened Text
  import opened Decimal
  import opened Splitting
  import opened Paths

  // ---- Configuration (`TTSConfig`)

  datatype VoiceModel = Css10 | Mai

  datatype TtsConfig = TtsConfig(
    voiceModel: VoiceModel,
    maxCharsPerChunk: int,
    outputFormat: string,
    keepTempFiles: bool,
    rootDir: Path)

  function DefaultTtsConfig(): (c: TtsConfig)
    ensures c.voiceModel == Css10 && c.maxCharsPerChunk == 200 && c.outputFormat == "mp3"
    ensures c.rootDir == Path(false, ["tts_outputs"])
    ensures !c.keepTempFiles
  {
    JoinPlain(Path(false, []), "tts_outputs");
    TtsConfig(Css10, 200, "mp3", false, ParsePath("tts_outputs"))
  }

  /** `root_dir / "input"` and so on (`JoinChild` shows a plain name joins as a child). */
  function InputDir(c: TtsConfig): Path { Child(c.rootDir, "input") }
  function OutputDir(c: TtsConfig): Path { Child(c.rootDir, "audio") }
  function TempDir(c: TtsConfig): Path { Child(c.rootDir, "temp") }

  /** The three working directories are distinct directories directly below
      the root, named `input`, `audio` and `temp`. */
  lemma TtsLayout(c: TtsConfig)
    ensures IsUnder(InputDir(c), c.rootDir) && Name(InputDir(c)) == "input"
    ensures IsUnder(OutputDir(c), c.rootDir) && Name(OutputDir(c)) == "audio"
    ensures IsUnder(TempDir(c), c.rootDir) && Name(TempDir(c)) == "temp"
    ensures |InputDir(c).parts| == |OutputDir(c).parts| == |TempDir(c).parts| == |c.rootDir.parts| + 1
    ensures InputDir(c) != OutputDir(c) && OutputDir(c) != TempDir(c) && InputDir(c) != TempDir(c)
  {
    var r := c.rootDir;
    ChildUnder(r, "input");
    ChildUnder(r, "audio");
    ChildUnder(r, "temp");
  }

  // ---- Text cleaning (`_clean_text`)

  /** Every character of `r` is a plain space or occurs in `s`. */
  predicate From(r: string, s: string) {
    forall i :: 0 <= i < |r| ==> r[i] == ' ' || r[i] in s
  }

  lemma FromTrans(r: string, s: string, t: string)
    requires From(r, s) && From(s, t)
    ensures From(r, t)
  {
    forall i | 0 <= i < |r| ensures r[i] == ' ' || r[i] in t {
      if r[i] != ' ' {
        var j :| 0 <= j < |s| && s[j] == r[i];
      }
    }
  }

  /** Whitespace is plain spaces, never two in a row. */
  predicate SingleSpaced(s: string) {
    forall i :: 0 <= i < |s| && IsSpace(s[i]) ==> s[i] == ' ' && (i + 1 < |s| ==> !IsSpace(s[i + 1]))
  }

  /** `re.sub(r'\s+', ' ', s)`. */
  function SquashSpaces(s: string): (r: string)
    ensures From(r, s)
    ensures SingleSpaced(r)
    ensures |s| > 0 ==> |r| > 0 && (IsSpace(s[0]) <==> IsSpace(r[0]))
    decreases |s|
  {
    if |s| == 0 then ""
    else if IsSpace(s[0]) then " " + SquashSpaces(s[LeadEnd(s)..])
    else [s[0]] + SquashSpaces(s[1..])
  }

  lemma {:induction false} SquashSingleSpaced(s: string)
    requires SingleSpaced(s)
    ensures SquashSpaces(s) == s
    decreases |s|
  {
    if |s| > 0 {
      if IsSpace(s[0]) {
        assert LeadEnd(s) == 1 by {
          if |s| > 1 { assert !IsSpace(s[1]); assert LeadEnd(s[1..]) == 0; }
        }
      }
      assert SingleSpaced(s[1..]) by {
        forall i | 0 <= i < |s| - 1 && IsSpace(s[1..][i]) ensures s[1..][i] == ' ' {
          assert s[1..][i] == s[i + 1];
        }
      }
      SquashSingleSpaced(s[1..]);
    }
  }

  /** Number of consecutive newlines starting at `j`. */
  function NewlineRun(s: string, j: nat): (d: nat)
    requires j <= |s|
    ensures j + d <= |s|
    decreases |s| - j
  {
    if j == |s| || s[j] != '\n' then 0 else 1 + NewlineRun(s, j + 1)
  }

  /** `re.sub(r'\n{2,}', '\n\n', s)`. */
  function SquashNewlines(s: string): string
    decreases |s|
  {
    if |s| == 0 then ""
    else
      var d := NewlineRun(s, 0);
      if d >= 2 then "\n\n" + SquashNewlines(s[d..]) else [s[0]] + SquashNewlines(s[1..])
  }

  /** The second substitution of `_clean_text` has nothing left to match once
      the first has turned every newline into a space. */
  lemma {:induction false} SquashNewlinesAbsent(s: string)
    requires '\n' !in s
    ensures SquashNewlines(s) == s
    decreases |s|
  {
    if |s| > 0 {
      assert NewlineRun(s, 0) == 0;
      SquashNewlinesAbsent(s[1..]);
    }
  }

  /** The character class kept by `re.sub(r'[^\w\s.,;:!?()"\'-áéíóúüñÁÉÍÓÚÜÑ]', ' ', s)`.
      `isWord` is Unicode's word-character table (`\w`). The class holds the
      range from `'` (U+0027) to `á` (U+00E1), which covers all printable
      ASCII and most of Latin-1. */
  predicate Allowed(c: char, isWord: char -> bool) {
    || isWord(c)
    || IsSpace(c)
    || c == '.' || c == ',' || c == ';' || c == ':' || c == '!' || c == '?'
    || c == '(' || c == ')' || c == '"'
    || ('\'' <= c <= 'á')
    || c == 'é' || c == 'í' || c == 'ó' || c == 'ú' || c == 'ü' || c == 'ñ'
    || c == 'Á' || c == 'É' || c == 'Í' || c == 'Ó' || c == 'Ú' || c == 'Ü' || c == 'Ñ'
  }

  function Whitelist(s: string, isWord: char -> bool): (r: string)
    ensures |r| == |s|
    ensures forall i :: 0 <= i < |s| ==> r[i] == if Allowed(s[i], isWord) then s[i] else ' '
  {
    if |s| == 0 then "" else [if Allowed(s[0], isWord) then s[0] else ' '] + Whitelist(s[1..], isWord)
  }

  lemma WhitelistAllowed(s: string, isWord: char -> bool)
    requires forall i :: 0 <= i < |s| ==> Allowed(s[i], isWord)
    ensures Whitelist(s, isWord) == s
  {
  }

  /** The class `[.,;:!?]`. */
  predicate IsPunct(c: char) {
    c == '.' || c == ',' || c == ';' || c == ':' || c == '!' || c == '?'
  }

  /** No punctuation mark directly followed by an upper-case letter. */
  predicate NoPunctUpper(s: string) {
    forall i :: 0 <= i < |s| - 1 ==> !(IsPunct(s[i]) && IsUpperEs(s[i + 1]))
  }

  /** `re.sub(r'([.,;:!?])([A-ZÁÉÍÓÚÜÑ])', r'\1 \2', s)`: leftmost,
      non-overlapping matches. */
  function SpaceAfterPunct(s: string): (r: string)
    ensures NoPunctUpper(r)
    ensures From(r, s)
    ensures |s| > 0 ==> |r| > 0 && r[0] == s[0]
    decreases |s|
  {
    if |s| == 0 then ""
    else if |s| >= 2 && IsPunct(s[0]) && IsUpperEs(s[1]) then [s[0], ' ', s[1]] + SpaceAfterPunct(s[2..])
    else [s[0]] + SpaceAfterPunct(s[1..])
  }

  /** The substitution only inserts spaces. */
  lemma {:induction false} SpaceAfterPunctErase(s: string)
    ensures Erase(SpaceAfterPunct(s)) == Erase(s)
    decreases |s|
  {
    if |s| >= 2 && IsPunct(s[0]) && IsUpperEs(s[1]) {
      SpaceAfterPunctErase(s[2..]);
      var rest := SpaceAfterPunct(s[2..]);
      EraseConcat([s[0], ' ', s[1]], rest);
      assert s == [s[0], s[1]] + s[2..];
      EraseConcat([s[0], s[1]], s[2..]);
      assert Erase([s[0], ' ', s[1]]) == Erase([s[0], s[1]]) by {
        assert [s[0], ' ', s[1]][1..] == [' ', s[1]];
        assert [' ', s[1]][1..] == [s[1]];
        assert [s[0], s[1]][1..] == [s[1]];
      }
    } else if |s| > 0 {
      SpaceAfterPunctErase(s[1..]);
      EraseConcat([s[0]], SpaceAfterPunct(s[1..]));
      assert s == [s[0]] + s[1..];
      EraseConcat([s[0]], s[1..]);
    }
  }

  /** Text that is already spaced after punctuation passes unchanged. */
  lemma {:induction false} SpaceAfterPunctNoop(s: string)
    requires NoPunctUpper(s)
    ensures SpaceAfterPunct(s) == s
    decreases |s|
  {
    if |s| > 0 {
      assert NoPunctUpper(s[1..]) by {
        forall i | 0 <= i < |s[1..]| - 1 ensures !(IsPunct(s[1..][i]) && IsUpperEs(s[1..][i + 1])) {
          assert s[1..][i] == s[i + 1] && s[1..][i + 1] == s[i + 2];
        }
      }
      SpaceAfterPunctNoop(s[1..]);
    }
  }

  lemma WordsNoPunctUpper(s: string)
    requires NoPunctUpper(s)
    ensures forall k :: 0 <= k < |Words(s)| ==> NoPunctUpper(Words(s)[k])
  {
    WordsContained(s);
    forall k | 0 <= k < |Words(s)| ensures NoPunctUpper(Words(s)[k]) {
      var w := Words(s)[k];
      var j :| 0 <= j <= |s| && OccursAt(s, w, j);
      forall i | 0 <= i < |w| - 1 ensures !(IsPunct(w[i]) && IsUpperEs(w[i + 1])) {
        assert w[i] == s[j + i] && w[i + 1] == s[j + i + 1];
      }
    }
  }

  lemma {:induction false} JoinNoPunctUpper(ws: seq<string>)
    requires forall k :: 0 <= k < |ws| ==> NoPunctUpper(ws[k])
    ensures NoPunctUpper(JoinWith(ws, " "))
    decreases |ws|
  {
    if |ws| > 1 {
      JoinNoPunctUpper(ws[1..]);
      var rest := JoinWith(ws[1..], " ");
      var r := ws[0] + " " + rest;
      forall i | 0 <= i < |r| - 1 ensures !(IsPunct(r[i]) && IsUpperEs(r[i + 1])) {
        if i + 1 < |ws[0]| {
          assert r[i] == ws[0][i] && r[i + 1] == ws[0][i + 1];
        } else if i > |ws[0]| {
          assert r[i] == rest[i - |ws[0]| - 1] && r[i + 1] == rest[i - |ws[0]|];
        } else if i == |ws[0]| {
          assert r[i] == ' ';
        } else {
          assert r[i + 1] == ' ';
        }
      }
    }
  }

  /** `" ".join(s.split())` keeps text spaced after punctuation. */
  lemma CollapseNoPunctUpper(s: string)
    requires NoPunctUpper(s)
    ensures NoPunctUpper(Collapse(s))
  {
    WordsNoPunctUpper(s);
    JoinNoPunctUpper(Words(s));
  }

  /** Python's `.strip()` keeps text spaced after punctuation. */
  lemma StripNoPunctUpper(s: string)
    requires NoPunctUpper(s)
    ensures NoPunctUpper(Strip(s))
  {
    var r := Strip(s);
    var a := LeadEnd(s);
    forall i | 0 <= i < |r| - 1 ensures !(IsPunct(r[i]) && IsUpperEs(r[i + 1])) {
      assert r[i] == s[a + i] && r[i + 1] == s[a + i + 1];
    }
  }

  lemma StripFrom(s: string)
    ensures From(Strip(s), s)
  {
    var r := Strip(s);
    forall i | 0 <= i < |r| ensures r[i] in s {
      assert r[i] == s[LeadEnd(s) + i];
    }
  }

  lemma RemoveFrom(s: string, c: char)
    ensures From(RemoveChar(s, c), s)
  {
  }

  /** The last two steps of `_clean_text`: `' '.join(text.split())` and `strip()`. */
  function Tidy(s: string): (r: string)
    ensures SpacesNormalized(r)
    ensures From(r, s)
    ensures NoPunctUpper(s) ==> NoPunctUpper(r)
  {
    TidyFacts(s);
    Strip(Collapse(s))
  }

  lemma TidyFacts(s: string)
    ensures SpacesNormalized(Strip(Collapse(s)))
    ensures From(Strip(Collapse(s)), s)
    ensures NoPunctUpper(s) ==> NoPunctUpper(Strip(Collapse(s)))
  {
    var c := Collapse(s);
    CollapseFrom(s);
    StripFrom(c);
    FromTrans(Strip(c), c, s);
    if NoPunctUpper(s) {
      CollapseNoPunctUpper(s);
      StripNoPunctUpper(c);
    }
    StripNormalized(c);
  }

  /** The first steps shared by both cleaning orders: whitespace squashed to
      single spaces, the `\n{2,}` rule, and `¡`, `¿` removed. */
  function Prefilter(text: string): (r: string)
    ensures '\n' !in r && '¡' !in r && '¿' !in r
    ensures From(r, text)
  {
    var a0 := SquashSpaces(text);
    assert '\n' !in a0 by {
      forall i | 0 <= i < |a0| ensures a0[i] != '\n' {
        if a0[i] == '\n' { assert IsSpace(a0[i]); }
      }
    }
    SquashNewlinesAbsent(a0);
    var a := SquashNewlines(a0);
    var b := RemoveChar(a, '¡');
    var c := RemoveChar(b, '¿');
    RemoveFrom(a, '¡');
    RemoveFrom(b, '¿');
    FromTrans(b, a, text);
    FromTrans(c, b, text);
    c
  }

  /** `_clean_text` exactly as written: `"` is removed after the spacing rule. */
  function CleanTextAsWritten(text: string, isWord: char -> bool): (r: string)
    ensures SpacesNormalized(r)
    ensures '¡' !in r && '¿' !in r && '"' !in r
    ensures forall i :: 0 <= i < |r| && r[i] != ' ' ==> r[i] in text && Allowed(r[i], isWord)
  {
    var p := Prefilter(text);
    var w := Whitelist(p, isWord);
    var q0 := SpaceAfterPunct(w);
    var q := RemoveChar(q0, '"');
    RemoveFrom(q0, '"');
    FromTrans(q, q0, w);
    var r := Tidy(q);
    CleanChars(text, p, w, q, r, isWord);
    FromAbsent(r, q, '"');
    r
  }

  /** `_clean_text` with `"` removed before the spacing rule, so that removing
      quotes cannot bring a punctuation mark and a capital back together. */
  function CleanText(text: string, isWord: char -> bool): (r: string)
    ensures SpacesNormalized(r)
    ensures '¡' !in r && '¿' !in r && '"' !in r
    ensures NoPunctUpper(r)
    ensures forall i :: 0 <= i < |r| && r[i] != ' ' ==> r[i] in text && Allowed(r[i], isWord)
  {
    var p := RemoveChar(Prefilter(text), '"');
    RemoveFrom(Prefilter(text), '"');
    FromTrans(p, Prefilter(text), text);
    var w := Whitelist(p, isWord);
    var q := SpaceAfterPunct(w);
    var r := Tidy(q);
    CleanChars(text, p, w, q, r, isWord);
    FromAbsent(r, p, '"');
    r
  }

  /** Character bookkeeping shared by both cleaning orders. */
  lemma CleanChars(text: string, p: string, w: string, q: string, r: string, isWord: char -> bool)
    requires From(p, text) && '¡' !in p && '¿' !in p
    requires w == Whitelist(p, isWord)
    requires From(q, w) && From(r, q)
    ensures '¡' !in r && '¿' !in r
    ensures From(r, p)
    ensures forall i :: 0 <= i < |r| && r[i] != ' ' ==> r[i] in text && Allowed(r[i], isWord)
  {
    assert From(w, p);
    FromTrans(w, p, text);
    FromTrans(r, q, w);
    FromTrans(r, w, p);
    forall i | 0 <= i < |r| && r[i] != ' ' ensures r[i] in text && Allowed(r[i], isWord) {
      var j :| 0 <= j < |w| && w[j] == r[i];
    }
    forall i | 0 <= i < |r| ensures r[i] != '¡' && r[i] != '¿' {
      if r[i] != ' ' {
        var j :| 0 <= j < |w| && w[j] == r[i];
      }
    }
  }

  lemma FromAbsent(r: string, s: string, c: char)
    requires From(r, s) && c != ' ' && c !in s
    ensures c !in r
  {
  }

  /** Cleaning clean text changes nothing. */
  lemma CleanTextIdempotent(text: string, isWord: char -> bool)
    ensures CleanText(CleanText(text, isWord), isWord) == CleanText(text, isWord)
  {
    var x := CleanText(text, isWord);
    assert SingleSpaced(x);
    SquashSingleSpaced(x);
    assert SquashSpaces(x) == x;
    assert '\n' !in x;
    SquashNewlinesAbsent(x);
    RemoveAbsent(x, '¡');
    RemoveAbsent(x, '¿');
    RemoveAbsent(x, '"');
    assert Prefilter(x) == x;
    WhitelistAllowed(x, isWord);
    SpaceAfterPunctNoop(x);
    CollapseNormalized(x);
    StripNormalized(x);
  }

  /** As written, cleaning is stable on its own output exactly when that
      output spaces every punctuation mark before a capital. */
  lemma CleanTextAsWrittenStable(text: string, isWord: char -> bool)
    requires NoPunctUpper(CleanTextAsWritten(text, isWord))
    ensures CleanTextAsWritten(CleanTextAsWritten(text, isWord), isWord) == CleanTextAsWritten(text, isWord)
  {
    var x := CleanTextAsWritten(text, isWord);
    assert SingleSpaced(x);
    SquashSingleSpaced(x);
    assert '\n' !in x;
    SquashNewlinesAbsent(x);
    RemoveAbsent(x, '¡');
    RemoveAbsent(x, '¿');
    assert Prefilter(x) == x;
    WhitelistAllowed(x, isWord);
    SpaceAfterPunctNoop(x);
    RemoveAbsent(x, '"');
    CollapseNormalized(x);
    StripNormalized(x);
  }

  /** As written, cleaning is not idempotent: `."B` cleans to `.B`, which
      cleans again to `. B`. */
  lemma AsWrittenNotIdempotent(m: char, cap: char, isWord: char -> bool)
    requires IsPunct(m) && IsUpperEs(cap)
    ensures CleanTextAsWritten(CleanTextAsWritten([m, '"', cap], isWord), isWord) == [m, ' ', cap]
    ensures CleanTextAsWritten(CleanTextAsWritten([m, '"', cap], isWord), isWord) != CleanTextAsWritten([m, '"', cap], isWord)
  {
    AsWrittenExample(m, cap, isWord);
    AsWrittenSpacesPair(m, cap, isWord);
    var v := [m, ' ', cap];
    assert |v| != |[m, cap]|;
  }

  /** As written, a mark directly before a capital is spaced. */
  lemma AsWrittenSpacesPair(m: char, cap: char, isWord: char -> bool)
    requires IsPunct(m) && IsUpperEs(cap)
    ensures CleanTextAsWritten([m, cap], isWord) == [m, ' ', cap]
  {
    PairSteps(m, cap, isWord);
    AsWrittenSteps([m, cap], isWord, [m, ' ', cap]);
  }

  /** How each cleaning step treats a mark followed by a capital. */
  lemma PairSteps(m: char, cap: char, isWord: char -> bool)
    requires IsPunct(m) && IsUpperEs(cap)
    ensures Prefilter([m, cap]) == [m, cap] && Whitelist([m, cap], isWord) == [m, cap]
    ensures SpaceAfterPunct([m, cap]) == [m, ' ', cap]
    ensures RemoveChar([m, ' ', cap], '"') == [m, ' ', cap] && SpacesNormalized([m, ' ', cap])
  {
    PairKept(m, cap, isWord);
    PunctSpacing(m, cap);
    SpacedPairClean(m, cap);
  }

  lemma PairKept(m: char, cap: char, isWord: char -> bool)
    requires IsPunct(m) && IsUpperEs(cap)
    ensures Prefilter([m, cap]) == [m, cap] && Whitelist([m, cap], isWord) == [m, cap]
  {
    var u := [m, cap];
    UpperNotSpace(cap);
    assert forall i :: 0 <= i < |u| ==> !IsSpace(u[i]) && u[i] != '¡' && u[i] != '¿';
    PlainPrefilter(u);
    PairAllowed(m, cap, isWord);
  }

  lemma PairAllowed(m: char, cap: char, isWord: char -> bool)
    requires IsPunct(m) && IsUpperEs(cap)
    ensures Whitelist([m, cap], isWord) == [m, cap]
  {
    assert Allowed(m, isWord) && Allowed(cap, isWord);
    var u := [m, cap];
    assert forall i :: 0 <= i < |u| ==> Allowed(u[i], isWord);
    WhitelistAllowed(u, isWord);
  }

  lemma SpacedPairClean(m: char, cap: char)
    requires IsPunct(m) && IsUpperEs(cap)
    ensures RemoveChar([m, ' ', cap], '"') == [m, ' ', cap] && SpacesNormalized([m, ' ', cap])
  {
    var v := [m, ' ', cap];
    UpperNotSpace(cap);
    RemoveAbsent(v, '"');
    assert !IsSpace(v[0]) && !IsSpace(v[2]);
  }

  /** Cleaning as written, for a text that every step but the spacing rule
      leaves alone. */
  lemma AsWrittenSteps(t: string, isWord: char -> bool, v: string)
    requires Prefilter(t) == t && Whitelist(t, isWord) == t
    requires SpaceAfterPunct(t) == v && RemoveChar(v, '"') == v && SpacesNormalized(v)
    ensures CleanTextAsWritten(t, isWord) == v
  {
    TidyNormalized(v);
    assert CleanTextAsWritten(t, isWord) == Tidy(RemoveChar(SpaceAfterPunct(Whitelist(Prefilter(t), isWord)), '"'));
  }

  /** Removing quotes after the spacing rule can leave a punctuation mark
      directly before a capital: `."B` cleans to `.B` as written. */
  lemma AsWrittenJoinsPunctUpper(m: char, cap: char, isWord: char -> bool)
    requires IsPunct(m) && IsUpperEs(cap)
    ensures CleanTextAsWritten([m, '"', cap], isWord) == [m, cap]
    ensures !NoPunctUpper(CleanTextAsWritten([m, '"', cap], isWord))
  {
    AsWrittenExample(m, cap, isWord);
    var u := [m, cap];
    assert IsPunct(u[0]) && IsUpperEs(u[1]);
  }

  lemma AsWrittenExample(m: char, cap: char, isWord: char -> bool)
    requires IsPunct(m) && IsUpperEs(cap)
    ensures CleanTextAsWritten([m, '"', cap], isWord) == [m, cap]
  {
    var t := [m, '"', cap];
    PlainPrefilter(t);
    WhitelistAllowed(t, isWord);
    QuoteSpacing(m, cap);
    var u := [m, cap];
    assert SpacesNormalized(u) by { SolidPair(m, cap); }
    TidyNormalized(u);
    assert CleanTextAsWritten(t, isWord) == Tidy(RemoveChar(SpaceAfterPunct(Whitelist(Prefilter(t), isWord)), '"'));
  }

  /** A mark followed by a capital holds no whitespace. */
  lemma SolidPair(m: char, cap: char)
    requires IsPunct(m) && IsUpperEs(cap)
    ensures SpacesNormalized([m, cap])
  {
    var u := [m, cap];
    assert !IsSpace(u[1]) by { UpperNotSpace(cap); }
  }

  lemma UpperNotSpace(c: char)
    requires IsUpperEs(c)
    ensures !IsSpace(c)
  {
  }

  /** With the quotes removed first the same input is spaced: `."B` cleans
      to `. B`. */
  lemma CleanTextSpacesQuoted(m: char, cap: char, isWord: char -> bool)
    requires IsPunct(m) && IsUpperEs(cap)
    ensures CleanText([m, '"', cap], isWord) == [m, ' ', cap]
  {
    var t := [m, '"', cap];
    QuotesFirst(m, cap);
    SpacedPair(m, cap, isWord);
    assert CleanText(t, isWord) == Tidy(SpaceAfterPunct(Whitelist(RemoveChar(Prefilter(t), '"'), isWord)));
  }

  lemma QuotesFirst(m: char, cap: char)
    requires IsPunct(m) && IsUpperEs(cap)
    ensures RemoveChar(Prefilter([m, '"', cap]), '"') == [m, cap]
  {
    PlainPrefilter([m, '"', cap]);
    QuoteSpacing(m, cap);
  }

  lemma SpacedPair(m: char, cap: char, isWord: char -> bool)
    requires IsPunct(m) && IsUpperEs(cap)
    ensures Tidy(SpaceAfterPunct(Whitelist([m, cap], isWord))) == [m, ' ', cap]
  {
    WhitelistAllowed([m, cap], isWord);
    PunctSpacing(m, cap);
    var v := [m, ' ', cap];
    assert SpacesNormalized(v) by {
      assert !IsSpace(m) && !IsSpace(cap);
    }
    TidyNormalized(v);
  }

  lemma PlainPrefilter(t: string)
    requires forall i :: 0 <= i < |t| ==> !IsSpace(t[i]) && t[i] != '¡' && t[i] != '¿'
    ensures Prefilter(t) == t
  {
    SquashSingleSpaced(t);
    SquashNewlinesAbsent(t);
    RemoveAbsent(t, '¡');
    RemoveAbsent(t, '¿');
  }

  lemma TidyNormalized(u: string)
    requires SpacesNormalized(u)
    ensures Tidy(u) == u
  {
    CollapseNormalized(u);
    StripNormalized(u);
  }

  lemma QuoteSpacing(m: char, cap: char)
    requires IsPunct(m) && IsUpperEs(cap)
    ensures SpaceAfterPunct([m, '"', cap]) == [m, '"', cap]
    ensures RemoveChar([m, '"', cap], '"') == [m, cap]
  {
    var t := [m, '"', cap];
    assert t[1..] == ['"', cap] && t[1..][1..] == [cap];
    assert SpaceAfterPunct([cap]) == [cap];
    assert SpaceAfterPunct(['"', cap]) == ['"', cap];
    assert RemoveChar([cap], '"') == [cap];
    assert RemoveChar(['"', cap], '"') == [cap];
  }

  lemma PunctSpacing(m: char, cap: char)
    requires IsPunct(m) && IsUpperEs(cap)
    ensures SpaceAfterPunct([m, cap]) == [m, ' ', cap]
  {
    assert [m, cap][2..] == "";
  }

  // ---- Fragmenting (`split_text`)

  /** The paragraphs of `text`: pieces between blank-line separators `"\n\n"`. */
  function Paragraphs(text: string): seq<string> {
    StrippedPieces(Split(Literal("\n\n"), text))
  }

  /** `[Strip(cur)]` when `cur` is non-empty, else nothing: how both loops of
      `split_text` flush the piece they are building. */
  function Flush(cur: string): seq<string> {
    if cur != "" then [Strip(cur)] else []
  }

  /** The comma loop: each part is appended to `tmp` with ", " while the result
      stays within `max` characters, otherwise `tmp` is flushed and the part
      starts a new piece. Returns the flushed pieces and the final `tmp`. */
  function ChunkCommas(parts: seq<string>, tmp: string, max: int): (r: (seq<string>, string))
    ensures |parts| == 0 ==> r == ([], tmp)
    ensures |parts| > 0 && parts[|parts| - 1] != "" ==> r.1 != ""
    decreases |parts|
  {
    if |parts| == 0 then ([], tmp)
    else
      var part := parts[0];
      if |tmp + ", " + part| <= max then
        ChunkCommas(parts[1..], if tmp != "" then tmp + ", " + part else part, max)
      else
        var rest := ChunkCommas(parts[1..], part, max);
        (Flush(tmp) + rest.0, rest.1)
  }

  /** The sentence loop. A sentence joins the current piece with a space while
      that fits; otherwise the piece is flushed, and a sentence longer than
      `max` is cut at ", " with its last comma piece becoming the current one.
      When that last comma piece is empty the current piece is kept as it was,
      exactly as the loop does; `ChunkSentencesErase` shows it never happens. */
  function ChunkSentences(ss: seq<string>, cur: string, max: int): (r: (seq<string>, string))
    ensures |ss| == 0 ==> r == ([], cur)
    decreases |ss|
  {
    if |ss| == 0 then ([], cur)
    else
      var step := SentenceStep(ss[0], cur, max);
      var rest := ChunkSentences(ss[1..], step.1, max);
      (step.0 + rest.0, rest.1)
  }

  /** One turn of the sentence loop on sentence `s`: the pieces it flushes,
      and the current piece after it. */
  function SentenceStep(s: string, cur: string, max: int): (seq<string>, string) {
    var test := if cur != "" then cur + " " + s else s;
    if |test| <= max then ([], test)
    else if |s| > max then
      var c := ChunkCommas(Split(Literal(", "), s), "", max);
      (Flush(cur) + c.0, if c.1 != "" then c.1 else cur)
    else (Flush(cur), s)
  }

  /** One paragraph: kept whole when it fits, otherwise cut at sentence breaks. */
  function ChunkParagraph(p: string, max: int): seq<string> {
    if |p| <= max then [p]
    else
      var c := ChunkSentences(Split(SentenceBreak, p), "", max);
      c.0 + Flush(c.1)
  }

  function ChunkAll(ps: seq<string>, max: int): seq<string> {
    if |ps| == 0 then [] else ChunkParagraph(ps[0], max) + ChunkAll(ps[1..], max)
  }

  /** The fragments before the final length filter. */
  function RawFragments(text: string, max: int): seq<string> {
    ChunkAll(Paragraphs(text), max)
  }

  /** `a` is `b` with some elements left out, order kept. */
  predicate Subsequence<T(==)>(a: seq<T>, b: seq<T>) {
    |a| == 0 || (|b| > 0 && ((a[0] == b[0] && Subsequence(a[1..], b[1..])) || Subsequence(a, b[1..])))
  }

  /** `[f for f in fs if len(f.strip()) > 10]`. */
  function KeepLong(fs: seq<string>): (r: seq<string>)
    ensures forall k :: 0 <= k < |r| ==> |Strip(r[k])| > 10
    ensures forall f :: f in r <==> f in fs && |Strip(f)| > 10
    ensures Subsequence(r, fs)
  {
    if |fs| == 0 then []
    else
      var rest := KeepLong(fs[1..]);
      assert forall f :: f in fs <==> f == fs[0] || f in fs[1..];
      if |Strip(fs[0])| > 10 then
        var r := [fs[0]] + rest;
        assert r[0] == fs[0] && r[1..] == rest;
        r
      else rest
  }

  /** `split_text`. */
  function SplitText(text: string, max: int): (r: seq<string>)
    ensures forall k :: 0 <= k < |r| ==> |Strip(r[k])| > 10
    ensures Subsequence(r, RawFragments(text, max))
  {
    KeepLong(RawFragments(text, max))
  }

  // Text order: the raw fragments spell the text, up to spacing and commas.

  lemma {:induction false} ConcatErase(xs: seq<string>, ys: seq<string>)
    ensures Erase(Concat(xs + ys)) == Erase(Concat(xs)) + Erase(Concat(ys))
  {
    ConcatAppend(xs, ys);
    EraseConcat(Concat(xs), Concat(ys));
  }

  lemma FlushErase(cur: string)
    ensures Erase(Concat(Flush(cur))) == Erase(cur)
  {
    if cur != "" {
      assert Concat([Strip(cur)]) == Strip(cur) + Concat([]);
      assert Strip(cur) + "" == Strip(cur);
      EraseStrip(cur);
    }
  }

  lemma CommaErase(a: string, b: string)
    ensures Erase(a + ", " + b) == Erase(a) + Erase(b)
  {
    EraseConcat(a + ", ", b);
    EraseConcat(a, ", ");
    assert Erase(", ") == "" by {
      assert ", "[1..] == " ";
      assert " "[1..] == "";
    }
  }

  lemma SpaceErase(a: string, b: string)
    ensures Erase(a + " " + b) == Erase(a) + Erase(b)
  {
    EraseConcat(a + " ", b);
    EraseConcat(a, " ");
    assert Erase(" ") == "" by { assert " "[1..] == ""; }
  }

  lemma ConcatCons(x: string, xs: seq<string>)
    ensures Erase(Concat([x] + xs)) == Erase(x) + Erase(Concat(xs))
  {
    assert ([x] + xs)[1..] == xs;
    EraseConcat(x, Concat(xs));
  }

  lemma {:induction false} ChunkCommasErase(parts: seq<string>, tmp: string, max: int)
    ensures var r := ChunkCommas(parts, tmp, max);
      Erase(Concat(r.0)) + Erase(r.1) == Erase(tmp) + Erase(Concat(parts))
    decreases |parts|
  {
    if |parts| > 0 {
      var part := parts[0];
      assert parts == [part] + parts[1..];
      ConcatCons(part, parts[1..]);
      if |tmp + ", " + part| <= max {
        var t := if tmp != "" then tmp + ", " + part else part;
        ChunkCommasErase(parts[1..], t, max);
        if tmp != "" { CommaErase(tmp, part); }
      } else {
        var rest := ChunkCommas(parts[1..], part, max);
        ChunkCommasErase(parts[1..], part, max);
        ConcatErase(Flush(tmp), rest.0);
        FlushErase(tmp);
      }
    }
  }

  /** Cutting a sentence at ", " and concatenating the pieces loses only the
      commas and spaces, and its last piece is non-empty. */
  lemma CommaPieces(s: string, max: int)
    requires EndsSolid(s)
    ensures var c := ChunkCommas(Split(Literal(", "), s), "", max);
      c.1 != "" && Erase(Concat(c.0)) + Erase(c.1) == Erase(s)
  {
    var sep: Separator := ", ";
    var parts := Split(Literal(sep), s);
    SplitLastNonEmpty(sep, s);
    ChunkCommasErase(parts, "", max);
    assert Erase(", ") == "" by {
      assert ", "[1..] == " ";
      assert " "[1..] == "";
    }
    EraseJoin(parts, sep);
    SplitJoinLiteral(sep, s);
  }

  lemma {:induction false} ChunkSentencesErase(ss: seq<string>, cur: string, max: int)
    requires forall j :: 0 <= j < |ss| ==> EndsSolid(ss[j])
    ensures var r := ChunkSentences(ss, cur, max);
      Erase(Concat(r.0)) + Erase(r.1) == Erase(cur) + Erase(Concat(ss))
    decreases |ss|
  {
    if |ss| > 0 {
      var step := SentenceStep(ss[0], cur, max);
      ChunkSentencesErase(ss[1..], step.1, max);
      StepErase(ss[0], cur, max);
      KeepsTextCons(ss, cur, max);
    }
  }

  /** The sentence loop keeps every non-whitespace character, in order. */
  predicate KeepsText(ss: seq<string>, cur: string, max: int) {
    var r := ChunkSentences(ss, cur, max);
    Erase(Concat(r.0)) + Erase(r.1) == Erase(cur) + Erase(Concat(ss))
  }

  lemma KeepsTextCons(ss: seq<string>, cur: string, max: int)
    requires |ss| > 0
    requires var step := SentenceStep(ss[0], cur, max);
      Erase(Concat(step.0)) + Erase(step.1) == Erase(cur) + Erase(ss[0])
      && KeepsText(ss[1..], step.1, max)
    ensures KeepsText(ss, cur, max)
  {
    var step := SentenceStep(ss[0], cur, max);
    var rest := ChunkSentences(ss[1..], step.1, max);
    assert ChunkSentences(ss, cur, max) == (step.0 + rest.0, rest.1);
    assert ss == [ss[0]] + ss[1..];
    ConcatCons(ss[0], ss[1..]);
    ConcatErase(step.0, rest.0);
    ResplitConcat(Erase(Concat(step.0)), Erase(Concat(rest.0)), Erase(rest.1), Erase(step.1),
             Erase(Concat(ss[1..])), Erase(cur), Erase(ss[0]));
  }

  /** Two re-splittings of the same text: `b + c` as `d + f`, then `a + d`
      as `x + y`. */
  lemma ResplitConcat(a: string, b: string, c: string, d: string, f: string, x: string, y: string)
    requires b + c == d + f && a + d == x + y
    ensures a + b + c == x + (y + f)
  {
    calc {
      a + b + c;
      a + (b + c);
      a + (d + f);
      (a + d) + f;
    }
  }

  /** One turn of the sentence loop keeps every non-whitespace character.
      For a long sentence this rests on its last comma piece being non-empty,
      so the loop's fallback to the old current piece never happens. */
  lemma StepErase(s: string, cur: string, max: int)
    requires EndsSolid(s)
    ensures var step := SentenceStep(s, cur, max);
      Erase(Concat(step.0)) + Erase(step.1) == Erase(cur) + Erase(s)
  {
    var test := if cur != "" then cur + " " + s else s;
    if |test| <= max {
      assert Concat([]) == "";
      if cur != "" { SpaceErase(cur, s); }
    } else if |s| > max {
      var c := ChunkCommas(Split(Literal(", "), s), "", max);
      CommaPieces(s, max);
      ConcatErase(Flush(cur), c.0);
      FlushErase(cur);
    } else {
      FlushErase(cur);
    }
  }

  lemma ChunkParagraphErase(p: string, max: int)
    requires EndsSolid(p)
    ensures Erase(Concat(ChunkParagraph(p, max))) == Erase(p)
  {
    if |p| <= max {
      assert Concat([p]) == p + Concat([]);
      assert p + "" == p;
    } else {
      var ss := Split(SentenceBreak, p);
      SentencesEndSolid(p);
      ChunkSentencesErase(ss, "", max);
      SentencesErase(p);
      var c := ChunkSentences(ss, "", max);
      ConcatErase(c.0, Flush(c.1));
      FlushErase(c.1);
    }
  }

  lemma {:induction false} ChunkAllErase(ps: seq<string>, max: int)
    requires forall k :: 0 <= k < |ps| ==> EndsSolid(ps[k])
    ensures Erase(Concat(ChunkAll(ps, max))) == Erase(Concat(ps))
    decreases |ps|
  {
    if |ps| > 0 {
      ChunkAllErase(ps[1..], max);
      ChunkParagraphErase(ps[0], max);
      ConcatErase(ChunkParagraph(ps[0], max), ChunkAll(ps[1..], max));
      assert ps == [ps[0]] + ps[1..];
      ConcatCons(ps[0], ps[1..]);
    }
  }

  lemma {:induction false} StrippedPiecesErase(ps: seq<string>)
    ensures Erase(Concat(StrippedPieces(ps))) == Erase(Concat(ps))
    decreases |ps|
  {
    if |ps| > 0 {
      StrippedPiecesErase(ps[1..]);
      assert ps == [ps[0]] + ps[1..];
      ConcatCons(ps[0], ps[1..]);
      if Strip(ps[0]) != "" {
        ConcatCons(Strip(ps[0]), StrippedPieces(ps[1..]));
        EraseStrip(ps[0]);
      } else {
        EraseBlank(ps[0]);
      }
    }
  }

  lemma ParagraphsErase(text: string)
    ensures Erase(Concat(Paragraphs(text))) == Erase(text)
  {
    var sep: Separator := "\n\n";
    var parts := Split(Literal(sep), text);
    StrippedPiecesErase(parts);
    assert Erase(sep) == "" by { assert sep[1..] == "\n"; assert "\n"[1..] == ""; }
    EraseJoin(parts, sep);
    SplitJoinLiteral(sep, text);
  }

  /** Fragments are in text order: the fragments `split_text` returns are some
      of the raw fragments, in order, and the raw fragments spell the whole
      text once whitespace and commas are set aside. */
  lemma SplitTextInOrder(text: string, max: int)
    ensures Subsequence(SplitText(text, max), RawFragments(text, max))
    ensures Erase(Concat(RawFragments(text, max))) == Erase(text)
  {
    ChunkAllErase(Paragraphs(text), max);
    ParagraphsErase(text);
  }

  /** Paragraphs that fit are emitted unchanged, one fragment each. */
  lemma {:induction false} ShortParagraphsUnchanged(ps: seq<string>, max: int)
    requires forall k :: 0 <= k < |ps| ==> |ps[k]| <= max
    ensures ChunkAll(ps, max) == ps
    decreases |ps|
  {
    if |ps| > 0 {
      ShortParagraphsUnchanged(ps[1..], max);
      assert ps == [ps[0]] + ps[1..];
    }
  }

  /** Cleaned text holds no newline, so it is a single paragraph. */
  lemma CleanTextOneParagraph(text: string, isWord: char -> bool)
    ensures var x := CleanTextAsWritten(text, isWord);
      Paragraphs(x) == if x == "" then [] else [x]
  {
    NormalizedOneParagraph(CleanTextAsWritten(text, isWord));
  }

  /** Normalised text holds no newline, hence no paragraph break. */
  lemma NormalizedOneParagraph(x: string)
    requires SpacesNormalized(x)
    ensures Paragraphs(x) == if x == "" then [] else [x]
  {
    var sep: Separator := "\n\n";
    assert !Contains(x, sep) by {
      if Contains(x, sep) {
        var i :| 0 <= i <= |x| && OccursAt(x, sep, i);
        assert x[i] == x[i..i + 2][0] == '\n';
        assert IsSpace(x[i]);
        assert false;
      }
    }
    SplitFindsSeparator(sep, x);
    var parts := Split(Literal(sep), x);
    SplitJoinLiteral(sep, x);
    assert parts == [x];
    StripNormalized(x);
  }

  /** Cleaned text longer than 10 characters and within the chunk size is
      read as one fragment. */
  lemma CleanTextOneFragment(text: string, isWord: char -> bool, max: int)
    requires 10 < |CleanTextAsWritten(text, isWord)| <= max
    ensures SplitText(CleanTextAsWritten(text, isWord), max) == [CleanTextAsWritten(text, isWord)]
  {
    NormalizedOneFragment(CleanTextAsWritten(text, isWord), max);
  }

  lemma NormalizedOneFragment(x: string, max: int)
    requires SpacesNormalized(x) && 10 < |x| <= max
    ensures SplitText(x, max) == [x]
  {
    NormalizedOneParagraph(x);
    ShortParagraphsUnchanged([x], max);
    StripNormalized(x);
  }

  // ---- Voice-model fallback (`generate_audio_fragment`)

  /** What one `tts` invocation did: finished with a return code, a file that
      may exist and its size in bytes; or hit the 60-second timeout; or raised. */
  datatype SynthResult = Completed(returnCode: int, fileExists: bool, size: nat) | TimedOut | Crashed

  predicate Succeeded(o: SynthResult) {
    o.Completed? && o.returnCode == 0 && o.fileExists && o.size > 1000
  }

  /** The outcome of one fragment: whether it succeeded, the current model
      afterwards and the models tried, in order. */
  datatype FragmentRun = FragmentRun(ok: bool, model: VoiceModel, tried: seq<VoiceModel>)

  /** `generate_audio_fragment(text, out, attempt)` with the current model
      `model`. `now` is what this invocation of `tts` does; `retry` is what the
      retry with the backup model would do. */
  function GenerateFragment(model: VoiceModel, attempt: int, now: SynthResult, retry: SynthResult): (r: FragmentRun)
    ensures 1 <= |r.tried| <= 2 && r.tried[0] == model
    ensures r.model == r.tried[|r.tried| - 1]
    ensures |r.tried| == 2 <==> attempt == 1 && model == Css10 && now.Completed? && !Succeeded(now)
    ensures |r.tried| == 2 ==> r.tried == [Css10, Mai]
    ensures model == Mai ==> r.model == Mai
    ensures r.ok <==> if |r.tried| == 1 then Succeeded(now) else Succeeded(retry)
    decreases if attempt == 1 then 1 else 0
  {
    if !now.Completed? then FragmentRun(false, model, [model])
    else if Succeeded(now) then FragmentRun(true, model, [model])
    else if attempt == 1 && model == Css10 then
      var r := GenerateFragment(Mai, attempt + 1, retry, retry);
      FragmentRun(r.ok, r.model, [model] + r.tried)
    else FragmentRun(false, model, [model])
  }

  /** The fragments synthesised from index `i` on, with the model carried
      from one fragment to the next. */
  datatype SynthRun = SynthRun(done: seq<nat>, failed: nat, model: VoiceModel)

  predicate Increasing(xs: seq<nat>) {
    forall a, b :: 0 <= a < b < |xs| ==> xs[a] < xs[b]
  }

  /** A first attempt that completes without success: with the primary
      model this is what triggers the retry and the switch to the backup. */
  predicate FallsBack(o: SynthResult) {
    o.Completed? && !Succeeded(o)
  }

  /** Fragment `k` is the first from `i` on whose first attempt falls back,
      so it is the one fragment whose retry runs when the loop starts with
      the primary model. */
  predicate FirstFallback(synth: nat -> (SynthResult, SynthResult), i: nat, k: nat) {
    FallsBack(synth(k).0) && forall m :: i <= m < k ==> !FallsBack(synth(m).0)
  }

  /** The loop of `process_file` over fragments `i` to `n - 1`; `synth(k)` is
      what the first invocation and the retry for fragment `k` do. */
  function SynthesizeAll(n: nat, i: nat, synth: nat -> (SynthResult, SynthResult), model: VoiceModel): (r: SynthRun)
    requires i <= n
    ensures |r.done| + r.failed == n - i
    ensures Increasing(r.done)
    ensures forall k :: 0 <= k < |r.done| ==> i <= r.done[k] < n
    ensures forall k :: i <= k < n && k in r.done ==> Succeeded(synth(k).0) || Succeeded(synth(k).1)
    ensures forall k :: i <= k < n && Succeeded(synth(k).0) ==> k in r.done
    ensures model == Mai ==> r.model == Mai
    ensures model == Mai ==> forall k :: i <= k < n ==> (k in r.done <==> Succeeded(synth(k).0))
    ensures model == Css10 ==> forall k :: i <= k < n ==>
      (k in r.done <==> Succeeded(synth(k).0) || (FirstFallback(synth, i, k) && Succeeded(synth(k).1)))
    ensures r.model == Mai <==> model == Mai || exists k :: i <= k < n && FallsBack(synth(k).0)
    decreases n - i
  {
    if i == n then SynthRun([], 0, model)
    else
      var f := GenerateFragment(model, 1, synth(i).0, synth(i).1);
      var rest := SynthesizeAll(n, i + 1, synth, f.model);
      var r := if f.ok then SynthRun([i] + rest.done, rest.failed, rest.model)
        else SynthRun(rest.done, rest.failed + 1, rest.model);
      DoneStep(n, i, synth, model, f, rest, r);
      FallbackStep(n, i, synth, model, f, rest, r);
      r
  }

  /** One step of `SynthesizeAll`: the counting and success facts for
      fragment `i` and the rest of the run give those of the whole run. */
  lemma DoneStep(n: nat, i: nat, synth: nat -> (SynthResult, SynthResult), model: VoiceModel,
                 f: FragmentRun, rest: SynthRun, r: SynthRun)
    requires i < n
    requires f == GenerateFragment(model, 1, synth(i).0, synth(i).1)
    requires r == if f.ok then SynthRun([i] + rest.done, rest.failed, rest.model) else SynthRun(rest.done, rest.failed + 1, rest.model)
    requires |rest.done| + rest.failed == n - (i + 1)
    requires Increasing(rest.done)
    requires forall k :: 0 <= k < |rest.done| ==> i + 1 <= rest.done[k] < n
    requires forall k :: i + 1 <= k < n && k in rest.done ==> Succeeded(synth(k).0) || Succeeded(synth(k).1)
    requires forall k :: i + 1 <= k < n && Succeeded(synth(k).0) ==> k in rest.done
    requires f.model == Mai ==> rest.model == Mai
    requires f.model == Mai ==> forall k :: i + 1 <= k < n ==> (k in rest.done <==> Succeeded(synth(k).0))
    ensures |r.done| + r.failed == n - i
    ensures Increasing(r.done)
    ensures forall k :: 0 <= k < |r.done| ==> i <= r.done[k] < n
    ensures forall k :: i <= k < n && k in r.done ==> Succeeded(synth(k).0) || Succeeded(synth(k).1)
    ensures forall k :: i <= k < n && Succeeded(synth(k).0) ==> k in r.done
    ensures model == Mai ==> r.model == Mai
    ensures model == Mai ==> forall k :: i <= k < n ==> (k in r.done <==> Succeeded(synth(k).0))
  {
    assert i !in rest.done;
    if f.ok {
      assert r.done == [i] + rest.done;
      assert forall k :: 0 <= k < |rest.done| ==> r.done[k + 1] == rest.done[k];
      assert forall k :: k in r.done <==> k == i || k in rest.done;
      assert Succeeded(synth(i).0) || Succeeded(synth(i).1);
    } else {
      assert r.done == rest.done;
      assert !Succeeded(synth(i).0);
    }
  }

  /** One step of `SynthesizeAll`: the retry and model facts for fragment `i`
      and the rest of the run give those of the whole run. */
  lemma FallbackStep(n: nat, i: nat, synth: nat -> (SynthResult, SynthResult), model: VoiceModel,
                     f: FragmentRun, rest: SynthRun, r: SynthRun)
    requires i < n
    requires f == GenerateFragment(model, 1, synth(i).0, synth(i).1)
    requires r == if f.ok then SynthRun([i] + rest.done, rest.failed, rest.model) else SynthRun(rest.done, rest.failed + 1, rest.model)
    requires forall k :: 0 <= k < |rest.done| ==> i + 1 <= rest.done[k] < n
    requires f.model == Mai ==> forall k :: i + 1 <= k < n ==> (k in rest.done <==> Succeeded(synth(k).0))
    requires f.model == Css10 ==> forall k :: i + 1 <= k < n ==>
      (k in rest.done <==> Succeeded(synth(k).0) || (FirstFallback(synth, i + 1, k) && Succeeded(synth(k).1)))
    requires rest.model == Mai <==> f.model == Mai || exists k :: i + 1 <= k < n && FallsBack(synth(k).0)
    ensures model == Css10 ==> forall k :: i <= k < n ==>
      (k in r.done <==> Succeeded(synth(k).0) || (FirstFallback(synth, i, k) && Succeeded(synth(k).1)))
    ensures r.model == Mai <==> model == Mai || exists k :: i <= k < n && FallsBack(synth(k).0)
  {
    assert i !in rest.done;
    assert r.model == rest.model;
    assert forall k :: k in r.done <==> (k == i && f.ok) || k in rest.done;
    if model == Css10 {
      if FallsBack(synth(i).0) {
        assert f.model == Mai && (f.ok <==> Succeeded(synth(i).1));
        assert FirstFallback(synth, i, i);
        forall k | i < k < n
          ensures k in r.done <==> Succeeded(synth(k).0) || (FirstFallback(synth, i, k) && Succeeded(synth(k).1))
        {
          assert !FirstFallback(synth, i, k);
        }
      } else {
        assert f.model == Css10 && (f.ok <==> Succeeded(synth(i).0));
        assert !FirstFallback(synth, i, i);
        forall k | i < k < n
          ensures k in r.done <==> Succeeded(synth(k).0) || (FirstFallback(synth, i, k) && Succeeded(synth(k).1))
        {
          FirstFallbackShift(synth, i, k);
        }
      }
    }
    if exists k :: i <= k < n && FallsBack(synth(k).0) {
      var k :| i <= k < n && FallsBack(synth(k).0);
      if k == i {
        assert model == Css10 ==> f.model == Mai;
      } else {
        assert i + 1 <= k < n && FallsBack(synth(k).0);
      }
    }
  }

  /** A first attempt that does not fall back leaves the first fallback
      after it where it was. */
  lemma FirstFallbackShift(synth: nat -> (SynthResult, SynthResult), i: nat, k: nat)
    requires !FallsBack(synth(i).0) && i < k
    ensures FirstFallback(synth, i, k) == FirstFallback(synth, i + 1, k)
  {
  }

  // ---- Fragment files

  /** `f"fragment_{i:03d}.wav"`. */
  function FragmentName(i: nat): (r: string)
    ensures IsPlainName(r)
  {
    var z := ZeroPad(i, 3);
    var r := "fragment_" + z + ".wav";
    assert r[0] == 'f';
    assert forall j :: 0 <= j < |z| ==> r[9 + j] == z[j];
    r
  }

  /** Distinct fragment indices get distinct file names, so no fragment
      overwrites another. */
  lemma FragmentNameInjective(i: nat, j: nat)
    requires FragmentName(i) == FragmentName(j)
    ensures i == j
  {
    var a, b := ZeroPad(i, 3), ZeroPad(j, 3);
    var x := FragmentName(i);
    assert |a| == |b|;
    assert x[9..9 + |a|] == a;
    assert FragmentName(j)[9..9 + |b|] == b;
  }

  function FragmentPath(c: TtsConfig, i: nat): Path {
    Join(TempDir(c), FragmentName(i))
  }

  lemma FragmentPathsDistinct(c: TtsConfig, i: nat, j: nat)
    requires i != j
    ensures FragmentPath(c, i) != FragmentPath(c, j)
    ensures FragmentPath(c, i).parts == TempDir(c).parts + [FragmentName(i)]
  {
    JoinPlain(TempDir(c), FragmentName(i));
    JoinPlain(TempDir(c), FragmentName(j));
    var n := |TempDir(c).parts|;
    assert FragmentPath(c, i).parts[n] == FragmentName(i);
    assert FragmentPath(c, j).parts[n] == FragmentName(j);
    if FragmentName(i) == FragmentName(j) { FragmentNameInjective(i, j); }
  }

  // ---- Loading the input (`load_text`)

  datatype Encoding = Utf8 | Latin1 | Cp1252

  /** The encodings `load_text` tries, in order. */
  const Encodings: seq<Encoding> := [Utf8, Latin1, Cp1252]

  /** Opening a file with one encoding: its text, a `UnicodeDecodeError`
      (the next encoding is tried), or any other error (it propagates). */
  datatype DecodeResult = Decoded(text: string) | DecodeError | OtherError

  /** Files on disk as far as `load_text` and `process_file` see them. */
  datatype AudioEnv = AudioEnv(
    cwd: Path,
    existing: set<Path>,
    decode: (Path, Encoding) -> DecodeResult,
    isWord: char -> bool,
    synth: nat -> (SynthResult, SynthResult),
    moveOk: bool,
    combineOk: bool,
    finalOk: bool,
    cleanupOk: bool,
    finalExists: bool,
    finalSize: nat)

  /** The places searched for an input file: the path itself and, for a
      relative path only, its name in the working directory and in the input
      directory. */
  function Candidates(c: TtsConfig, cwd: Path, p: Path): (r: seq<Path>)
    ensures |r| >= 1 && r[0] == p
    ensures p.absolute ==> |r| == 1
    ensures !p.absolute ==> r == [p, Join(cwd, Name(p)), Join(InputDir(c), Name(p))]
  {
    [p] + if p.absolute then [] else [Join(cwd, Name(p)), Join(InputDir(c), Name(p))]
  }

  /** Index of the first path of `ps` that exists. */
  function FirstExisting(ps: seq<Path>, existing: set<Path>): (r: Option<nat>)
    ensures r.Some? ==> r.value < |ps| && ps[r.value] in existing
    ensures r.Some? ==> forall j :: 0 <= j < r.value ==> ps[j] !in existing
    ensures r.None? <==> forall j :: 0 <= j < |ps| ==> ps[j] !in existing
  {
    if |ps| == 0 then None
    else if ps[0] in existing then Some(0)
    else
      var r := FirstExisting(ps[1..], existing);
      if r.Some? then Some(r.value + 1) else None
  }

  /** The encoding loop: the first encoding that decodes wins; a decode error
      moves on; any other error, or running out of encodings, raises. */
  function FirstDecoded(p: Path, encs: seq<Encoding>, decode: (Path, Encoding) -> DecodeResult): (r: Outcome<string>)
    ensures r.Returned? <==> exists k :: 0 <= k < |encs| && decode(p, encs[k]).Decoded? && forall j :: 0 <= j < k ==> decode(p, encs[j]) == DecodeError
    ensures r.Returned? ==> exists k :: 0 <= k < |encs| && decode(p, encs[k]) == Decoded(r.value)
  {
    if |encs| == 0 then Raised
    else match decode(p, encs[0])
      case Decoded(t) => Returned(t)
      case DecodeError =>
        var r := FirstDecoded(p, encs[1..], decode);
        assert forall k :: 1 <= k <= |encs[1..]| ==> encs[1..][k - 1] == encs[k];
        r
      case OtherError => Raised
  }

  /** Some encoding decodes the file at `p` to a text that cleans to `t`. */
  predicate ReadAs(env: AudioEnv, p: Path, t: string) {
    exists k :: 0 <= k < |Encodings| && env.decode(p, Encodings[k]).Decoded? &&
      t == CleanTextAsWritten(Strip(env.decode(p, Encodings[k]).text), env.isWord)
  }

  /** `load_text`: the first existing candidate, read with the first encoding
      that works, stripped and cleaned. */
  function LoadText(c: TtsConfig, env: AudioEnv, path: string): (r: Outcome<string>)
    ensures var cands := Candidates(c, env.cwd, ParsePath(path));
      (forall j :: 0 <= j < |cands| ==> cands[j] !in env.existing) ==> r == Raised
    ensures r.Returned? ==> SpacesNormalized(r.value) && '¡' !in r.value && '¿' !in r.value && '"' !in r.value
    ensures r.Returned? ==>
      var cands := Candidates(c, env.cwd, ParsePath(path));
      var i := FirstExisting(cands, env.existing);
      i.Some? && ReadAs(env, cands[i.value], r.value)
  {
    var cands := Candidates(c, env.cwd, ParsePath(path));
    var i := FirstExisting(cands, env.existing);
    if i.None? then Raised
    else
      var d := FirstDecoded(cands[i.value], Encodings, env.decode);
      if d.Raised? then Raised
      else Returned(CleanTextAsWritten(Strip(d.value), env.isWord))
  }

  // ---- The whole file (`process_file`)

  /** `<stem>_audio.<format>`, used when no output name is given. */
  function DefaultOutputName(c: TtsConfig, inputFile: string): string {
    Stem(Name(ParsePath(inputFile))) + "_audio." + c.outputFormat
  }

  /** The default name keeps the input's stem and carries the configured
      format as its suffix. */
  lemma DefaultOutputNameParts(c: TtsConfig, inputFile: string)
    requires c.outputFormat != "" && '.' !in c.outputFormat
    ensures Suffix(DefaultOutputName(c, inputFile)) == "." + c.outputFormat
    ensures Stem(DefaultOutputName(c, inputFile)) == Stem(Name(ParsePath(inputFile))) + "_audio"
  {
    var stem := Stem(Name(ParsePath(inputFile)));
    assert stem + "_audio." + c.outputFormat == (stem + "_audio") + "." + c.outputFormat;
    DotExtension(stem + "_audio", c.outputFormat);
  }

  function OutputName(c: TtsConfig, inputFile: string, outputName: Option<string>): string {
    if outputName.None? || outputName.value == "" then DefaultOutputName(c, inputFile) else outputName.value
  }

  datatype Assembly = Moved | Concatenated

  /** What `process_file` returns (the final path or None), with the indices
      of the fragments that were synthesised and how they were assembled. */
  datatype ProcessResult = ProcessResult(output: Option<Path>, synthesized: seq<nat>, assembly: Option<Assembly>)

  /** `process_file(input_file, output_name)`; every step that can fail
      returns None. */
  function ProcessFile(c: TtsConfig, env: AudioEnv, inputFile: string, outputName: Option<string>): (r: ProcessResult)
    ensures r.output.Some? ==> r.output.value == Join(OutputDir(c), OutputName(c, inputFile, outputName))
    ensures r.output.Some? ==> env.finalExists && env.finalSize > 1000 && env.finalOk
    ensures r.synthesized == [] ==> r.output == None && r.assembly == None
    ensures r.assembly == Some(Moved) <==> |r.synthesized| == 1
    ensures r.assembly == Some(Concatenated) <==> |r.synthesized| >= 2
    ensures r.assembly == Some(Moved) && r.output.Some? ==> env.moveOk
    ensures r.assembly == Some(Concatenated) && r.output.Some? ==> env.combineOk
    ensures LoadText(c, env, inputFile).Raised? ==> r.output == None && r.synthesized == []
    ensures r.output.Some? <==> r.synthesized != [] && Finished(c, env, |r.synthesized|)
    ensures LoadText(c, env, inputFile).Returned? ==>
      SynthesisOutcome(c, env, |SplitText(LoadText(c, env, inputFile).value, c.maxCharsPerChunk)|, r.synthesized)
    ensures FromSuccesses(env, r.synthesized)
    ensures NoFragmentSynthesizes(env) ==> r.output == None
  {
    ProcessOutcome(c, env, LoadText(c, env, inputFile), Join(OutputDir(c), OutputName(c, inputFile, outputName)))
  }

  /** `process_file` after `load_text_file` returned `loaded`. */
  function ProcessOutcome(c: TtsConfig, env: AudioEnv, loaded: Outcome<string>, final: Path): (r: ProcessResult)
    ensures r.output.Some? ==> r.output.value == final
    ensures r.output.Some? ==> env.finalExists && env.finalSize > 1000 && env.finalOk
    ensures r.synthesized == [] ==> r.output == None && r.assembly == None
    ensures r.assembly == Some(Moved) <==> |r.synthesized| == 1
    ensures r.assembly == Some(Concatenated) <==> |r.synthesized| >= 2
    ensures r.assembly == Some(Moved) && r.output.Some? ==> env.moveOk
    ensures r.assembly == Some(Concatenated) && r.output.Some? ==> env.combineOk
    ensures loaded.Raised? ==> r.output == None && r.synthesized == []
    ensures r.output.Some? <==> r.synthesized != [] && Finished(c, env, |r.synthesized|)
    ensures loaded.Returned? ==> SynthesisOutcome(c, env, |SplitText(loaded.value, c.maxCharsPerChunk)|, r.synthesized)
    ensures FromSuccesses(env, r.synthesized)
    ensures NoFragmentSynthesizes(env) ==> r.output == None
    ensures loaded.Returned? ==> r == ProcessLoaded(c, env, loaded.value, final)
  {
    if loaded.Raised? then ProcessResult(None, [], None)
    else ProcessLoaded(c, env, loaded.value, final)
  }

  /** The steps after synthesis all worked for `n` synthesised fragments:
      the move (one fragment) or the concatenation (several), the final
      conversion, the clean-up unless temporary files are kept, and a final
      file over 1000 bytes. */
  predicate Finished(c: TtsConfig, env: AudioEnv, n: nat) {
    (if n == 1 then env.moveOk else env.combineOk) && env.finalOk && (c.keepTempFiles || env.cleanupOk)
      && env.finalExists && env.finalSize > 1000
  }

  /** Every fragment in `ks` had an attempt of `tts` that succeeded. */
  predicate FromSuccesses(env: AudioEnv, ks: seq<nat>) {
    forall k :: k in ks ==> Succeeded(env.synth(k).0) || Succeeded(env.synth(k).1)
  }

  /** No attempt of `tts`, first or retry, succeeds for any fragment. */
  ghost predicate NoFragmentSynthesizes(env: AudioEnv) {
    forall k :: !Succeeded(env.synth(k).0) && !Succeeded(env.synth(k).1)
  }

  /** `synthesized` lists exactly the fragments among the first `n` whose
      audio was made: those whose first attempt succeeded, and, when the run
      starts with the primary model, the first fragment that fell back if its
      retry with the backup model succeeded. */
  predicate SynthesisOutcome(c: TtsConfig, env: AudioEnv, n: nat, synthesized: seq<nat>) {
    (forall k :: k in synthesized ==> k < n)
    && forall k :: 0 <= k < n ==>
      (k in synthesized <==>
        (Succeeded(env.synth(k).0) || (c.voiceModel == Css10 && FirstFallback(env.synth, 0, k) && Succeeded(env.synth(k).1))))
  }

  /** The synthesis loop of `process_file` over `n` fragments yields the
      outcome above, and only fragments with some successful attempt. */
  lemma RunOutcome(c: TtsConfig, env: AudioEnv, n: nat, run: SynthRun)
    requires run == SynthesizeAll(n, 0, env.synth, c.voiceModel)
    ensures SynthesisOutcome(c, env, n, run.done)
    ensures FromSuccesses(env, run.done)
  {
    assert forall k :: k in run.done ==> 0 <= k < n;
  }

  /** The file steps after synthesis for the fragments `done`. */
  function Assemble(c: TtsConfig, env: AudioEnv, done: seq<nat>, final: Path): (r: ProcessResult)
    requires done != []
    ensures r.synthesized == done
    ensures r.output.Some? ==> r.output.value == final
    ensures r.assembly == Some(if |done| == 1 then Moved else Concatenated)
    ensures r.output.Some? <==> Finished(c, env, |done|)
  {
    var assembly := if |done| == 1 then Moved else Concatenated;
    var assembled := if |done| == 1 then env.moveOk else env.combineOk;
    var ok := assembled && env.finalOk && (c.keepTempFiles || env.cleanupOk)
      && env.finalExists && env.finalSize > 1000;
    ProcessResult(if ok then Some(final) else None, done, Some(assembly))
  }

  /** `process_file` once the text is loaded: split, synthesise, assemble the
      fragments into `final` and clean up. */
  function ProcessLoaded(c: TtsConfig, env: AudioEnv, text: string, final: Path): (r: ProcessResult)
    ensures r.output.Some? ==> r.output.value == final
    ensures r.output.Some? ==> env.finalExists && env.finalSize > 1000 && env.finalOk
    ensures r.synthesized == [] ==> r.output == None && r.assembly == None
    ensures r.assembly == Some(Moved) <==> |r.synthesized| == 1
    ensures r.assembly == Some(Concatenated) <==> |r.synthesized| >= 2
    ensures r.assembly == Some(Moved) && r.output.Some? ==> env.moveOk
    ensures r.assembly == Some(Concatenated) && r.output.Some? ==> env.combineOk
    ensures r.output.Some? <==> r.synthesized != [] && Finished(c, env, |r.synthesized|)
    ensures SynthesisOutcome(c, env, |SplitText(text, c.maxCharsPerChunk)|, r.synthesized)
    ensures FromSuccesses(env, r.synthesized)
    ensures NoFragmentSynthesizes(env) ==> r.output == None
  {
    if text == "" then NothingToSplit(c.maxCharsPerChunk); ProcessResult(None, [], None)
    else
      var fragments := SplitText(text, c.maxCharsPerChunk);
      if fragments == [] then ProcessResult(None, [], None)
      else
        var run := SynthesizeAll(|fragments|, 0, env.synth, c.voiceModel);
        RunOutcome(c, env, |fragments|, run);
        if run.done == [] then ProcessResult(None, [], None)
        else
          assert run.done[0] in run.done;
          Assemble(c, env, run.done, final)
  }

  /** The converse of the failure cases: text that loads to at least one
      fragment, a first fragment that synthesises and file steps that all
      work give the output path. */
  lemma ProcessFileSucceeds(c: TtsConfig, env: AudioEnv, inputFile: string, outputName: Option<string>)
    requires LoadText(c, env, inputFile).Returned?
    requires SplitText(LoadText(c, env, inputFile).value, c.maxCharsPerChunk) != []
    requires Succeeded(env.synth(0).0)
    requires env.moveOk && env.combineOk && env.finalOk && env.cleanupOk
    requires env.finalExists && env.finalSize > 1000
    ensures ProcessFile(c, env, inputFile, outputName).output == Some(Join(OutputDir(c), OutputName(c, inputFile, outputName)))
    ensures 0 in ProcessFile(c, env, inputFile, outputName).synthesized
  {
    var final := Join(OutputDir(c), OutputName(c, inputFile, outputName));
    LoadedSucceeds(c, env, LoadText(c, env, inputFile).value, final);
  }

  lemma LoadedSucceeds(c: TtsConfig, env: AudioEnv, text: string, final: Path)
    requires SplitText(text, c.maxCharsPerChunk) != []
    requires Succeeded(env.synth(0).0)
    requires env.moveOk && env.combineOk && env.finalOk && env.cleanupOk
    requires env.finalExists && env.finalSize > 1000
    ensures ProcessLoaded(c, env, text, final).output == Some(final)
    ensures 0 in ProcessLoaded(c, env, text, final).synthesized
  {
    if text == "" {
      NothingToSplit(c.maxCharsPerChunk);
    }
    var run := SynthesizeAll(|SplitText(text, c.maxCharsPerChunk)|, 0, env.synth, c.voiceModel);
    assert 0 in run.done;
    assert Finished(c, env, |run.done|);
    assert ProcessLoaded(c, env, text, final) == Assemble(c, env, run.done, final);
  }

  /** Empty text has no fragments. */
  lemma NothingToSplit(max: int)
    ensures SplitText("", max) == []
  {
    NormalizedOneParagraph("");
  }
}

=== FILE: splitting.dfy ===
/** Left-to-right, non-overlapping splitting of a string at the matches of a
    pattern: Python's `str.split(sep)` and the three `re.split` patterns the
    source uses. One scanner serves all of them, so the round-trip
    (parts and separators weave back into the input) is proved once. */
module Splitting {
  import opened Text
  import opened Decimal

  /** `str.split` refuses an empty separator; every separator here is non-empty. */
  type Separator = s: string | |s| > 0 witness ","

  datatype Matcher =
    /** `s.split(sep)` */
    | Literal(sep: Separator)
    /** `re.split(prefix + r"\d+:", s, flags=re.IGNORECASE)` */
    | Header(prefix: string)
    /** `re.split(r'(?<=[.!?])\s+(?=[A-ZÁÉÍÓÚÜÑ])', s)` */
    | SentenceBreak

  /** Case folding used by `re.IGNORECASE` on the letters that occur in the
      header patterns: ASCII letters and the Spanish accented capitals. */
  function FoldChar(c: char): char {
    if 'A' <= c <= 'Z' then (c as int + 32) as char
    else if c == 'Á' then 'á' else if c == 'É' then 'é' else if c == 'Í' then 'í'
    else if c == 'Ó' then 'ó' else if c == 'Ú' then 'ú' else if c == 'Ü' then 'ü'
    else if c == 'Ñ' then 'ñ'
    else c
  }

  /** Equal up to case folding, character by character. */
  predicate FoldEq(a: string, b: string)
    decreases |a|
  {
    |a| == |b| && (|a| == 0 || (FoldChar(a[0]) == FoldChar(b[0]) && FoldEq(a[1..], b[1..])))
  }

  lemma {:induction false} FoldEqRefl(a: string)
    ensures FoldEq(a, a)
    decreases |a|
  {
    if |a| > 0 { FoldEqRefl(a[1..]); }
  }

  /** The look-behind class `[.!?]`. */
  predicate IsStop(c: char) {
    c == '.' || c == '!' || c == '?'
  }

  /** The character class `[A-ZÁÉÍÓÚÜÑ]`. */
  predicate IsUpperEs(c: char) {
    || ('A' <= c <= 'Z')
    || c == 'Á' || c == 'É' || c == 'Í' || c == 'Ó' || c == 'Ú' || c == 'Ü' || c == 'Ñ'
  }

  /** Number of consecutive ASCII digits starting at `j`. */
  function DigitRun(s: string, j: nat): (d: nat)
    requires j <= |s|
    ensures j + d <= |s|
    decreases |s| - j
  {
    if j == |s| || !IsDigit(s[j]) then 0 else 1 + DigitRun(s, j + 1)
  }

  /** The run is digits throughout. */
  lemma {:induction false} DigitRunDigits(s: string, j: nat)
    requires j <= |s|
    ensures forall x :: j <= x < j + DigitRun(s, j) ==> IsDigit(s[x])
    decreases |s| - j
  {
    if j < |s| && IsDigit(s[j]) { DigitRunDigits(s, j + 1); }
  }

  /** A run of exactly `d` digits ended by a non-digit. */
  lemma {:induction false} DigitRunExact(s: string, j: nat, d: nat)
    requires j + d < |s| && !IsDigit(s[j + d])
    requires forall x :: j <= x < j + d ==> IsDigit(s[x])
    ensures DigitRun(s, j) == d
    decreases d
  {
    if d > 0 { DigitRunExact(s, j + 1, d - 1); }
  }

  /** Number of consecutive whitespace characters starting at `j`. */
  function SpaceRun(s: string, j: nat): (d: nat)
    requires j <= |s|
    ensures j + d <= |s|
    decreases |s| - j
  {
    if j == |s| || !IsSpace(s[j]) then 0 else 1 + SpaceRun(s, j + 1)
  }

  /** The run is whitespace throughout. */
  lemma {:induction false} SpaceRunBlank(s: string, j: nat)
    requires j <= |s|
    ensures forall x :: j <= x < j + SpaceRun(s, j) ==> IsSpace(s[x])
    decreases |s| - j
  {
    if j < |s| && IsSpace(s[j]) { SpaceRunBlank(s, j + 1); }
  }

  /** Length of the match of `m` that starts at index `i` of `s`, 0 when none.
      A look-behind or look-ahead reads `s` outside the consumed range. */
  function MatchLen(m: Matcher, s: string, i: nat): (k: nat)
    requires i <= |s|
    ensures i + k <= |s|
  {
    match m
    case Literal(sep) =>
      if OccursAt(s, sep, i) then |sep| else 0
    case Header(p) =>
      if i + |p| <= |s| && FoldEq(s[i..i + |p|], p) then
        var d := DigitRun(s, i + |p|);
        if d > 0 && i + |p| + d < |s| && s[i + |p| + d] == ':' then |p| + d + 1 else 0
      else 0
    case SentenceBreak =>
      if 0 < i < |s| && IsStop(s[i - 1]) && IsSpace(s[i]) then
        var d := SpaceRun(s, i);
        if i + d < |s| && IsUpperEs(s[i + d]) then d else 0
      else 0
  }

  // ---- The scanner, over a table of match lengths.

  /** The match lengths at `j`, `j + 1`, ... of `s`. The scanner reads this
      table instead of the pattern, so facts about scanning in general are
      proved once, and a particular pattern is consulted only through
      `TableAt`. */
  function Lengths(m: Matcher, s: string, j: nat): (ls: seq<nat>)
    requires j <= |s|
    ensures |ls| == |s| - j
    ensures forall x :: 0 <= x < |ls| ==> j + x + ls[x] <= |s|
    decreases |s| - j
  {
    if j == |s| then []
    else
      var rest := Lengths(m, s, j + 1);
      assert forall x :: 1 <= x < 1 + |rest| ==> ([MatchLen(m, s, j)] + rest)[x] == rest[x - 1];
      [MatchLen(m, s, j)] + rest
  }

  /** A table of match lengths for `s`: one entry per position, and no match
      runs past the end. */
  predicate Fits(ls: seq<nat>, s: string) {
    |ls| == |s| && forall x :: 0 <= x < |ls| ==> x + ls[x] <= |s|
  }

  /** The match lengths of `m` at every position of `s`. */
  function Table(m: Matcher, s: string): (ls: seq<nat>)
    ensures Fits(ls, s)
  {
    Lengths(m, s, 0)
  }

  lemma {:induction false} LengthsAt(m: Matcher, s: string, j: nat, x: nat)
    requires j + x < |s|
    ensures Lengths(m, s, j)[x] == MatchLen(m, s, j + x)
    decreases x
  {
    if x == 0 {
      LengthsHead(m, s, j);
    } else {
      LengthsTail(m, s, j, x);
      LengthsAt(m, s, j + 1, x - 1);
    }
  }

  lemma LengthsHead(m: Matcher, s: string, j: nat)
    requires j < |s|
    ensures Lengths(m, s, j)[0] == MatchLen(m, s, j + 0)
  {
  }

  lemma LengthsTail(m: Matcher, s: string, j: nat, x: nat)
    requires j + x < |s| && x > 0
    ensures Lengths(m, s, j)[x] == Lengths(m, s, j + 1)[x - 1]
  {
  }

  /** The table holds the match of `m` at each position. */
  lemma TableAt(m: Matcher, s: string, x: nat)
    requires x < |s|
    ensures Table(m, s)[x] == MatchLen(m, s, x)
  {
    LengthsAt(m, s, 0, x);
  }

  /** The pieces of `s`; the current piece began at `start`, scanning is at `i`. */
  function Scan(ls: seq<nat>, s: string, start: nat, i: nat): (parts: seq<string>)
    requires Fits(ls, s) && start <= i <= |s|
    ensures |parts| >= 1
    decreases |s| - i
  {
    if i == |s| then [s[start..]]
    else if ls[i] > 0 then [s[start..i]] + Scan(ls, s, i + ls[i], i + ls[i])
    else Scan(ls, s, start, i + 1)
  }

  /** The matched separators, in order; one fewer than the pieces. */
  function ScanSeps(ls: seq<nat>, s: string, start: nat, i: nat): (seps: seq<string>)
    requires Fits(ls, s) && start <= i <= |s|
    ensures |seps| + 1 == |Scan(ls, s, start, i)|
    ensures forall j :: 0 <= j < |seps| ==> |seps[j]| > 0
    decreases |s| - i
  {
    if i == |s| then []
    else if ls[i] > 0 then [s[i..i + ls[i]]] + ScanSeps(ls, s, i + ls[i], i + ls[i])
    else ScanSeps(ls, s, start, i + 1)
  }

  /** `s.split(sep)` / `re.split(pattern, s)`. */
  function Split(m: Matcher, s: string): (parts: seq<string>)
    ensures |parts| >= 1
  {
    Scan(Table(m, s), s, 0, 0)
  }

  function Separators(m: Matcher, s: string): (seps: seq<string>)
    ensures |seps| + 1 == |Split(m, s)|
  {
    ScanSeps(Table(m, s), s, 0, 0)
  }

  /** At the end of the input the current piece is all that is left. */
  lemma ScanEnd(ls: seq<nat>, s: string, start: nat)
    requires Fits(ls, s) && start <= |s|
    ensures Scan(ls, s, start, |s|) == [s[start..]]
    ensures ScanSeps(ls, s, start, |s|) == []
  {
  }

  /** At a match of length `k`: the piece so far, then a fresh piece after it. */
  lemma ScanAt(ls: seq<nat>, s: string, start: nat, i: nat, k: nat)
    requires Fits(ls, s) && start <= i < |s| && k == ls[i] && k > 0
    ensures Scan(ls, s, start, i) == [s[start..i]] + Scan(ls, s, i + k, i + k)
    ensures ScanSeps(ls, s, start, i) == [s[i..i + k]] + ScanSeps(ls, s, i + k, i + k)
  {
  }

  /** The separators only, at a match. */
  lemma ScanSepsAt(ls: seq<nat>, s: string, start: nat, i: nat, k: nat)
    requires Fits(ls, s) && start <= i < |s| && k == ls[i] && k > 0
    ensures ScanSeps(ls, s, start, i) == [s[i..i + k]] + ScanSeps(ls, s, i + k, i + k)
  {
  }

  /** A position without a match is passed over. */
  lemma ScanPass(ls: seq<nat>, s: string, start: nat, i: nat)
    requires Fits(ls, s) && start <= i < |s| && ls[i] == 0
    ensures Scan(ls, s, start, i) == Scan(ls, s, start, i + 1)
    ensures ScanSeps(ls, s, start, i) == ScanSeps(ls, s, start, i + 1)
  {
  }

  /** Positions without a match are skipped. */
  lemma {:induction false} ScanSkip(ls: seq<nat>, s: string, start: nat, i: nat, j: nat)
    requires Fits(ls, s) && start <= i <= j <= |s|
    requires forall x :: i <= x < j ==> ls[x] == 0
    ensures Scan(ls, s, start, i) == Scan(ls, s, start, j)
    decreases j - i
  {
    if i < j {
      ScanPass(ls, s, start, i);
      ScanSkip(ls, s, start, i + 1, j);
    }
  }

  // ---- Splitting loses nothing.

  /** parts[0] + seps[0] + parts[1] + ... + parts[n]. */
  function Weave(parts: seq<string>, seps: seq<string>): string
    requires |parts| == |seps| + 1
    decreases |seps|
  {
    if |seps| == 0 then parts[0] else parts[0] + seps[0] + Weave(parts[1..], seps[1..])
  }

  lemma {:induction false} ScanWeave(ls: seq<nat>, s: string, start: nat, i: nat)
    requires Fits(ls, s) && start <= i <= |s|
    ensures Weave(Scan(ls, s, start, i), ScanSeps(ls, s, start, i)) == s[start..]
    decreases |s| - i
  {
    if i == |s| {
      ScanEnd(ls, s, start);
    } else if ls[i] > 0 {
      var k := ls[i];
      ScanWeave(ls, s, i + k, i + k);
      ScanAt(ls, s, start, i, k);
      ScanWeaveStep(s, start, i, k, Scan(ls, s, start, i), ScanSeps(ls, s, start, i),
                    Scan(ls, s, i + k, i + k), ScanSeps(ls, s, i + k, i + k));
    } else {
      ScanPass(ls, s, start, i);
      ScanWeave(ls, s, start, i + 1);
    }
  }

  lemma ScanWeaveStep(s: string, start: nat, i: nat, k: nat,
                      parts: seq<string>, seps: seq<string>, rest: seq<string>, rseps: seq<string>)
    requires start <= i && i + k <= |s| && |rest| == |rseps| + 1
    requires parts == [s[start..i]] + rest && seps == [s[i..i + k]] + rseps
    requires Weave(rest, rseps) == s[i + k..]
    ensures Weave(parts, seps) == s[start..]
  {
    WeaveCons(s[start..i], s[i..i + k], rest, rseps);
    Slices3(s, start, i, i + k);
  }

  lemma Slices3(s: string, a: nat, b: nat, c: nat)
    requires a <= b <= c <= |s|
    ensures s[a..b] + s[b..c] + s[c..] == s[a..]
  {
  }

  lemma WeaveCons(p: string, sep: string, rest: seq<string>, rseps: seq<string>)
    requires |rest| == |rseps| + 1
    ensures Weave([p] + rest, [sep] + rseps) == p + sep + Weave(rest, rseps)
  {
    assert ([p] + rest)[1..] == rest;
    assert ([sep] + rseps)[1..] == rseps;
  }

  /** Splitting loses nothing: the pieces and the matched separators, woven
      back together, are the input. */
  lemma SplitWeave(m: Matcher, s: string)
    ensures Weave(Split(m, s), Separators(m, s)) == s
  {
    ScanWeave(Table(m, s), s, 0, 0);
    assert s[0..] == s;
  }

  // ---- Literal separators.

  /** Every match in the table is an occurrence of `sep`. */
  predicate MatchesAre(ls: seq<nat>, s: string, sep: string) {
    Fits(ls, s) && forall x :: 0 <= x < |s| && ls[x] > 0 ==> s[x..x + ls[x]] == sep
  }

  lemma LiteralTable(sep: Separator, s: string)
    ensures MatchesAre(Table(Literal(sep), s), s, sep)
  {
    var ls := Table(Literal(sep), s);
    forall x | 0 <= x < |s| && ls[x] > 0 ensures s[x..x + ls[x]] == sep {
      TableAt(Literal(sep), s, x);
    }
  }

  /** Every string of the list is `sep`. */
  predicate AllAre(xs: seq<string>, sep: string) {
    forall j :: 0 <= j < |xs| ==> xs[j] == sep
  }

  lemma {:induction false} ScanSepsUniform(ls: seq<nat>, s: string, sep: string, start: nat, i: nat)
    requires MatchesAre(ls, s, sep) && start <= i <= |s|
    ensures AllAre(ScanSeps(ls, s, start, i), sep)
    decreases |s| - i
  {
    if i == |s| {
      ScanEnd(ls, s, start);
    } else if ls[i] > 0 {
      var k := ls[i];
      ScanSepsUniform(ls, s, sep, i + k, i + k);
      UniformStep(ls, s, sep, start, i, k);
    } else {
      ScanPass(ls, s, start, i);
      ScanSepsUniform(ls, s, sep, start, i + 1);
    }
  }

  lemma UniformStep(ls: seq<nat>, s: string, sep: string, start: nat, i: nat, k: nat)
    requires MatchesAre(ls, s, sep) && start <= i < |s| && k == ls[i] && k > 0
    requires AllAre(ScanSeps(ls, s, i + k, i + k), sep)
    ensures AllAre(ScanSeps(ls, s, start, i), sep)
  {
    ScanSepsAt(ls, s, start, i, k);
    AllAreCons(s[i..i + k], ScanSeps(ls, s, i + k, i + k), ScanSeps(ls, s, start, i), sep);
  }

  lemma AllAreCons(x: string, xs: seq<string>, ys: seq<string>, sep: string)
    requires x == sep && AllAre(xs, sep) && ys == [x] + xs
    ensures AllAre(ys, sep)
  {
    forall j | 1 <= j < |ys| ensures ys[j] == sep {
      assert ys[j] == xs[j - 1];
    }
  }

  lemma {:induction false} WeaveUniform(parts: seq<string>, seps: seq<string>, sep: string)
    requires |parts| == |seps| + 1
    requires AllAre(seps, sep)
    ensures Weave(parts, seps) == JoinWith(parts, sep)
    decreases |seps|
  {
    if |seps| > 0 {
      assert AllAre(seps[1..], sep) by {
        forall j | 0 <= j < |seps[1..]| ensures seps[1..][j] == sep { assert seps[1..][j] == seps[j + 1]; }
      }
      WeaveUniform(parts[1..], seps[1..], sep);
    }
  }

  /** `sep.join(s.split(sep)) == s`. */
  lemma SplitJoinLiteral(sep: Separator, s: string)
    ensures JoinWith(Split(Literal(sep), s), sep) == s
  {
    SplitWeave(Literal(sep), s);
    LiteralTable(sep, s);
    ScanSepsUniform(Table(Literal(sep), s), s, sep, 0, 0);
    WeaveUniform(Split(Literal(sep), s), Separators(Literal(sep), s), sep);
  }

  // ---- Whether the pattern occurs at all.

  lemma {:induction false} ScanFindsMatch(ls: seq<nat>, s: string, start: nat, i: nat)
    requires Fits(ls, s) && start <= i <= |s|
    ensures |Scan(ls, s, start, i)| > 1 <==> exists j :: i <= j < |s| && ls[j] > 0
    decreases |s| - i
  {
    if i == |s| {
      ScanEnd(ls, s, start);
    } else if ls[i] > 0 {
      ScanAt(ls, s, start, i, ls[i]);
    } else {
      ScanPass(ls, s, start, i);
      ScanFindsMatch(ls, s, start, i + 1);
      if exists j :: i <= j < |s| && ls[j] > 0 {
        var j :| i <= j < |s| && ls[j] > 0;
        assert j != i;
      }
    }
  }

  /** More than one piece exactly when the pattern matches somewhere. */
  lemma SplitFindsMatch(m: Matcher, s: string)
    ensures |Split(m, s)| > 1 <==> exists j :: 0 <= j < |s| && MatchLen(m, s, j) > 0
  {
    var ls := Table(m, s);
    ScanFindsMatch(ls, s, 0, 0);
    if exists j :: 0 <= j < |s| && MatchLen(m, s, j) > 0 {
      var j :| 0 <= j < |s| && MatchLen(m, s, j) > 0;
      TableAt(m, s, j);
    }
    if exists j :: 0 <= j < |s| && ls[j] > 0 {
      var j :| 0 <= j < |s| && ls[j] > 0;
      TableAt(m, s, j);
    }
  }

  /** `sep in s` exactly when `s.split(sep)` has more than one piece. */
  lemma SplitFindsSeparator(sep: Separator, s: string)
    ensures Contains(s, sep) <==> |Split(Literal(sep), s)| > 1
  {
    SplitFindsMatch(Literal(sep), s);
    if Contains(s, sep) {
      var j :| 0 <= j <= |s| && OccursAt(s, sep, j);
      assert MatchLen(Literal(sep), s, j) > 0;
    }
  }

  /** A string the pattern does not match is a single piece. */
  lemma SplitNoMatch(m: Matcher, s: string)
    requires forall j :: 0 <= j < |s| ==> MatchLen(m, s, j) == 0
    ensures Split(m, s) == [s]
  {
    SplitFindsMatch(m, s);
    SplitWeave(m, s);
  }

  lemma {:induction false} ScanLastLiteral(ls: seq<nat>, sep: Separator, s: string, start: nat, i: nat)
    requires MatchesAre(ls, s, sep) && start <= i <= |s|
    requires |s| > 0 && s[|s| - 1] != sep[|sep| - 1]
    requires start == 0 || s[start - 1] == sep[|sep| - 1]
    ensures var r := Scan(ls, s, start, i); r[|r| - 1] != ""
    decreases |s| - i
  {
    if i == |s| {
      ScanEnd(ls, s, start);
      assert start < |s|;
    } else if ls[i] > 0 {
      var k := ls[i];
      assert s[i..i + k] == sep;
      assert s[i + k - 1] == sep[|sep| - 1];
      ScanLastLiteral(ls, sep, s, i + k, i + k);
      LastStep(ls, s, start, i, k);
    } else {
      ScanPass(ls, s, start, i);
      ScanLastLiteral(ls, sep, s, start, i + 1);
    }
  }

  lemma LastStep(ls: seq<nat>, s: string, start: nat, i: nat, k: nat)
    requires Fits(ls, s) && start <= i < |s| && k == ls[i] && k > 0
    requires var r := Scan(ls, s, i + k, i + k); r[|r| - 1] != ""
    ensures var r := Scan(ls, s, start, i); r[|r| - 1] != ""
  {
    ScanAtMatch(ls, s, start, i, k);
  }

  /** If `s` does not end with the last character of `sep`, the final piece of
      `s.split(sep)` is not empty. */
  lemma SplitLastNonEmpty(sep: Separator, s: string)
    requires |s| > 0 && s[|s| - 1] != sep[|sep| - 1]
    ensures var r := Split(Literal(sep), s); r[|r| - 1] != ""
  {
    LiteralTable(sep, s);
    ScanLastLiteral(Table(Literal(sep), s), sep, s, 0, 0);
  }

  // ---- Sentences.

  /** A piece ends with a non-whitespace character. */
  predicate EndsSolid(p: string) {
    |p| > 0 && !IsSpace(p[|p| - 1])
  }

  /** The non-blank pieces, stripped: `[p.strip() for p in ps if p.strip()]`. */
  function StrippedPieces(ps: seq<string>): (r: seq<string>)
    ensures forall k :: 0 <= k < |r| ==> EndsSolid(r[k]) && !IsSpace(r[k][0])
    ensures |r| <= |ps|
  {
    if |ps| == 0 then []
    else if Strip(ps[0]) != "" then
      var rest := StrippedPieces(ps[1..]);
      SolidBothCons(Strip(ps[0]), rest);
      [Strip(ps[0])] + rest
    else StrippedPieces(ps[1..])
  }

  lemma SolidBothCons(p: string, rest: seq<string>)
    requires EndsSolid(p) && !IsSpace(p[0])
    requires forall k :: 0 <= k < |rest| ==> EndsSolid(rest[k]) && !IsSpace(rest[k][0])
    ensures forall k :: 0 <= k < |[p] + rest| ==> EndsSolid(([p] + rest)[k]) && !IsSpace(([p] + rest)[k][0])
  {
    var r := [p] + rest;
    forall k | 1 <= k < |r| ensures EndsSolid(r[k]) && !IsSpace(r[k][0]) {
      assert r[k] == rest[k - 1];
    }
  }

  /** What a sentence break is: after `.`, `!` or `?`, a run of whitespace
      followed by a non-whitespace character. */
  predicate BreaksAre(ls: seq<nat>, s: string) {
    Fits(ls, s) &&
    forall x :: 0 <= x < |s| && ls[x] > 0 ==>
      0 < x && !IsSpace(s[x - 1]) && IsSpace(s[x]) && x + ls[x] < |s| && !IsSpace(s[x + ls[x]])
      && IsBlank(s[x..x + ls[x]])
  }

  lemma SentenceTable(s: string)
    ensures BreaksAre(Table(SentenceBreak, s), s)
  {
    var ls := Table(SentenceBreak, s);
    forall x | 0 <= x < |s| && ls[x] > 0
      ensures 0 < x && !IsSpace(s[x - 1]) && IsSpace(s[x]) && x + ls[x] < |s| && !IsSpace(s[x + ls[x]])
      ensures IsBlank(s[x..x + ls[x]])
    {
      BreakAt(s, x);
    }
  }

  lemma BreakAt(s: string, x: nat)
    requires x < |s| && Table(SentenceBreak, s)[x] > 0
    ensures var k := Table(SentenceBreak, s)[x];
      0 < x && !IsSpace(s[x - 1]) && IsSpace(s[x]) && x + k < |s| && !IsSpace(s[x + k]) && IsBlank(s[x..x + k])
  {
    TableAt(SentenceBreak, s, x);
    BreakBlank(s, x, Table(SentenceBreak, s)[x]);
  }

  /** A sentence break consumes whitespace only, between a full stop and a
      capital. */
  lemma BreakBlank(s: string, i: nat, k: nat)
    requires i < |s| && k == MatchLen(SentenceBreak, s, i) && k > 0
    ensures 0 < i && IsStop(s[i - 1]) && IsSpace(s[i]) && i + k < |s| && IsUpperEs(s[i + k])
    ensures IsBlank(s[i..i + k])
  {
    SpaceRunBlank(s, i);
    assert k == SpaceRun(s, i);
    var w := s[i..i + k];
    forall x | 0 <= x < |w| ensures IsSpace(w[x]) {
      assert w[x] == s[i + x];
    }
  }

  lemma {:induction false} ScanSentences(ls: seq<nat>, s: string, start: nat, i: nat)
    requires BreaksAre(ls, s) && start <= i <= |s|
    requires EndsSolid(s)
    requires start < |s| && (start == 0 || !IsSpace(s[start]))
    ensures AllSolid(Scan(ls, s, start, i))
    decreases |s| - i
  {
    if i == |s| {
      SentencesEnd(ls, s, start);
    } else if ls[i] > 0 {
      var k := ls[i];
      ScanSentences(ls, s, i + k, i + k);
      SentencesStep(ls, s, start, i, k);
    } else {
      ScanPass(ls, s, start, i);
      ScanSentences(ls, s, start, i + 1);
    }
  }

  lemma SentencesEnd(ls: seq<nat>, s: string, start: nat)
    requires Fits(ls, s) && EndsSolid(s) && start < |s|
    ensures AllSolid(Scan(ls, s, start, |s|))
  {
    ScanEnd(ls, s, start);
    assert s[start..][|s| - start - 1] == s[|s| - 1];
  }

  lemma SentencesStep(ls: seq<nat>, s: string, start: nat, i: nat, k: nat)
    requires BreaksAre(ls, s) && start <= i < |s| && k == ls[i] && k > 0
    requires start == 0 || !IsSpace(s[start])
    requires AllSolid(Scan(ls, s, i + k, i + k))
    ensures AllSolid(Scan(ls, s, start, i))
  {
    assert i > start;
    assert s[start..i][i - start - 1] == s[i - 1];
    ScanAtMatch(ls, s, start, i, k);
    SolidCons(s[start..i], Scan(ls, s, i + k, i + k), Scan(ls, s, start, i));
  }

  /** Every piece ends with a non-whitespace character. */
  predicate AllSolid(ps: seq<string>) {
    forall j :: 0 <= j < |ps| ==> EndsSolid(ps[j])
  }

  lemma SolidCons(p: string, ps: seq<string>, qs: seq<string>)
    requires EndsSolid(p) && AllSolid(ps) && qs == [p] + ps
    ensures AllSolid(qs)
  {
    forall j | 1 <= j < |qs| ensures EndsSolid(qs[j]) {
      assert qs[j] == ps[j - 1];
    }
  }

  /** The pieces only, at a match. */
  lemma ScanAtMatch(ls: seq<nat>, s: string, start: nat, i: nat, k: nat)
    requires Fits(ls, s) && start <= i < |s| && k == ls[i] && k > 0
    ensures Scan(ls, s, start, i) == [s[start..i]] + Scan(ls, s, i + k, i + k)
  {
  }

  /** Splitting a stripped, non-empty paragraph into sentences yields
      non-empty sentences that each end in a non-whitespace character. */
  lemma SentencesEndSolid(s: string)
    requires EndsSolid(s)
    ensures forall j :: 0 <= j < |Split(SentenceBreak, s)| ==> EndsSolid(Split(SentenceBreak, s)[j])
  {
    SentenceTable(s);
    ScanSentences(Table(SentenceBreak, s), s, 0, 0);
  }

  /** Every string of the list is whitespace only. */
  predicate AllBlank(xs: seq<string>) {
    forall j :: 0 <= j < |xs| ==> IsBlank(xs[j])
  }

  lemma {:induction false} ScanSentenceSeps(ls: seq<nat>, s: string, start: nat, i: nat)
    requires BreaksAre(ls, s) && start <= i <= |s|
    ensures AllBlank(ScanSeps(ls, s, start, i))
    decreases |s| - i
  {
    if i == |s| {
      ScanEnd(ls, s, start);
    } else if ls[i] > 0 {
      var k := ls[i];
      ScanSentenceSeps(ls, s, i + k, i + k);
      SentenceSepsStep(ls, s, start, i, k);
    } else {
      ScanPass(ls, s, start, i);
      ScanSentenceSeps(ls, s, start, i + 1);
    }
  }

  lemma SentenceSepsStep(ls: seq<nat>, s: string, start: nat, i: nat, k: nat)
    requires BreaksAre(ls, s) && start <= i < |s| && k == ls[i] && k > 0
    requires AllBlank(ScanSeps(ls, s, i + k, i + k))
    ensures AllBlank(ScanSeps(ls, s, start, i))
  {
    ScanSepsAt(ls, s, start, i, k);
    BlankCons(s[i..i + k], ScanSeps(ls, s, i + k, i + k), ScanSeps(ls, s, start, i));
  }

  lemma BlankCons(x: string, xs: seq<string>, ys: seq<string>)
    requires IsBlank(x) && AllBlank(xs) && ys == [x] + xs
    ensures AllBlank(ys)
  {
    forall j | 1 <= j < |ys| ensures IsBlank(ys[j]) {
      assert ys[j] == xs[j - 1];
    }
  }

  /** Sentence breaks consume only whitespace. */
  lemma SentenceSepsBlank(s: string)
    ensures AllBlank(Separators(SentenceBreak, s))
  {
    SentenceTable(s);
    ScanSentenceSeps(Table(SentenceBreak, s), s, 0, 0);
  }

  lemma {:induction false} EraseWeave(parts: seq<string>, seps: seq<string>)
    requires |parts| == |seps| + 1
    requires forall j :: 0 <= j < |seps| ==> Erase(seps[j]) == ""
    ensures Erase(Weave(parts, seps)) == Erase(Concat(parts))
    decreases |seps|
  {
    if |seps| == 0 {
      assert Concat(parts) == parts[0] + Concat(parts[1..]);
      assert parts[0] + "" == parts[0];
    } else {
      EraseWeave(parts[1..], seps[1..]);
      var w := Weave(parts[1..], seps[1..]);
      assert Weave(parts, seps) == parts[0] + (seps[0] + w);
      EraseConcat(parts[0], seps[0] + w);
      EraseConcat(seps[0], w);
      EraseConcat(parts[0], Concat(parts[1..]));
    }
  }

  /** The sentences of a paragraph spell the paragraph, up to whitespace. */
  lemma SentencesErase(s: string)
    ensures Erase(Concat(Split(SentenceBreak, s))) == Erase(s)
  {
    SplitWeave(SentenceBreak, s);
    SentenceSepsBlank(s);
    var seps := Separators(SentenceBreak, s);
    forall j | 0 <= j < |seps| ensures Erase(seps[j]) == "" {
      EraseBlank(seps[j]);
    }
    EraseWeave(Split(SentenceBreak, s), seps);
  }

  // ---- Splitting a join at a one-character separator gives the pieces back.

  /** Matchers without look-behind: whether one matches at `i` depends on
      `s[i..]` alone. */
  predicate Forward(m: Matcher) {
    !m.SentenceBreak?
  }

  lemma {:induction false} DigitRunShift(pre: string, t: string, j: nat)
    requires j <= |t|
    ensures DigitRun(pre + t, |pre| + j) == DigitRun(t, j)
    decreases |t| - j
  {
    if j < |t| {
      assert (pre + t)[|pre| + j] == t[j];
      if IsDigit(t[j]) { DigitRunShift(pre, t, j + 1); }
    }
  }

  /** A slice of the `t` part of `pre + t`. */
  lemma SliceShift(pre: string, t: string, a: nat, b: nat)
    requires a <= b <= |t|
    ensures (pre + t)[|pre| + a..|pre| + b] == t[a..b]
  {
    var s := pre + t;
    forall x | 0 <= x < b - a ensures s[|pre| + a..|pre| + b][x] == t[a..b][x] {
      assert s[|pre| + a + x] == t[a + x];
    }
  }

  /** A forward matcher sees the same match inside `t` and inside `pre + t`. */
  lemma MatchShift(m: Matcher, pre: string, t: string, i: nat)
    requires Forward(m) && i <= |t|
    ensures MatchLen(m, pre + t, |pre| + i) == MatchLen(m, t, i)
  {
    var s := pre + t;
    var o := |pre|;
    match m
    case Literal(sep) =>
      if i + |sep| <= |t| { SliceShift(pre, t, i, i + |sep|); }
    case Header(p) =>
      if i + |p| <= |t| {
        SliceShift(pre, t, i, i + |p|);
        DigitRunShift(pre, t, i + |p|);
        var d := DigitRun(t, i + |p|);
        if i + |p| + d < |t| { assert s[o + i + |p| + d] == t[i + |p| + d]; }
      }
  }

  /** `u` ends with `t`, from offset `o` on. */
  lemma SuffixSlices(u: string, t: string, o: nat, a: nat)
    requires o + |t| == |u| && u[o..] == t && a <= |t|
    ensures u[o + a..] == t[a..]
  {
    assert u[o + a..] == u[o..][a..];
  }

  lemma MiddleSlices(u: string, t: string, o: nat, a: nat, b: nat)
    requires o + |t| == |u| && u[o..] == t && a <= b <= |t|
    ensures u[o + a..o + b] == t[a..b]
  {
    forall x | 0 <= x < b - a
      ensures u[o + a..o + b][x] == t[a..b][x]
    {
      assert u[o + a + x] == u[o..][a + x];
    }
  }

  /** Two tables that agree on the tail of `t` scan it alike. */
  lemma {:induction false} ScanShiftFrom(lu: seq<nat>, u: string, lt: seq<nat>, t: string, o: nat, start: nat, i: nat)
    requires Fits(lu, u) && Fits(lt, t) && o + |t| == |u| && u[o..] == t
    requires start <= i <= |t|
    requires forall x :: i <= x < |t| ==> lu[o + x] == lt[x]
    ensures Scan(lu, u, o + start, o + i) == Scan(lt, t, start, i)
    decreases |t| - i
  {
    if i == |t| {
      ShiftEnd(lu, u, lt, t, o, start);
    } else if lt[i] > 0 {
      var n := lt[i];
      ScanShiftFrom(lu, u, lt, t, o, i + n, i + n);
      ShiftMatch(lu, u, lt, t, o, start, i, n);
    } else {
      ScanShiftFrom(lu, u, lt, t, o, start, i + 1);
      ShiftPass(lu, u, lt, t, o, start, i);
    }
  }

  lemma ShiftEnd(lu: seq<nat>, u: string, lt: seq<nat>, t: string, o: nat, start: nat)
    requires Fits(lu, u) && Fits(lt, t) && o + |t| == |u| && u[o..] == t && start <= |t|
    ensures Scan(lu, u, o + start, o + |t|) == Scan(lt, t, start, |t|)
  {
    ScanEnd(lu, u, o + start);
    ScanEnd(lt, t, start);
    SuffixSlices(u, t, o, start);
  }

  /** One matching step of `ScanShiftFrom`, given the step after it. */
  lemma ShiftMatch(lu: seq<nat>, u: string, lt: seq<nat>, t: string, o: nat, start: nat, i: nat, n: nat)
    requires Fits(lu, u) && Fits(lt, t) && o + |t| == |u| && u[o..] == t
    requires start <= i < |t| && n == lt[i] && n > 0 && lu[o + i] == n
    requires Scan(lu, u, o + (i + n), o + (i + n)) == Scan(lt, t, i + n, i + n)
    ensures Scan(lu, u, o + start, o + i) == Scan(lt, t, start, i)
  {
    ScanAtMatch(lt, t, start, i, n);
    ScanAtMatch(lu, u, o + start, o + i, n);
    MiddleSlices(u, t, o, start, i);
  }

  /** One non-matching step of `ScanShiftFrom`, given the step after it. */
  lemma ShiftPass(lu: seq<nat>, u: string, lt: seq<nat>, t: string, o: nat, start: nat, i: nat)
    requires Fits(lu, u) && Fits(lt, t) && o + |t| == |u|
    requires start <= i < |t| && lt[i] == 0 && lu[o + i] == 0
    requires Scan(lu, u, o + start, o + (i + 1)) == Scan(lt, t, start, i + 1)
    ensures Scan(lu, u, o + start, o + i) == Scan(lt, t, start, i)
  {
    ScanPass(lt, t, start, i);
    ScanPass(lu, u, o + start, o + i);
  }

  /** The tables of `t` and of `pre + t` agree on `t`. */
  lemma TableShift(m: Matcher, pre: string, t: string, x: nat)
    requires Forward(m) && x < |t|
    ensures Table(m, pre + t)[|pre| + x] == Table(m, t)[x]
  {
    TableAt(m, pre + t, |pre| + x);
    TableAt(m, t, x);
    MatchShift(m, pre, t, x);
  }

  /** Scanning `pre + t` from inside `t` gives the pieces of scanning `t`. */
  lemma ScanShift(m: Matcher, pre: string, t: string, start: nat, i: nat)
    requires Forward(m) && start <= i <= |t|
    ensures Scan(Table(m, pre + t), pre + t, |pre| + start, |pre| + i) == Scan(Table(m, t), t, start, i)
  {
    var u := pre + t;
    var lu, lt := Table(m, u), Table(m, t);
    forall x | i <= x < |t| ensures lu[|pre| + x] == lt[x] {
      TableShift(m, pre, t, x);
    }
    assert u[|pre|..] == t;
    ScanShiftFrom(lu, u, lt, t, |pre|, start, i);
  }

  /** Splitting `a + sep + rest`, where `a` never holds the separator's first
      character, cuts exactly after `a`. */
  lemma SplitCons(sep: Separator, a: string, rest: string)
    requires sep[0] !in a
    ensures Split(Literal(sep), a + sep + rest) == [a] + Split(Literal(sep), rest)
  {
    var s := a + sep + rest;
    var ls := Table(Literal(sep), s);
    forall x | 0 <= x < |a| ensures ls[x] == 0 {
      NoCutInside(sep, a, rest, x);
    }
    ScanSkip(ls, s, 0, 0, |a|);
    CutAfter(sep, a, rest);
    ScanAtMatch(ls, s, 0, |a|, |sep|);
    assert s[0..|a|] == a;
    ScanShift(Literal(sep), a + sep, rest, 0, 0);
  }

  /** No occurrence of `sep` starts inside `a`. */
  lemma NoCutInside(sep: Separator, a: string, rest: string, x: nat)
    requires sep[0] !in a && x < |a|
    ensures Table(Literal(sep), a + sep + rest)[x] == 0
  {
    var s := a + sep + rest;
    TableAt(Literal(sep), s, x);
    if x + |sep| <= |s| { assert s[x..x + |sep|][0] == s[x] == a[x]; }
  }

  /** `sep` occurs right after `a`. */
  lemma CutAfter(sep: Separator, a: string, rest: string)
    ensures Table(Literal(sep), a + sep + rest)[|a|] == |sep|
  {
    var s := a + sep + rest;
    TableAt(Literal(sep), s, |a|);
    assert s[|a|..|a| + |sep|] == sep;
  }

  /** `sep.join(xs).split(sep) == xs` when no piece holds the separator's first
      character (so no occurrence can start inside a piece). */
  lemma {:induction false} SplitJoinFresh(sep: Separator, xs: seq<string>)
    requires |xs| >= 1
    requires forall k :: 0 <= k < |xs| ==> sep[0] !in xs[k]
    ensures Split(Literal(sep), JoinWith(xs, sep)) == xs
    decreases |xs|
  {
    if |xs| == 1 {
      forall x | 0 <= x < |xs[0]| ensures MatchLen(Literal(sep), xs[0], x) == 0 {
        if x + |sep| <= |xs[0]| { assert xs[0][x..x + |sep|][0] == xs[0][x]; }
      }
      SplitNoMatch(Literal(sep), xs[0]);
    } else {
      SplitJoinFresh(sep, xs[1..]);
      SplitCons(sep, xs[0], JoinWith(xs[1..], sep));
      assert xs == [xs[0]] + xs[1..];
    }
  }

  /** A string that opens with a match, continues with a stretch free of
      matches and then either ends or starts over with a match, splits into
      "", that stretch, and the pieces of the remainder after its leading "". */
  lemma SplitOpening(m: Matcher, h: string, t: string, rest: string)
    requires Forward(m)
    requires |h| > 0 && MatchLen(m, h + t + rest, 0) == |h|
    requires forall x :: |h| <= x < |h| + |t| ==> MatchLen(m, h + t + rest, x) == 0
    requires rest == "" || MatchLen(m, rest, 0) > 0
    ensures Split(m, h + t + rest) == ["", t] + Split(m, rest)[1..]
  {
    var s := h + t + rest;
    var o := |h + t|;
    var ls, lr := Table(m, s), Table(m, rest);
    assert ls[0] == |h| by { TableAt(m, s, 0); }
    forall x | |h| <= x < o ensures ls[x] == 0 {
      TableAt(m, s, x);
    }
    assert s[|h|..o] == t;
    if rest != "" {
      var n := OpeningTail(m, h + t, rest);
    }
    OpeningGeneric(ls, s, lr, rest, |h|, o, t);
  }

  /** The facts about the tables that `OpeningGeneric` needs when `rest`
      opens with a match. */
  lemma OpeningTail(m: Matcher, u: string, rest: string) returns (n: nat)
    requires Forward(m) && rest != "" && MatchLen(m, rest, 0) > 0
    ensures n == Table(m, rest)[0] && n > 0
    ensures Table(m, u + rest)[|u|] == n
    ensures Scan(Table(m, u + rest), u + rest, |u| + n, |u| + n) == Scan(Table(m, rest), rest, n, n)
  {
    TableAt(m, rest, 0);
    n := Table(m, rest)[0];
    TableShift(m, u, rest, 0);
    assert |u| + 0 == |u|;
    ScanShift(m, u, rest, n, n);
  }

  /** A scan that opens with a match of length `hl`, then finds no match until
      `o`, where `rest` begins: "", the stretch `t`, and the pieces of `rest`
      after its leading "". */
  lemma OpeningGeneric(ls: seq<nat>, s: string, lr: seq<nat>, rest: string, hl: nat, o: nat, t: string)
    requires Fits(ls, s) && Fits(lr, rest) && o + |rest| == |s| && 0 < hl <= o <= |s|
    requires ls[0] == hl && forall x :: hl <= x < o ==> ls[x] == 0
    requires s[hl..o] == t
    requires rest == "" || (lr[0] > 0 && ls[o] == lr[0] && Scan(ls, s, o + lr[0], o + lr[0]) == Scan(lr, rest, lr[0], lr[0]))
    ensures Scan(ls, s, 0, 0) == ["", t] + Scan(lr, rest, 0, 0)[1..]
  {
    ScanAtMatch(ls, s, 0, 0, hl);
    assert s[0..0] == "";
    ScanSkip(ls, s, hl, hl, o);
    var tail := Scan(ls, s, hl, o);
    if rest == "" {
      ScanEnd(ls, s, hl);
      assert s[hl..] == t;
      ScanEnd(lr, rest, 0);
    } else {
      OpeningScan(ls, s, lr, rest, hl, o, t);
    }
    Regroup3(t, Scan(lr, rest, 0, 0), tail);
  }

  lemma Regroup3(t: string, r: seq<string>, tail: seq<string>)
    requires |r| >= 1 && r[0] == "" && tail == [t] + r[1..]
    ensures [""] + tail == ["", t] + r[1..]
  {
  }

  /** The scan from `a` meets its first match at `o`, where `rest` begins
      with that match, and from there on agrees with the scan of `rest`. */
  lemma OpeningScan(ls: seq<nat>, s: string, lr: seq<nat>, rest: string, a: nat, o: nat, t: string)
    requires Fits(ls, s) && Fits(lr, rest) && o + |rest| == |s| && a <= o && s[a..o] == t
    requires rest != "" && lr[0] > 0 && ls[o] == lr[0]
    requires Scan(ls, s, o + lr[0], o + lr[0]) == Scan(lr, rest, lr[0], lr[0])
    ensures Scan(ls, s, a, o) == [t] + Scan(lr, rest, 0, 0)[1..]
    ensures Scan(lr, rest, 0, 0)[0] == ""
  {
    var n := lr[0];
    ScanAtMatch(ls, s, a, o, n);
    ScanAtMatch(lr, rest, 0, 0, n);
    assert rest[0..0] == "";
    Regroup4(Scan(ls, s, a, o), Scan(ls, s, o + n, o + n), Scan(lr, rest, 0, 0), Scan(lr, rest, n, n), t);
  }

  lemma Regroup4(a: seq<string>, b: seq<string>, c: seq<string>, x: seq<string>, t: string)
    requires a == [t] + b && b == x && c == [""] + x
    ensures a == [t] + c[1..] && c[0] == ""
  {
    assert c[1..] == x;
  }
}

=== FILE: subtitles.dfy ===
/** The subtitle side of the transcriber: SubRip (`.srt`) timestamps and
    blocks built from recognised speech segments, the choice of audio files
    in a directory, and the statistics of a batch run. Speech recognition
    itself is an oracle: its segments, or its failure, are inputs. */
module Subtitles {
  import opened Wrappers
  import opened Text
  import opened Decimal
  import opened Paths

  // ---- Python numeric operators on exact reals.

  /** `int(x)`: truncation toward zero. */
  function Trunc(x: real): int {
    if x >= 0.0 then x.Floor else -((-x).Floor)
  }

  /** `x % 3600` and `x % 60` on floats: the remainder has the divisor's
      sign, so it lies in [0, divisor). */
  function Mod3600(x: real): (r: real)
    ensures 0.0 <= r < 3600.0
  {
    x - 3600.0 * (x / 3600.0).Floor as real
  }

  function Mod60(x: real): (r: real)
    ensures 0.0 <= r < 60.0
  {
    x - 60.0 * (x / 60.0).Floor as real
  }

  lemma FloorUnique(x: real, k: int)
    requires k as real <= x < k as real + 1.0
    ensures x.Floor == k
  {
  }

  /** Dividing before or after taking the floor gives the same quotient. */
  lemma FloorDiv3600(x: real)
    ensures (x / 3600.0).Floor == x.Floor / 3600
  {
    var q := x.Floor / 3600;
    assert (q * 3600) as real <= x < (q * 3600 + 3600) as real;
    FloorUnique(x / 3600.0, q);
  }

  lemma FloorDiv60(x: real)
    ensures (x / 60.0).Floor == x.Floor / 60
  {
    var q := x.Floor / 60;
    assert (q * 60) as real <= x < (q * 60 + 60) as real;
    FloorUnique(x / 60.0, q);
  }

  /** Shifting by an integer shifts the floor. */
  lemma FloorShift(x: real, k: int)
    ensures (x - k as real).Floor == x.Floor - k
  {
    FloorUnique(x - k as real, x.Floor - k);
  }

  lemma Mod3600Floor(x: real)
    ensures Mod3600(x).Floor == x.Floor % 3600
  {
    FloorDiv3600(x);
    FloorShift(x, 3600 * (x.Floor / 3600));
  }

  lemma Mod60Floor(x: real)
    ensures Mod60(x).Floor == x.Floor % 60
  {
    FloorDiv60(x);
    FloorShift(x, 60 * (x.Floor / 60));
  }

  // ---- `_format_timestamp`.

  /** The four fields of a timestamp in seconds, each computed by the
      formula of the source: floored hours, minutes of the hour, truncated
      seconds of the minute, truncated milliseconds of the fraction. */
  datatype Fields = Fields(hours: int, minutes: int, secs: int, millis: int)

  function TimestampFields(s: real): (f: Fields)
    ensures 0 <= f.minutes <= 59 && 0 <= f.secs <= 59
    ensures -999 <= f.millis <= 999
    ensures s >= 0.0 ==> f.hours >= 0 && f.millis >= 0
  {
    var hours := (s / 3600.0).Floor;
    var minutes := (Mod3600(s) / 60.0).Floor;
    var secs := Trunc(Mod60(s));
    var millis := Trunc((s - Trunc(s) as real) * 1000.0);
    Fields(hours, minutes, secs, millis)
  }

  /** For a non-negative time the fields are the mixed-radix digits of the
      whole milliseconds elapsed: `floor(1000 s)`. */
  lemma FieldsAreMillis(s: real)
    requires s >= 0.0
    ensures var f := TimestampFields(s);
            f.hours * 3_600_000 + f.minutes * 60_000 + f.secs * 1000 + f.millis == (1000.0 * s).Floor
    ensures var f := TimestampFields(s);
            f.hours * 3600 + f.minutes * 60 + f.secs == s.Floor
  {
    FieldsWholeSeconds(s);
    FieldsMillis(s);
  }

  /** Hours, minutes and seconds are the mixed-radix digits of `floor(s)`. */
  lemma FieldsWholeSeconds(s: real)
    requires s >= 0.0
    ensures var f := TimestampFields(s);
            f.hours * 3600 + f.minutes * 60 + f.secs == s.Floor
  {
    var f := TimestampFields(s);
    var n := s.Floor;
    FloorDiv3600(s);
    FloorDiv60(Mod3600(s));
    Mod3600Floor(s);
    Mod60Floor(s);
    MixedRadix(n);
  }

  lemma MixedRadix(n: int)
    requires n >= 0
    ensures n == (n / 3600) * 3600 + ((n % 3600) / 60) * 60 + n % 60
  {
    var h, r := n / 3600, n % 3600;
    var m, t := r / 60, r % 60;
    assert n == 3600 * h + r;
    assert r == 60 * m + t && 0 <= t < 60;
    ModSixty(n, 60 * h + m, t);
  }

  lemma ModSixty(n: int, q: int, t: int)
    requires n == 60 * q + t && 0 <= t < 60
    ensures n % 60 == t
  {
  }

  /** The millisecond field is what `floor(1000 s)` adds to the whole seconds. */
  lemma FieldsMillis(s: real)
    requires s >= 0.0
    ensures TimestampFields(s).millis == (1000.0 * s).Floor - 1000 * s.Floor
  {
    var n := s.Floor;
    var frac := s - n as real;
    assert TimestampFields(s).millis == (frac * 1000.0).Floor;
    assert 1000.0 * s == frac * 1000.0 + (1000 * n) as real;
    FloorShift(1000.0 * s, 1000 * n);
  }

  /** `f"{i:0{w}d}"` for any integer: a minus sign, then zeros, then the
      digits, at least `w` characters in all. */
  function PadInt(i: int, w: nat): (r: string)
    ensures i >= 0 ==> r == ZeroPad(i, w)
    ensures i < 0 ==> |r| >= 2 && r[0] == '-' && r[1..] == ZeroPad(-i, if w >= 1 then w - 1 else 0)
  {
    if i < 0 then "-" + ZeroPad(-i, if w >= 1 then w - 1 else 0) else ZeroPad(i, w)
  }

  /** `_format_timestamp`: `HH:MM:SS,mmm`, hours not capped at two digits. */
  function FormatTimestamp(s: real): string {
    ShowFields(TimestampFields(s))
  }

  /** The fields padded and joined as `HH:MM:SS,mmm`. */
  function ShowFields(f: Fields): string {
    PadInt(f.hours, 2) + ":" + PadInt(f.minutes, 2) + ":" + PadInt(f.secs, 2) + "," + PadInt(f.millis, 3)
  }

  /** Reads `H:MM:SS,mmm` (at least two hour digits) back as whole
      milliseconds; `None` for anything else. */
  function ParseTimestamp(t: string): Option<int> {
    if |t| < 12 then None
    else
      var k := |t| - 10;
      if t[k] == ':' && t[k + 3] == ':' && t[k + 6] == ','
      then FieldsValue(t[..k], t[k + 1..k + 3], t[k + 4..k + 6], t[k + 7..])
      else None
  }

  /** Whole milliseconds of the hour, minute, second and millisecond fields
      when each is all digits. */
  function FieldsValue(h: string, m: string, sec: string, ms: string): Option<int> {
    if AllDigits(h) && AllDigits(m) && AllDigits(sec) && AllDigits(ms)
    then Some(ParseDigits(h) * 3_600_000 + ParseDigits(m) * 60_000 + ParseDigits(sec) * 1000 + ParseDigits(ms))
    else None
  }

  /** A value below `10^w` pads to exactly `w` digits. */
  lemma PadExact(n: nat, w: nat)
    requires 1 <= w && n < Pow10(w)
    ensures |ZeroPad(n, w)| == w
  {
    ShowNatLength(n, w);
  }

  /** Formatting then parsing a non-negative time yields its whole
      milliseconds, so the text keeps every field and nothing else. */
  lemma TimestampRoundTrip(s: real)
    requires s >= 0.0
    ensures ParseTimestamp(FormatTimestamp(s)) == Some((1000.0 * s).Floor)
  {
    FieldsAreMillis(s);
    ShowFieldsRoundTrip(FormatTimestamp(s), TimestampFields(s), (1000.0 * s).Floor);
  }

  /** Fields in range are read back from their text as whole milliseconds. */
  lemma ShowFieldsRoundTrip(t: string, f: Fields, n: int)
    requires f.hours >= 0 && 0 <= f.minutes <= 59 && 0 <= f.secs <= 59 && 0 <= f.millis <= 999
    requires t == ShowFields(f) && n == f.hours * 3_600_000 + f.minutes * 60_000 + f.secs * 1000 + f.millis
    ensures ParseTimestamp(t) == Some(n)
  {
    assert Pow10(2) == 100 && Pow10(3) == 1000;
    PadExact(f.minutes, 2);
    PadExact(f.secs, 2);
    PadExact(f.millis, 3);
    var h, m, sec, ms := ZeroPad(f.hours, 2), ZeroPad(f.minutes, 2), ZeroPad(f.secs, 2), ZeroPad(f.millis, 3);
    assert ShowFields(f) == h + ":" + m + ":" + sec + "," + ms;
    ParseFields(h, m, sec, ms);
    PaddedFields(f.hours, f.minutes, f.secs, f.millis);
  }

  /** Zero-padded fields are worth the numbers they pad. */
  lemma PaddedFields(a: nat, b: nat, c: nat, d: nat)
    ensures FieldsValue(ZeroPad(a, 2), ZeroPad(b, 2), ZeroPad(c, 2), ZeroPad(d, 3)) ==
      Some(a * 3_600_000 + b * 60_000 + c * 1000 + d)
  {
  }

  /** Four digit fields joined by `:`, `:` and `,` parse back field by field. */
  lemma ParseFields(h: string, m: string, sec: string, ms: string)
    requires |h| >= 2 && |m| == 2 && |sec| == 2 && |ms| == 3
    requires AllDigits(h) && AllDigits(m) && AllDigits(sec) && AllDigits(ms)
    ensures ParseTimestamp(h + ":" + m + ":" + sec + "," + ms) == FieldsValue(h, m, sec, ms)
  {
    var t := h + ":" + m + ":" + sec + "," + ms;
    var k := |t| - 10;
    assert k == |h|;
    assert t[..k] == h;
    assert t[k + 1..k + 3] == m;
    assert t[k + 4..k + 6] == sec;
    assert t[k + 7..] == ms;
    assert t[k] == ':' && t[k + 3] == ':' && t[k + 6] == ',';
    ParseSlices(t, h, m, sec, ms);
  }

  /** `ParseTimestamp` reads the fields between the separators at their
      fixed places from the end. */
  lemma ParseSlices(t: string, h: string, m: string, sec: string, ms: string)
    requires |t| >= 12
    requires t[|t| - 10] == ':' && t[|t| - 7] == ':' && t[|t| - 4] == ','
    requires t[..|t| - 10] == h && t[|t| - 9..|t| - 7] == m && t[|t| - 6..|t| - 4] == sec && t[|t| - 3..] == ms
    ensures ParseTimestamp(t) == FieldsValue(h, m, sec, ms)
  {
  }

  lemma FormatZero()
    ensures FormatTimestamp(0.0) == "00:00:00,000"
  {
    var f := TimestampFields(0.0);
    assert f == Fields(0, 0, 0, 0);
  }

  lemma FormatExample()
    ensures FormatTimestamp(3725.123) == "01:02:05,123"
  {
    var f := TimestampFields(3725.123);
    assert (3725.123 / 3600.0).Floor == 1;
    assert Mod3600(3725.123) == 125.123;
    assert (125.123 / 60.0).Floor == 2;
    assert (3725.123 / 60.0).Floor == 62;
    assert Mod60(3725.123) == 5.123;
    assert (3725.123).Floor == 3725;
    assert (0.123 * 1000.0).Floor == 123;
    assert f == Fields(1, 2, 5, 123);
  }

  // ---- `_segments_to_srt`.

  /** A recognised speech segment: start and end in seconds, and its text. */
  datatype Segment = Segment(start: real, end: real, text: string)

  /** A segment with its text stripped, as the loop body first computes it. */
  datatype Cue = Cue(start: real, end: real, text: string)

  function Prepare(segs: seq<Segment>): (r: seq<Cue>)
    ensures |r| == |segs|
    ensures forall i :: 0 <= i < |segs| ==> r[i] == Cue(segs[i].start, segs[i].end, Strip(segs[i].text))
  {
    if |segs| == 0 then [] else [Cue(segs[0].start, segs[0].end, Strip(segs[0].text))] + Prepare(segs[1..])
  }

  /** A cue is written when its stripped text is longer than two characters. */
  predicate Kept(c: Cue) {
    |c.text| > 2
  }

  /** One SubRip block: index line, time line, text, blank line. */
  function Block(index: nat, c: Cue): (r: string)
    ensures |r| > 0 && !IsSpace(r[0])
  {
    var rest := "\n" + FormatTimestamp(c.start) + " --> " + FormatTimestamp(c.end) + "\n" + c.text + "\n\n";
    BlockStart(ShowNat(index), rest);
    ShowNat(index) + rest
  }

  /** A block opens with its number, a digit. */
  lemma BlockStart(n: string, rest: string)
    requires |n| >= 1 && AllDigits(n)
    ensures !IsSpace((n + rest)[0])
  {
    assert (n + rest)[0] == n[0];
  }

  /** A numbered cue, as it appears in the output. */
  datatype Numbered = Numbered(index: nat, cue: Cue)

  function Render(bs: seq<Numbered>): (r: string)
    ensures r == "" <==> |bs| == 0
    ensures r != "" ==> !IsSpace(r[0])
  {
    if |bs| == 0 then "" else Block(bs[0].index, bs[0].cue) + Render(bs[1..])
  }

  function Cues(bs: seq<Numbered>): (r: seq<Cue>)
    ensures |r| == |bs|
    ensures forall k :: 0 <= k < |bs| ==> r[k] == bs[k].cue
  {
    if |bs| == 0 then [] else [bs[0].cue] + Cues(bs[1..])
  }

  /** The kept cues, in input order. */
  function KeptCues(cs: seq<Cue>): (r: seq<Cue>)
    ensures |r| <= |cs|
    ensures forall k :: 0 <= k < |r| ==> Kept(r[k]) && r[k] in cs
  {
    if |cs| == 0 then []
    else if Kept(cs[0]) then [cs[0]] + KeptCues(cs[1..])
    else KeptCues(cs[1..])
  }

  /** The blocks as written, from input position `j` on: each kept cue
      carries its 1-based position in the whole input, so a dropped segment
      leaves a gap. */
  function PositionNumbered(cs: seq<Cue>, j: nat): (r: seq<Numbered>)
    requires j <= |cs|
    ensures Blocks(cs, j, r)
    decreases |cs| - j
  {
    if j == |cs| then []
    else
      var rest := PositionNumbered(cs, j + 1);
      if Kept(cs[j]) then
        BlocksCons(cs, j, rest);
        [Numbered(j + 1, cs[j])] + rest
      else rest
  }

  /** Blocks for kept cues after position `j`, in increasing order, each
      numbered by the cue's 1-based position. */
  predicate Blocks(cs: seq<Cue>, j: nat, r: seq<Numbered>) {
    && (forall k :: 0 <= k < |r| ==> j < r[k].index <= |cs|)
    && (forall k :: 0 <= k < |r| ==> cs[r[k].index - 1] == r[k].cue && Kept(r[k].cue))
    && (forall k, l :: 0 <= k < l < |r| ==> r[k].index < r[l].index)
  }

  /** A kept cue `j` in front of the blocks after it. */
  lemma BlocksCons(cs: seq<Cue>, j: nat, rest: seq<Numbered>)
    requires j < |cs| && Kept(cs[j]) && Blocks(cs, j + 1, rest)
    ensures Blocks(cs, j, [Numbered(j + 1, cs[j])] + rest)
  {
    var r := [Numbered(j + 1, cs[j])] + rest;
    assert forall k :: 1 <= k < |r| ==> r[k] == rest[k - 1];
  }

  /** Every kept cue gets a block, numbered by its position. */
  lemma {:induction false} PositionNumberedComplete(cs: seq<Cue>, j: nat, i: nat)
    requires j <= i < |cs| && Kept(cs[i])
    ensures exists k :: 0 <= k < |PositionNumbered(cs, j)| && PositionNumbered(cs, j)[k].index == i + 1
    decreases |cs| - j
  {
    var k := NumberedFind(cs, j, i);
  }

  /** Where the block of kept cue `i` sits among the blocks from `j` on. */
  lemma {:induction false} NumberedFind(cs: seq<Cue>, j: nat, i: nat) returns (k: nat)
    requires j <= i < |cs| && Kept(cs[i])
    ensures k < |PositionNumbered(cs, j)| && PositionNumbered(cs, j)[k].index == i + 1
    decreases |cs| - j
  {
    if i == j {
      FindHere(cs, j);
      k := 0;
    } else {
      var k' := NumberedFind(cs, j + 1, i);
      k := FindLater(cs, j, i, k');
    }
  }

  /** A kept cue `j` has the first block from `j` on. */
  lemma FindHere(cs: seq<Cue>, j: nat)
    requires j < |cs| && Kept(cs[j])
    ensures 0 < |PositionNumbered(cs, j)| && PositionNumbered(cs, j)[0].index == j + 1
  {
    NumberedUnfold(cs, j);
  }

  /** A block found from `j + 1` on is found from `j` on, one further when
      cue `j` is kept. */
  lemma FindLater(cs: seq<Cue>, j: nat, i: nat, k': nat) returns (k: nat)
    requires j < |cs|
    requires k' < |PositionNumbered(cs, j + 1)| && PositionNumbered(cs, j + 1)[k'].index == i + 1
    ensures k < |PositionNumbered(cs, j)| && PositionNumbered(cs, j)[k].index == i + 1
  {
    NumberedUnfold(cs, j);
    if Kept(cs[j]) {
      k := k' + 1;
      BehindHead(PositionNumbered(cs, j), Numbered(j + 1, cs[j]), PositionNumbered(cs, j + 1), k);
    } else {
      k := k';
    }
  }

  /** The blocks from `j` start with cue `j`'s when it is kept. */
  lemma NumberedUnfold(cs: seq<Cue>, j: nat)
    requires j < |cs|
    ensures PositionNumbered(cs, j) ==
      (if Kept(cs[j]) then [Numbered(j + 1, cs[j])] else []) + PositionNumbered(cs, j + 1)
  {
    if !Kept(cs[j]) {
      assert [] + PositionNumbered(cs, j + 1) == PositionNumbered(cs, j + 1);
    }
  }

  /** The blocks as written hold exactly the kept cues, in order. */
  lemma {:induction false} PositionNumberedCues(cs: seq<Cue>, j: nat)
    requires j <= |cs|
    ensures Cues(PositionNumbered(cs, j)) == KeptCues(cs[j..])
    decreases |cs| - j
  {
    if j < |cs| {
      PositionNumberedCues(cs, j + 1);
      var rest := PositionNumbered(cs, j + 1);
      assert cs[j..][1..] == cs[j + 1..];
      if Kept(cs[j]) {
        assert Cues([Numbered(j + 1, cs[j])] + rest) == [cs[j]] + Cues(rest);
      }
    }
  }

  /** `_segments_to_srt` as written. */
  function SegmentsToSrtAsWritten(segs: seq<Segment>): string {
    Render(PositionNumbered(Prepare(segs), 0))
  }

  /** The kept cues numbered 1, 2, ... as SubRip numbers its blocks. */
  function RankNumbered(kept: seq<Cue>, first: nat): (r: seq<Numbered>)
    ensures |r| == |kept|
    ensures forall k :: 0 <= k < |r| ==> r[k] == Numbered(first + k, kept[k])
  {
    if |kept| == 0 then [] else [Numbered(first, kept[0])] + RankNumbered(kept[1..], first + 1)
  }

  /** The corrected blocks: the kept cues, in order, numbered 1, 2, 3, ... */
  function CorrectedBlocks(segs: seq<Segment>): (bs: seq<Numbered>)
    ensures Cues(bs) == KeptCues(Prepare(segs))
    ensures forall k :: 0 <= k < |bs| ==> bs[k].index == k + 1
  {
    RankNumbered(KeptCues(Prepare(segs)), 1)
  }

  /** `_segments_to_srt` with contiguous numbering. */
  function SegmentsToSrt(segs: seq<Segment>): string {
    Render(CorrectedBlocks(segs))
  }

  /** Both numberings write the same cues in the same order. */
  lemma SameCuesWritten(segs: seq<Segment>)
    ensures Cues(PositionNumbered(Prepare(segs), 0)) == Cues(RankNumbered(KeptCues(Prepare(segs)), 1))
  {
    var cs := Prepare(segs);
    PositionNumberedCues(cs, 0);
    assert cs[0..] == cs;
  }

  /** When no segment is dropped the two numberings coincide. */
  lemma NumberingAgreesWhenAllKept(segs: seq<Segment>)
    requires forall j :: 0 <= j < |segs| ==> |Strip(segs[j].text)| > 2
    ensures SegmentsToSrtAsWritten(segs) == SegmentsToSrt(segs)
  {
    var cs := Prepare(segs);
    AllKeptFrom(cs, 0);
    KeptCuesAll(cs);
    assert cs[0..] == cs;
  }

  lemma {:induction false} AllKeptFrom(cs: seq<Cue>, j: nat)
    requires j <= |cs|
    requires forall i :: 0 <= i < |cs| ==> Kept(cs[i])
    ensures PositionNumbered(cs, j) == RankNumbered(cs[j..], j + 1)
    decreases |cs| - j
  {
    if j < |cs| {
      AllKeptFrom(cs, j + 1);
      var tail := cs[j..];
      assert tail[0] == cs[j] && tail[1..] == cs[j + 1..];
      assert RankNumbered(tail, j + 1) == [Numbered(j + 1, cs[j])] + RankNumbered(cs[j + 1..], j + 2);
    }
  }

  lemma {:induction false} KeptCuesAll(cs: seq<Cue>)
    requires forall i :: 0 <= i < |cs| ==> Kept(cs[i])
    ensures KeptCues(cs) == cs
    decreases |cs|
  {
    if |cs| > 0 {
      KeptCuesAll(cs[1..]);
    }
  }

  /** As written, a dropped first segment makes the first block's index 2,
      where SubRip numbering starts at 1. */
  lemma AsWrittenSkipsIndex(cs: seq<Cue>)
    requires |cs| >= 2 && !Kept(cs[0]) && Kept(cs[1])
    ensures |PositionNumbered(cs, 0)| > 0 && PositionNumbered(cs, 0)[0].index == 2
    ensures |KeptCues(cs)| > 0 && RankNumbered(KeptCues(cs), 1)[0].index == 1
  {
    assert KeptCues(cs) == KeptCues(cs[1..]);
    assert cs[1..][0] == cs[1];
  }

  /** As written, the output is empty exactly when no segment is kept. */
  lemma SrtEmptyIffAsWritten(segs: seq<Segment>)
    ensures SegmentsToSrtAsWritten(segs) == "" <==> forall j :: 0 <= j < |segs| ==> |Strip(segs[j].text)| <= 2
  {
    var cs := Prepare(segs);
    PositionNumberedCues(cs, 0);
    assert cs[0..] == cs;
    KeptCuesEmptyIff(cs);
  }

  /** With the corrected numbering, the output is empty exactly when no
      segment is kept. */
  lemma SrtEmptyIff(segs: seq<Segment>)
    ensures SegmentsToSrt(segs) == "" <==> forall j :: 0 <= j < |segs| ==> |Strip(segs[j].text)| <= 2
  {
    KeptCuesEmptyIff(Prepare(segs));
  }

  lemma {:induction false} KeptCuesEmptyIff(cs: seq<Cue>)
    ensures KeptCues(cs) == [] <==> forall j :: 0 <= j < |cs| ==> !Kept(cs[j])
    decreases |cs|
  {
    if |cs| > 0 {
      KeptCuesEmptyIff(cs[1..]);
      assert forall j :: 1 <= j < |cs| ==> cs[j] == cs[1..][j - 1];
    }
  }

  // ---- Transcription wrappers; the recogniser is an oracle.

  /** `transcribe_audio`: raises when the file is missing or recognition
      fails (`recognised` is `None`); otherwise returns the SubRip text, ""
      when nothing was kept. */
  function TranscribeAudio(fileExists: bool, recognised: Option<seq<Segment>>): (r: Outcome<string>)
    ensures r.Returned? <==> fileExists && recognised.Some?
    ensures r.Returned? ==> r.value == SegmentsToSrtAsWritten(recognised.value)
  {
    if !fileExists || recognised.None? then Raised
    else
      var srt := SegmentsToSrtAsWritten(recognised.value);
      if Strip(srt) == "" then Returned("") else Returned(srt)
  }

  /** The default subtitle name of an audio file: its stem with `.srt`. */
  function SrtName(audio: Path): string {
    Stem(Name(audio)) + ".srt"
  }

  /** The subtitle file keeps the audio file's stem and has suffix `.srt`. */
  lemma SrtNameKeepsStem(x: string)
    requires x != ""
    ensures Suffix(x + ".srt") == ".srt"
    ensures Stem(x + ".srt") == x
  {
    assert x + ".srt" == x + "." + "srt";
    DotExtension(x, "srt");
  }

  /** `transcribe_single_file`: the path of the written file, or `None` when
      transcription raised, produced nothing, or writing failed. */
  function TranscribeSingle(outputDir: Path, audio: Path, outputName: Option<string>,
                            transcribed: Outcome<string>, written: bool): (r: Option<Path>)
    ensures r.Some? <==> transcribed.Returned? && transcribed.value != "" && written
    ensures r.Some? && (outputName.None? || outputName.value == "") ==> r.value == Join(outputDir, SrtName(audio))
  {
    if transcribed.Raised? || transcribed.value == "" then None
    else
      var name := if outputName.None? || outputName.value == "" then SrtName(audio) else outputName.value;
      if written then Some(Join(outputDir, name)) else None
  }

  // ---- Choosing the audio files of a directory.

  const AudioExtensions: set<string> := {".mp3", ".wav", ".m4a", ".flac", ".ogg", ".aac", ".wma"}

  /** `_is_audio_file`: the lower-cased suffix is a supported extension. */
  predicate IsAudioFile(p: Path) {
    Lower(Suffix(Name(p))) in AudioExtensions
  }

  /** An entry of the recursive directory walk, and whether it is a file. */
  datatype Entry = Entry(path: Path, isFile: bool)

  function AudioEntries(walk: seq<Entry>): (r: seq<Path>)
    ensures forall p :: p in r <==> exists e :: e in walk && e.isFile && IsAudioFile(e.path) && e.path == p
  {
    if |walk| == 0 then []
    else
      var rest := AudioEntries(walk[1..]);
      assert forall e :: e in walk <==> e == walk[0] || e in walk[1..];
      if walk[0].isFile && IsAudioFile(walk[0].path) then [walk[0].path] + rest else rest
  }

  /** `_get_audio_files`: nothing for a missing directory, otherwise the
      audio files of the walk in sorted order. */
  function GetAudioFiles(dirExists: bool, walk: seq<Entry>): (r: seq<Path>)
    ensures !dirExists ==> r == []
    ensures dirExists ==> multiset(r) == multiset(AudioEntries(walk))
    ensures forall p :: p in r <==> dirExists && exists e :: e in walk && e.isFile && IsAudioFile(e.path) && e.path == p
  {
    if !dirExists then []
    else
      var r := Sort(AudioEntries(walk));
      assert forall p :: p in r <==> p in multiset(r);
      assert forall p :: p in AudioEntries(walk) <==> p in multiset(AudioEntries(walk));
      r
  }

  lemma GetAudioFilesSorted(dirExists: bool, walk: seq<Entry>)
    ensures Sorted(GetAudioFiles(dirExists, walk))
  {
    if dirExists { SortSorted(AudioEntries(walk)); }
  }

  // ---- `transcribe_all`.

  datatype BatchStats = BatchStats(success: bool, totalFiles: nat, processed: nat, failed: nat,
                                   outputFiles: seq<Path>, errors: seq<Path>)

  /** The written subtitle paths, in file order. */
  function Written(results: seq<Option<Path>>): (r: seq<Path>)
    ensures |r| <= |results|
    ensures forall k :: 0 <= k < |r| ==> Some(r[k]) in results
  {
    if |results| == 0 then []
    else if results[0].Some? then [results[0].value] + Written(results[1..])
    else Written(results[1..])
  }

  /** Tally of per-file results: a written subtitle counts as processed and
      is listed; anything else counts as failed and its audio is listed. */
  function Tally(files: seq<Path>, results: seq<Option<Path>>): (r: BatchStats)
    requires |results| == |files|
    ensures r.processed + r.failed == |files|
    ensures |r.outputFiles| == r.processed && |r.errors| == r.failed
    ensures r.outputFiles == Written(results)
    ensures forall k :: 0 <= k < |r.errors| ==> r.errors[k] in files
    decreases |files|
  {
    if |files| == 0 then BatchStats(true, 0, 0, 0, [], [])
    else
      var rest := Tally(files[1..], results[1..]);
      assert forall x :: x in results[1..] ==> x in results;
      assert forall x :: x in files[1..] ==> x in files;
      if results[0].Some? then
        rest.(processed := rest.processed + 1, outputFiles := [results[0].value] + rest.outputFiles)
      else
        rest.(failed := rest.failed + 1, errors := [files[0]] + rest.errors)
  }

  /** `transcribe_all` over the chosen files and the per-file results of
      `transcribe_single_file`. */
  function TranscribeAll(files: seq<Path>, results: seq<Option<Path>>): (r: BatchStats)
    requires |results| == |files|
    ensures |files| == 0 ==> r == BatchStats(false, 0, 0, 0, [], [])
    ensures |files| > 0 ==> r.success && r.totalFiles == |files|
    ensures r.processed + r.failed == r.totalFiles
  {
    if |files| == 0 then BatchStats(false, 0, 0, 0, [], [])
    else Tally(files, results).(success := true, totalFiles := |files|)
  }
}

=== FILE: text.dfy ===
/** Character classes and the small string toolkit the Python code relies on:
    `str.isspace`, `str.strip`, `str.split()` with no argument, `sep.join`,
    `str.replace` of one character and ASCII lower-casing. */
module Text {

  /** The characters Python's `str.isspace` (and therefore `\s`, `strip()`
      and `split()`) treats as whitespace. */
  predicate IsSpace(c: char) {
    || c == ' '
    || ('\t' <= c <= '\r')
    || ('\U{1C}' <= c <= '\U{1F}')
    || c == '\U{85}' || c == '\U{A0}' || c == '\U{1680}'
    || ('\U{2000}' <= c <= '\U{200A}')
    || c == '\U{2028}' || c == '\U{2029}' || c == '\U{202F}'
    || c == '\U{205F}' || c == '\U{3000}'
  }

  /** `s.strip()` is empty: every character is whitespace. */
  predicate IsBlank(s: string) {
    forall j :: 0 <= j < |s| ==> IsSpace(s[j])
  }

  /** Index of the first non-whitespace character (or |s|). */
  function LeadEnd(s: string): (k: nat)
    ensures k <= |s|
    ensures forall j :: 0 <= j < k ==> IsSpace(s[j])
    ensures k < |s| ==> !IsSpace(s[k])
  {
    if |s| == 0 || !IsSpace(s[0]) then 0 else 1 + LeadEnd(s[1..])
  }

  /** Index just past the last non-whitespace character (or 0). */
  function TrailStart(s: string): (k: nat)
    ensures k <= |s|
    ensures forall j :: k <= j < |s| ==> IsSpace(s[j])
    ensures k > 0 ==> !IsSpace(s[k - 1])
  {
    if |s| == 0 || !IsSpace(s[|s| - 1]) then |s| else TrailStart(s[..|s| - 1])
  }

  /** Python's `s.strip()`. */
  function Strip(s: string): (r: string)
    ensures |r| <= |s|
    ensures LeadEnd(s) + |r| <= |s|
    ensures r == "" <==> IsBlank(s)
    ensures r != "" ==> !IsSpace(r[0]) && !IsSpace(r[|r| - 1])
    ensures r == s[LeadEnd(s)..LeadEnd(s) + |r|]
    ensures forall j :: 0 <= j < LeadEnd(s) ==> IsSpace(s[j])
    ensures forall j :: LeadEnd(s) + |r| <= j < |s| ==> IsSpace(s[j])
  {
    var a := LeadEnd(s);
    if a == |s| then "" else s[a..TrailStart(s)]
  }

  /** Non-empty, without whitespace at either end: what `strip()` returns for
      a non-blank string. */
  predicate Trimmed(s: string) {
    s != "" && !IsSpace(s[0]) && !IsSpace(s[|s| - 1])
  }

  /** A trimmed string is its own strip. */
  lemma StripTrimmed(s: string)
    requires Trimmed(s)
    ensures Strip(s) == s
  {
    var r := Strip(s);
    assert LeadEnd(s) == 0;
    assert r != "";
    assert |r| == |s|;
  }

  /** A string in which every whitespace character is a plain space that sits
      strictly inside the string and is followed by a non-whitespace character:
      no leading or trailing whitespace and no run of two or more. */
  predicate SpacesNormalized(r: string) {
    forall i :: 0 <= i < |r| && IsSpace(r[i]) ==>
      r[i] == ' ' && 0 < i < |r| - 1 && !IsSpace(r[i + 1])
  }

  /** Index of the first whitespace character (or |s|). */
  function RunEnd(s: string): (k: nat)
    ensures k <= |s|
    ensures forall j :: 0 <= j < k ==> !IsSpace(s[j])
    ensures k < |s| ==> IsSpace(s[k])
  {
    if |s| == 0 || IsSpace(s[0]) then 0 else 1 + RunEnd(s[1..])
  }

  /** A word as produced by `str.split()`: non-empty, free of whitespace. */
  predicate IsWord(w: string) {
    |w| > 0 && forall j :: 0 <= j < |w| ==> !IsSpace(w[j])
  }

  /** Python's `s.split()` with no argument: the maximal whitespace-free runs. */
  function Words(s: string): (ws: seq<string>)
    ensures forall k :: 0 <= k < |ws| ==> IsWord(ws[k])
    decreases |s|
  {
    var a := LeadEnd(s);
    if a == |s| then []
    else
      var t := s[a..];
      var e := RunEnd(t);
      [t[..e]] + Words(t[e..])
  }

  /** Python's `sep.join(xs)`. */
  function JoinWith(xs: seq<string>, sep: string): string {
    if |xs| == 0 then ""
    else if |xs| == 1 then xs[0]
    else xs[0] + sep + JoinWith(xs[1..], sep)
  }

  /** Concatenation of a list of strings, `"".join(xs)`. */
  function Concat(xs: seq<string>): string {
    if |xs| == 0 then "" else xs[0] + Concat(xs[1..])
  }

  /** `" ".join(s.split())`: whitespace runs collapsed to one space, ends trimmed. */
  function Collapse(s: string): (r: string)
    ensures SpacesNormalized(r)
  {
    JoinWordsNormalized(Words(s));
    JoinWith(Words(s), " ")
  }

  lemma {:induction false} JoinWordsNormalized(ws: seq<string>)
    requires forall k :: 0 <= k < |ws| ==> IsWord(ws[k])
    ensures SpacesNormalized(JoinWith(ws, " "))
    ensures |ws| > 0 ==> |JoinWith(ws, " ")| > 0 && !IsSpace(JoinWith(ws, " ")[0])
    decreases |ws|
  {
    if |ws| > 1 {
      JoinWordsNormalized(ws[1..]);
      var rest := JoinWith(ws[1..], " ");
      var r := ws[0] + " " + rest;
      assert JoinWith(ws, " ") == r;
      assert forall i :: 0 <= i < |ws[0]| ==> r[i] == ws[0][i];
      forall i | |ws[0]| <= i < |r| && IsSpace(r[i])
        ensures r[i] == ' ' && 0 < i < |r| - 1 && !IsSpace(r[i + 1])
      {
        if i == |ws[0]| {
          assert r[i + 1] == rest[0];
        } else {
          assert r[i] == rest[i - |ws[0]| - 1];
          assert r[i + 1] == rest[i - |ws[0]|];
        }
      }
    }
  }

  /** The words of a single-spaced join of words are those words again. */
  lemma {:induction false} WordsOfJoin(ws: seq<string>)
    requires forall k :: 0 <= k < |ws| ==> IsWord(ws[k])
    ensures Words(JoinWith(ws, " ")) == ws
    decreases |ws|
  {
    if |ws| == 1 {
      WordsWordPrefix(ws[0], "");
      assert ws[0] + "" == ws[0];
    } else if |ws| > 1 {
      WordsOfJoin(ws[1..]);
      WordsOfJoinStep(ws);
    }
  }

  lemma WordsOfJoinStep(ws: seq<string>)
    requires |ws| > 1 && IsWord(ws[0])
    requires Words(JoinWith(ws[1..], " ")) == ws[1..]
    ensures Words(JoinWith(ws, " ")) == ws
  {
    var rest := JoinWith(ws[1..], " ");
    assert JoinWith(ws, " ") == ws[0] + (" " + rest);
    WordsWordPrefix(ws[0], " " + rest);
    WordsSpacePrefix(rest);
    assert ws == [ws[0]] + ws[1..];
  }

  /** A word followed by whitespace (or nothing) is the first word. */
  lemma WordsWordPrefix(w: string, x: string)
    requires IsWord(w)
    requires |x| == 0 || IsSpace(x[0])
    ensures Words(w + x) == [w] + Words(x)
  {
    var s := w + x;
    assert s[0] == w[0];
    assert LeadEnd(s) == 0;
    assert s[0..] == s;
    assert forall j :: 0 <= j < |w| ==> s[j] == w[j];
    if |x| > 0 { assert s[|w|] == x[0]; }
    assert RunEnd(s) == |w|;
    assert s[..|w|] == w;
    assert s[|w|..] == x;
  }

  /** One leading space does not change the words. */
  lemma WordsSpacePrefix(x: string)
    ensures Words(" " + x) == Words(x)
  {
    var s := " " + x;
    assert s[1..] == x;
    assert LeadEnd(s) == 1 + LeadEnd(x);
    if LeadEnd(x) < |x| {
      assert s[1 + LeadEnd(x)..] == x[LeadEnd(x)..];
    }
  }

  /** `" ".join(s.split())` is idempotent. */
  lemma CollapseIdempotent(s: string)
    ensures Collapse(Collapse(s)) == Collapse(s)
  {
    WordsOfJoin(Words(s));
  }

  /** Every word of `s.split()` is a contiguous piece of `s`. */
  lemma {:induction false} WordsContained(s: string)
    ensures Pieces(s, Words(s))
    decreases |s|
  {
    if LeadEnd(s) < |s| {
      var a, e := WordsHead(s);
      WordsContained(s[a + e..]);
      ConsContained(s, a, e, Words(s), Words(s[a + e..]));
    }
  }

  /** The first word of `s.split()` is the run at `a`, `e` characters long,
      and the rest are the words of what follows it. */
  lemma WordsHead(s: string) returns (a: nat, e: nat)
    requires LeadEnd(s) < |s|
    ensures a == LeadEnd(s) && e == RunEnd(s[a..])
    ensures 0 < e && a + e <= |s|
    ensures Words(s) == [s[a..a + e]] + Words(s[a + e..])
  {
    a := LeadEnd(s);
    var t := s[a..];
    assert t[0] == s[a];
    e := RunEnd(t);
    assert t[..e] == s[a..a + e];
    assert t[e..] == s[a + e..];
  }

  /** Every string of `ws` is a contiguous piece of `s`. */
  predicate Pieces(s: string, ws: seq<string>) {
    forall k :: 0 <= k < |ws| ==> Contains(s, ws[k])
  }

  /** A piece of `s` followed by pieces of a suffix of `s` are all pieces of `s`. */
  lemma ConsContained(s: string, a: nat, e: nat, ws: seq<string>, rest: seq<string>)
    requires a + e <= |s| && ws == [s[a..a + e]] + rest
    requires Pieces(s[a + e..], rest)
    ensures Pieces(s, ws)
  {
    assert OccursAt(s, s[a..a + e], a);
    forall k | 1 <= k < |ws| ensures Contains(s, ws[k]) {
      assert ws[k] == rest[k - 1];
      ContainedIn(s, a + e, rest[k - 1]);
    }
  }

  /** A piece of a suffix of `s` is a piece of `s`. */
  lemma ContainedIn(s: string, off: nat, w: string)
    requires off <= |s| && Contains(s[off..], w)
    ensures Contains(s, w)
  {
    var rest := s[off..];
    var i :| 0 <= i <= |rest| && OccursAt(rest, w, i);
    assert rest[i..i + |w|] == s[off + i..off + i + |w|];
    assert OccursAt(s, w, off + i);
  }

  /** Joining with single spaces introduces no character other than ' '. */
  lemma {:induction false} JoinSpacedFrom(ws: seq<string>, s: string)
    requires forall k, j :: 0 <= k < |ws| && 0 <= j < |ws[k]| ==> ws[k][j] in s
    ensures forall i :: 0 <= i < |JoinWith(ws, " ")| ==> JoinWith(ws, " ")[i] == ' ' || JoinWith(ws, " ")[i] in s
    decreases |ws|
  {
    if |ws| == 1 {
      assert JoinWith(ws, " ") == ws[0];
    } else if |ws| > 1 {
      JoinSpacedFrom(ws[1..], s);
      var rest := JoinWith(ws[1..], " ");
      var r := ws[0] + " " + rest;
      forall i | 0 <= i < |r| ensures r[i] == ' ' || r[i] in s {
        if i < |ws[0]| { assert r[i] == ws[0][i]; }
        else if i > |ws[0]| { assert r[i] == rest[i - |ws[0]| - 1]; }
      }
    }
  }

  /** `" ".join(s.split())` keeps only characters of `s` and plain spaces. */
  lemma CollapseFrom(s: string)
    ensures forall i :: 0 <= i < |Collapse(s)| ==> Collapse(s)[i] == ' ' || Collapse(s)[i] in s
  {
    var ws := Words(s);
    WordsContained(s);
    forall k, j | 0 <= k < |ws| && 0 <= j < |ws[k]| ensures ws[k][j] in s {
      var i :| 0 <= i <= |s| && OccursAt(s, ws[k], i);
      assert ws[k][j] == s[i + j];
    }
    JoinSpacedFrom(ws, s);
  }

  /** An already normalised string is its own single-spaced join of words. */
  lemma {:induction false} NormalizedWords(x: string)
    requires SpacesNormalized(x)
    ensures JoinWith(Words(x), " ") == x
    ensures |x| > 0 ==> |Words(x)| > 0
    decreases |x|
  {
    if |x| > 0 {
      assert LeadEnd(x) == 0;
      var a, e := WordsHead(x);
      if e == |x| {
        LastWord(x, Words(x), Words(x[e..]));
      } else {
        var rest := x[e + 1..];
        assert x[e] == ' ' && e + 1 < |x|;
        assert x[e..] == " " + rest;
        NormalizedTail(x, e + 1);
        NormalizedWords(rest);
        WordsSpacePrefix(rest);
        JoinStep(x, e, Words(x), Words(rest));
      }
    }
  }

  /** A string that is one word joins back to itself. */
  lemma LastWord(x: string, ws: seq<string>, rest: seq<string>)
    requires ws == [x[0..|x|]] + rest && rest == Words(x[|x|..])
    ensures JoinWith(ws, " ") == x
  {
    assert x[|x|..] == "";
    assert x[0..|x|] == x;
  }

  /** A word, a space and the join of the rest rebuild `x`. */
  lemma JoinStep(x: string, e: nat, ws: seq<string>, rest: seq<string>)
    requires e < |x| && x[e] == ' ' && |rest| > 0
    requires ws == [x[0..e]] + rest && JoinWith(rest, " ") == x[e + 1..]
    ensures JoinWith(ws, " ") == x
  {
    JoinCons(x[0..e], rest);
    assert x == x[0..e] + " " + x[e + 1..];
  }

  /** What follows a space of a normalised string is normalised. */
  lemma NormalizedTail(x: string, k: nat)
    requires SpacesNormalized(x) && 0 < k < |x| && x[k - 1] == ' '
    ensures SpacesNormalized(x[k..]) && |x[k..]| > 0
  {
    var rest := x[k..];
    forall i | 0 <= i < |rest| && IsSpace(rest[i])
      ensures rest[i] == ' ' && 0 < i < |rest| - 1 && !IsSpace(rest[i + 1])
    {
      assert rest[i] == x[k + i];
    }
  }

  /** Single-spaced join of a word in front of a non-empty list. */
  lemma JoinCons(w: string, ws: seq<string>)
    requires |ws| > 0
    ensures JoinWith([w] + ws, " ") == w + " " + JoinWith(ws, " ")
  {
    assert ([w] + ws)[1..] == ws;
  }

  lemma CollapseNormalized(x: string)
    requires SpacesNormalized(x)
    ensures Collapse(x) == x
  {
    NormalizedWords(x);
  }

  /** Stripping a normalised string changes nothing. */
  lemma StripNormalized(x: string)
    requires SpacesNormalized(x)
    ensures Strip(x) == x
  {
    if |x| > 0 {
      assert !IsSpace(x[0]) && !IsSpace(x[|x| - 1]);
      assert LeadEnd(x) == 0;
      assert TrailStart(x) == |x|;
    }
  }

  /** Python's `s.replace(a, b)` for single characters. */
  function ReplaceChar(s: string, a: char, b: char): (r: string)
    ensures |r| == |s|
    ensures forall i :: 0 <= i < |s| ==> r[i] == (if s[i] == a then b else s[i])
  {
    if |s| == 0 then "" else [if s[0] == a then b else s[0]] + ReplaceChar(s[1..], a, b)
  }

  /** Python's `s.replace(c, '')`. */
  function RemoveChar(s: string, c: char): (r: string)
    ensures c !in r
    ensures forall d :: d in r ==> d in s
    ensures |r| <= |s|
  {
    if |s| == 0 then ""
    else if s[0] == c then RemoveChar(s[1..], c)
    else [s[0]] + RemoveChar(s[1..], c)
  }

  /** Removing a character that does not occur changes nothing. */
  lemma {:induction false} RemoveAbsent(s: string, c: char)
    requires c !in s
    ensures RemoveChar(s, c) == s
    decreases |s|
  {
    if |s| > 0 { RemoveAbsent(s[1..], c); }
  }

  /** ASCII lower-casing. The inputs compared after `.lower()` in the source are
      matched against ASCII literals, so this is exact for those comparisons. */
  function LowerChar(c: char): char {
    if 'A' <= c <= 'Z' then (c as int + 32) as char else c
  }

  function Lower(s: string): (r: string)
    ensures |r| == |s|
    ensures forall i :: 0 <= i < |s| ==> r[i] == LowerChar(s[i])
  {
    if |s| == 0 then "" else [LowerChar(s[0])] + Lower(s[1..])
  }

  function Repeat(c: char, n: nat): (r: string)
    ensures |r| == n
    ensures forall i :: 0 <= i < n ==> r[i] == c
  {
    if n == 0 then "" else [c] + Repeat(c, n - 1)
  }

  /** `t in s` for strings: t occurs as a contiguous substring. */
  predicate Contains(s: string, t: string) {
    exists i :: 0 <= i <= |s| && OccursAt(s, t, i)
  }

  /** `t` occurs in `s` starting at index `i`. */
  predicate OccursAt(s: string, t: string, i: nat) {
    i + |t| <= |s| && s[i..i + |t|] == t
  }

  /** The text of `s` with whitespace and commas erased. Two strings with the
      same erasure spell the same characters in the same order up to spacing
      and commas. */
  function Erase(s: string): string {
    if |s| == 0 then ""
    else if IsSpace(s[0]) || s[0] == ',' then Erase(s[1..])
    else [s[0]] + Erase(s[1..])
  }

  lemma {:induction false} EraseConcat(a: string, b: string)
    ensures Erase(a + b) == Erase(a) + Erase(b)
    decreases |a|
  {
    if |a| > 0 {
      assert (a + b)[1..] == a[1..] + b;
      EraseConcat(a[1..], b);
    } else {
      assert a + b == b;
    }
  }

  lemma {:induction false} EraseBlank(s: string)
    requires forall j :: 0 <= j < |s| ==> IsSpace(s[j]) || s[j] == ','
    ensures Erase(s) == ""
    decreases |s|
  {
    if |s| > 0 { EraseBlank(s[1..]); }
  }

  /** Stripping only removes whitespace. */
  lemma EraseStrip(s: string)
    ensures Erase(Strip(s)) == Erase(s)
  {
    var r := Strip(s);
    var a := LeadEnd(s);
    var b := a + |r|;
    var pre, suf := s[..a], s[b..];
    assert r == s[a..b];
    assert s == pre + r + suf by { Pieces3(s, a, b); }
    assert IsBlank(pre) by {
      forall j | 0 <= j < |pre| ensures IsSpace(pre[j]) { assert pre[j] == s[j]; }
    }
    assert IsBlank(suf) by {
      forall j | 0 <= j < |suf| ensures IsSpace(suf[j]) { assert suf[j] == s[b + j]; }
    }
    ErasePadded(pre, r, suf);
  }

  /** Behind a head element, positions shift by one. */
  lemma BehindHead<T>(r: seq<T>, x: T, rest: seq<T>, k: nat)
    requires r == [x] + rest && 0 < k < |r|
    ensures r[k] == rest[k - 1]
  {
  }

  lemma Pieces3(s: string, a: nat, b: nat)
    requires a <= b <= |s|
    ensures s == s[..a] + s[a..b] + s[b..]
  {
  }

  /** Whitespace on either side erases to nothing. */
  lemma ErasePadded(pre: string, r: string, suf: string)
    requires IsBlank(pre) && IsBlank(suf)
    ensures Erase(pre + r + suf) == Erase(r)
  {
    EraseConcat(pre + r, suf);
    EraseConcat(pre, r);
    EraseBlank(pre);
    EraseBlank(suf);
    assert "" + Erase(r) + "" == Erase(r);
  }

  /** Joining with a separator that is all whitespace and commas erases like
      plain concatenation. */
  lemma {:induction false} EraseJoin(xs: seq<string>, sep: string)
    requires Erase(sep) == ""
    ensures Erase(JoinWith(xs, sep)) == Erase(Concat(xs))
    decreases |xs|
  {
    if |xs| == 1 {
      assert Concat(xs) == xs[0] + Concat(xs[1..]);
      assert xs[0] + "" == xs[0];
    } else if |xs| > 1 {
      EraseJoin(xs[1..], sep);
      EraseConcat(xs[0], sep + JoinWith(xs[1..], sep));
      assert xs[0] + sep + JoinWith(xs[1..], sep) == xs[0] + (sep + JoinWith(xs[1..], sep));
      EraseConcat(sep, JoinWith(xs[1..], sep));
      EraseConcat(xs[0], Concat(xs[1..]));
    }
  }

  lemma {:induction false} ConcatAppend(xs: seq<string>, ys: seq<string>)
    ensures Concat(xs + ys) == Concat(xs) + Concat(ys)
    decreases |xs|
  {
    if |xs| == 0 {
      assert xs + ys == ys;
    } else {
      assert (xs + ys)[1..] == xs[1..] + ys;
      ConcatAppend(xs[1..], ys);
    }
  }

  /** Whitespace around a trimmed string is exactly what `strip()` removes. */
  lemma StripPadded(a: string, b: string, c: string)
    requires IsBlank(a) && Trimmed(b) && IsBlank(c)
    ensures Strip(a + b + c) == b
  {
    var s := a + b + c;
    var k := LeadEnd(s);
    assert s[|a|] == b[0];
    assert forall j :: 0 <= j < |a| ==> s[j] == a[j];
    assert k == |a|;
    var r := Strip(s);
    assert s[|a| + |b| - 1] == b[|b| - 1];
    assert r != "";
    assert |r| == |b|;
    assert s[|a|..|a| + |b|] == b;
  }

  /** Every element of a join occurs in it. */
  lemma {:induction false} JoinContains(xs: seq<string>, sep: string, k: nat)
    requires k < |xs|
    ensures Contains(JoinWith(xs, sep), xs[k])
    decreases k
  {
    var s := JoinWith(xs, sep);
    if k == 0 {
      if |xs| > 1 { assert s[0..|xs[0]|] == xs[0]; } else { assert s[0..|xs[0]|] == xs[0]; }
      assert OccursAt(s, xs[0], 0);
    } else {
      JoinContains(xs[1..], sep, k - 1);
      var off := |xs[0] + sep|;
      assert s[off..] == JoinWith(xs[1..], sep);
      ContainedIn(s, off, xs[k]);
    }
  }

  /** A join of two or more elements holds its separator. */
  lemma JoinHoldsSep(xs: seq<string>, sep: string)
    requires |xs| >= 2
    ensures Contains(JoinWith(xs, sep), sep)
  {
    var s := JoinWith(xs, sep);
    assert s == xs[0] + sep + JoinWith(xs[1..], sep);
    assert s[|xs[0]|..|xs[0]| + |sep|] == sep;
    assert OccursAt(s, sep, |xs[0]|);
  }

  /** The characters of a join come from its elements and its separator. */
  lemma {:induction false} JoinChars(xs: seq<string>, sep: string, cs: set<char>)
    requires forall k, i :: 0 <= k < |xs| && 0 <= i < |xs[k]| ==> xs[k][i] in cs
    requires forall i :: 0 <= i < |sep| ==> sep[i] in cs
    ensures forall i :: 0 <= i < |JoinWith(xs, sep)| ==> JoinWith(xs, sep)[i] in cs
    decreases |xs|
  {
    if |xs| > 1 {
      JoinChars(xs[1..], sep, cs);
      var s := JoinWith(xs, sep);
      var rest := JoinWith(xs[1..], sep);
      assert s == xs[0] + sep + rest;
      forall i | 0 <= i < |s| ensures s[i] in cs {
        if i < |xs[0]| { assert s[i] == xs[0][i]; }
        else if i < |xs[0]| + |sep| { assert s[i] == sep[i - |xs[0]|]; }
        else { assert s[i] == rest[i - |xs[0]| - |sep|]; }
      }
    }
  }
}

=== FILE: wrappers.dfy ===
/** Python's `Optional[T]`, and the outcome of a call that either returns a
    value or raises. */
module Wrappers {
  datatype Option<T> = None | Some(value: T)

  datatype Outcome<T> = Returned(value: T) | Raised
}
